=== FILE: README.md ===
# Car-system agent workflow: a Dafny model

The modelled system answers car-trouble and trip-planning questions through a
LangGraph workflow. An input guard classifies the last message. A reasoning
node asks a language model for an analysis. An output guard checks that
analysis for safety and turns it into the assistant's reply. Around the
workflow sit:

- a tool-calling node that runs the model for at most five tool rounds;
- a registry of specialised agents (a car-diagnosis agent and a trip
  planner), filled at start-up by an initialiser;
- helpers that stream progress events to the client;
- a keyword filter over a fixed catalogue of destinations;
- a loader for the markdown prompts.

The model replaces every language model with an oracle: a function from the
messages it is given to a reply or an exception. Each node's `execute`
becomes a pure function from the workflow state to a command, which is a
partial update plus the successor node. The registry is a value, and each
operation returns the new registry. The file system and the loaded agent
cards are values passed in.

Modules, one file each:

| file | module | models |
|---|---|---|
| wrappers.dfy | `Wrappers` | `Option`; `Outcome`, a value or a raised exception (`Fault`) |
| text.dfy | `Text` | `str.isspace`, `isalnum`, `lower`, NFKD, `strip`, `in`, and string order |
| messages.dfy | `Messages` | messages, model replies, the last message of a role |
| state.dfy | `GraphState` | workflow state, partial updates, merging, routing tables, node configuration |
| tool_loop.dfy | `ToolLoop` | the tool-calling node and its base-class helper |
| nodes.dfy | `Nodes` | input guard, reasoning and agentic nodes, output guard, error handler |
| graph.dfy | `Graph` | node dispatch, the factory's chat graph, a driver that runs it |
| registry.dfy | `Registry` | agent cards and the agent registry |
| initializer.dfy | `Initializer` | start-up registration of the two agents |
| stream.dfy | `Stream` | stop rule, enqueue, guarded streaming, the relay loop |
| travel.dfy | `Travel` | `recommend_locations` |
| prompt_loader.dfy | `PromptLoader` | prompt loading, validation and listing |

### Behaviour worth knowing

- **Registry keys.** The registry stores an entry under the card's exact
  name only. A lookup tries the name as given, then its normalised form. A
  card registered as "São Paulo" is therefore not found as "sao paulo"; see
  `Registry.AccentedNameNotFoundByPlainSpelling`. A variant spelling
  resolves only when its normalised form equals a stored name.
- **Input guard.** The guard classifies the last message of the history,
  whatever its role.
- **Reasoning node.** The graph's reasoning node makes one model call with
  the last human message. The tool loop belongs to the separate
  tool-calling node.
- **Stream relay.** "end" is one of the three continue types, so an "end"
  event keeps the relay going. Only an event of another type, or one with
  no type, stops it.
- **`next_node=`.** The agentic node and the error handler pass their
  successor to `Command` as a `next_node=` keyword. LangGraph's `Command`
  has no such field, so calling either node raises a `TypeError`; see
  `Graph.NextNodeArgumentNodesRaise`. Neither node is part of the chat graph.

## Model

| member | source | states |
|---|---|---|
| Messages.LastHuman | src/nodes/node_with_tools.py:57-61 | The result is None exactly when the history has no human message. Otherwise it is a human message of the history with no human message after it. |
| GraphState.Merge | src/data_models/graph_state.py:15-27 | A key the update writes takes the update's value, whole. Every key it does not write keeps the state's value. |
| GraphState.MergeLastWriteWins | src/data_models/graph_state.py:15-27 | Updates merge by key overwrite. Two merges in a row equal one merge of the combined update, the empty update changes nothing, and applying an update twice equals applying it once. |
| ToolLoop.FindToolFrom | src/nodes/node_with_tools.py:94 | The tool found is the first bound tool with the requested name, and None means no bound tool has that name. |
| ToolLoop.RunTool | src/nodes/node_with_tools.py:89-113 | Running a request never raises. The tool result carries the request's id ("" when missing) and name. Its content is "Tool '<name>' not found." for an unknown tool, the first matching tool's output, or "Tool '<name>' execution error: ..." when that tool raises. |
| ToolLoop.RunTools | src/nodes/node_with_tools.py:192-194 | There is one tool result per request, in request order, each echoing its request's id and name. |
| ToolLoop.RunToolsPointwise | src/nodes/node_with_tools.py:192-194 | The i-th result is the i-th request run alone: requests do not affect one another. |
| ToolLoop.BindLlm | src/nodes/node_with_tools.py:63-72 | There is no model to call exactly when the node has no backend. |
| ToolLoop.ModelInput | src/nodes/node_with_tools.py:76-82 | A non-empty system prompt is prepended to what the model sees, and the history follows unchanged. An empty prompt adds nothing. |
| ToolLoop.InvokeLlm | src/nodes/node_with_tools.py:74-87 | The call raises exactly when the model raises. A reply always comes back as an assistant message, and a reply that was not an assistant message carries no tool requests. |
| ToolLoop.Loop | src/nodes/node_with_tools.py:159-194 | Every completed round is a reply that requested tools followed by exactly the results of running them. The model is invoked at most as many times as the round limit. The loop runs out of rounds exactly when it completed that many tool rounds. |
| ToolLoop.LoopReplies | src/nodes/node_with_tools.py:159-194 | Each invocation sees the starting history grown by all earlier rounds and returns that round's reply. The invocation after the last round gives the final answer or the exception the loop stopped with. |
| ToolLoop.RoundsGrowth | src/nodes/node_with_tools.py:161-194 | n tool rounds store exactly n assistant messages and one tool result per request: the history grows by n plus the number of requests, and nothing else (no system prompt) is stored. |
| ToolLoop.ExecuteWithTools | src/nodes/node_with_tools.py:115-214 | Every path writes the error key and routes with `goto`. Each failure routes to the "end" target (default "END") and leaves the analysis keys alone. An empty history, a history without a human message, and a missing backend each give their fixed error. A model exception inside the loop gives "Error in agentic analysis: ..." and writes nothing else. |
| ToolLoop.ToolNodeAnswer | src/nodes/node_with_tools.py:167-189 | A successful run routes to "next_node" and comes from a loop that ended with a tool-free reply. That reply's text is the analysis (with the last human input and the node's name) and the only recommendation. The status is "analysis_completed", and the stored history is the old one, fewer than five tool rounds, then that reply. |
| ToolLoop.ToolNodeExhausted | src/nodes/node_with_tools.py:196-204 | The only failure that stores history is exhaustion. Exactly five rounds all requested tools, the error is "Max tool iterations reached without final answer.", and the stored history is the old one followed by those five rounds. |
| ToolLoop.ToolNodeFollowsLoop | src/nodes/node_with_tools.py:159-214 | Once there is a human message and a model, the loop's end decides the result. A tool-free reply clears the error and becomes the analysis, with the rounds and the reply stored. Running out of rounds gives "Max tool iterations reached without final answer." with the rounds stored. An exception gives "Error in agentic analysis: ..." alone. |
| ToolLoop.NoToolsSingleCall | src/nodes/node_with_tools.py:159-189 | A model that never requests tools is invoked exactly once, and its reply is the only message added. |
| ToolLoop.AlwaysToolsExhausts | src/nodes/node_with_tools.py:159-204 | A model that always requests tools is invoked once per round, and the loop ends because it ran out of rounds. |
| ToolLoop.AlwaysToolsNodeExhausted | src/nodes/node_with_tools.py:159-204 | A node whose model requests tools in every reply fails with the exhaustion error and routes to the "end" target. |
| ToolLoop.RunModelWithOptionalTools | src/nodes/base/_node_with_tools.py:58-71 | The helper delegates with a cap of 5. On return it gives the returned history and error. On an exception it gives the input history and "Error during model execution: ...". |
| ToolLoop.HelperIgnoresFinalText | src/nodes/base/_node_with_tools.py:64-68 | The helper's result does not depend on the final text the loop returns. |
| Graph.Call | src/nodes/base/_node.py:34-55 | A command returned by a node routes with `goto`. The base node's `execute` returns no command, and the base tool node's `execute` raises NotImplementedError. The error handler runs as written. |
| Graph.CallRunsExecute | src/nodes/base/_node.py:47-55 | Calling a node gives exactly the command its own `execute` builds. The input guard node raises exactly when its guard raises. |
| Graph.Construct | src/nodes/agentic_node.py:96-117 | A command can be built exactly when it routes with `goto`. Passing the successor as `next_node=` raises a TypeError. |
| Graph.NextNodeArgumentNodesRaise | src/nodes/agentic_node.py:49-117 | The agentic node and the error handler raise a TypeError on every call, whatever the state. |
| Graph.Drive | src/graphs/factory.py:76-85 | A run executes at most as many nodes as its step budget, and only nodes of the graph. |
| Graph.Invoke | src/graphs/factory.py:76-85 | A graph without a START edge raises ValueError before running any node. A run executes at most 25 nodes, all of the graph, and starts at the node the START edge names. |
| Graph.LoadModels | src/graphs/factory.py:29-46 | Models are built exactly when all three prompts load and all three builders succeed. The guard model comes from the guard's prompt, the reasoning model from the reasoning prompt with the three tool names, and the output model from its prompt with no tools. A failure loading the input guard's prompt is the factory's failure. |
| Graph.CreateChatGraphAsWritten | src/graphs/factory.py:64-70 | The factory as written never returns a graph. Once the prompts and models load, building the reasoning node without its required `tools` raises a TypeError. |
| Graph.CreateChatGraph | src/graphs/factory.py:23-85 | With the tools passed, the factory fails exactly when a prompt or model fails. The graph has the three named nodes and the static edges START→input_guard_rail and output_guard_rail→END only. |
| Graph.ChatGraphLookups | src/graphs/factory.py:56-84 | The graph maps each of the three names to its node, and its only static edges are START→input_guard_rail and output_guard_rail→END. |
| Graph.GuardTargets | src/graphs/factory.py:56-62 | A guard that returns a command goes to reasoning_node or output_guard_rail. The guard node raises exactly when the guard's model does. |
| Graph.ReasoningStep | src/graphs/factory.py:64-70 | The reasoning node's command leads to output_guard_rail on every path. |
| Graph.OutputStep | src/graphs/factory.py:72-75 | The output guard's command ends the run on every path. |
| Graph.CallChatSteps | src/graphs/factory.py:64-75 | For every state, reasoning hands over to the output guard and the output guard ends the run. |
| Graph.FromOutputGuardWith | src/graphs/factory.py:72-84 | From the output guard, one step ends the run with its update merged. |
| Graph.FromReasoningWith | src/graphs/factory.py:64-84 | From the reasoning node, the run is reasoning then output guard, then END. |
| Graph.ChatGraphPathsWith | src/graphs/factory.py:56-84 | For any node behaviour that respects the routing tables, a finished run's path is [input guard, reasoning, output guard] or [input guard, output guard]. A failed run stopped at the input guard. |
| Graph.ChatGraphPaths | src/graphs/factory.py:56-84 | Every run of the chat graph visits the input guard first. A finished run ends after the output guard, with at most three node executions. A run fails only when the input guard's model raises, and then stops at the input guard. |
| Graph.FromReasoning | src/graphs/factory.py:64-84 | A run entering the reasoning node ends with the output guard's answer to the state the reasoning node left. |
| Nodes.InputGuard | src/nodes/input_guard_rail.py:38-104 | The guard never writes messages or analysis keys, and always writes the error key. An empty history gives "No user message found." toward "end", without a model call, or the missing key's error when there is no "end" route. A model exception propagates. Only an accepted input sets a status, which is "input_validated", with the error cleared, routed to "next_node". |
| Nodes.InputGuardDecision | src/nodes/input_guard_rail.py:65-104 | Acceptance clears the error and goes to "next_node" exactly when the parsed output is a verdict with `is_valid`. A rejection copies the verdict's message toward "end". Any other output gives "Invalid output from validation model." toward "end". |
| Nodes.InputGuardSeesLastOnly | src/nodes/input_guard_rail.py:49-62 | Histories ending in the same message, whatever its role, get the same result. |
| Nodes.InputGuardEmptyNoCall | src/nodes/input_guard_rail.py:47-57 | An empty history gets the same answer whatever the model is. |
| Nodes.Reasoning | src/nodes/reasoning_node.py:53-135 | The node passes its successor with `goto`. It never writes messages or user input. A cleared error goes to the "next_node" route and any error to the "end" route. An empty history and a history without a human message each give their fixed error. |
| Nodes.Agentic | src/nodes/agentic_node.py:49-117 | The node passes its successor as `next_node=`. It never writes messages or user input. A cleared error goes to the "next_node" route and any error to the "end" route. An empty history and a history without a human message each give their fixed error. |
| Nodes.Analyze | src/nodes/reasoning_node.py:53-135 | No path writes messages or user input. The target is the "next_node" or "end" route (default "END"). An empty history and a history without a human message each give their fixed error toward "end". |
| Nodes.ReasoningSucceedsIff | src/nodes/reasoning_node.py:93-135 | The error is cleared exactly when there is a human message and the model answers. Success stores the reply's text as the analysis (with the human input and the node's name) and as the only recommendation, sets status "analysis_completed", and routes to "next_node". A model exception gives "Error in agentic analysis: ..." toward "end". |
| Nodes.ReasoningSeesLastHumanOnly | src/nodes/reasoning_node.py:73-96 | Histories with the same last human message get the same command. |
| Nodes.AgenticMirrorsReasoning | src/nodes/agentic_node.py:49-117 | The agentic node writes exactly the reasoning node's update toward the same successor. |
| Nodes.NonBlankOr | src/nodes/output_guard_rail.py:119-123 | A blank model reply is replaced by the fallback, and any other reply is kept. |
| Nodes.ProcessError | src/nodes/output_guard_rail.py:94-152 | The error branch routes to "end", clears the error and replaces the history with one assistant message. The status is "error_processed" exactly when the rewrite request to the model answers. The message is then the answer, or the retry apology when the answer is blank. When the model raises, the message is the team apology. |
| Nodes.ProcessErrorNeverBlank | src/nodes/output_guard_rail.py:94-152 | The error branch never shows the user a blank message. |
| Nodes.OutputGuardErrorIgnoresRest | src/nodes/output_guard_rail.py:59-62 | With the same truthy error, two states get the same answer, whatever else they hold. |
| Nodes.ProcessRecommendations | src/nodes/output_guard_rail.py:154-235 | The recommendation branch routes to "end", leaves the error key alone, and appends exactly one message to the unchanged history. |
| Nodes.OutputGuard | src/nodes/output_guard_rail.py:43-92 | The output guard always routes to "end" and always writes messages. A truthy error selects the error branch whatever the analysis holds. A missing analysis, empty recommendations or an empty first recommendation append the fixed "could not process" message with status "completed_no_analysis". Otherwise it processes the recommendations. |
| Nodes.OutputGuardHistory | src/nodes/output_guard_rail.py:59-235 | Outside the error branch exactly one assistant message is appended to the history. The error branch replaces the history with one assistant message and clears the error. |
| Nodes.OutputGuardStatus | src/nodes/output_guard_rail.py:186-235 | The status is "completed_successfully" exactly when the model answers, and "completed_with_fallback" exactly when it raises. The appended message is the answer, or the mechanic fallback when the answer is blank or missing. |
| Nodes.OutputGuardNoAnalysisNoCall | src/nodes/output_guard_rail.py:70-88 | A state with nothing to present gets the same answer whatever the model is. |
| Nodes.OutputGuardReadsLittle | src/nodes/output_guard_rail.py:163-187 | The safety check depends on the state only through the last message's content and the first recommendation. |
| Nodes.ErrorHandlerAsWritten | src/nodes/error_handler.py:32-100 | Every path clears the error, leaves messages alone, and passes the "end" target as `next_node=`. A falsy error stores only the unexpected-problem apology. |
| Nodes.ErrorHandlerNeverAsksModel | src/nodes/error_handler.py:60-100 | As written, every real error ends in the fallback with status "error_processing_failed", whatever the model would answer. |
| Nodes.ErrorHandler | src/nodes/error_handler.py:32-100 | With the prompt assigned, every path clears the error, leaves messages alone and stores a non-empty user-facing text. |
| Nodes.ErrorHandlerUsesModel | src/nodes/error_handler.py:60-100 | With the prompt assigned, the fallback is stored exactly when the model raises or does not answer with a dict. A non-empty "content" reaches the user with status "error_processed". |
| Registry.NamedCard | src/data_models/agent_card.py:40-61 | A card made from a name alone has that name and no capabilities or skills. |
| Registry.Normalize | src/services/agent_registry.py:31-40 | A normalised name holds only characters that are decomposed, not marks, letters, digits or whitespace, and their own lower case. It has no whitespace at either end. |
| Registry.NormalizeShape | src/services/agent_registry.py:31-40 | A normalised name holds only lower-case letters, digits and whitespace. It has no combining marks, no undecomposed characters, and no whitespace at either end. |
| Registry.NormalizedFixed | src/services/agent_registry.py:31-40 | A name already in normalised form normalises to itself. |
| Registry.NormalizeIdempotent | src/services/agent_registry.py:31-40 | Normalising twice is normalising once. |
| Registry.CompatibilityExamples | src/services/agent_registry.py:31-40 | Compatibility characters normalise through their decompositions: "¼" becomes "14", and a spacing acute accent between letters becomes a space. |
| Registry.Clear | src/services/agent_registry.py:78-83 | After `clear` both maps are empty. |
| Registry.Register | src/services/agent_registry.py:42-47 | Card and model are written under exactly the card's name, overwriting that key only. |
| Registry.RegisterKeepsValid | src/services/agent_registry.py:42-47 | The two maps keep the same key set and each card stays under its own name. Registering adds exactly the card's name and leaves every other entry untouched. |
| Registry.Lookup | src/services/agent_registry.py:49-65 | An exact key wins, then the normalised name. A miss happens exactly when neither is stored. |
| Registry.GetCard | src/services/agent_registry.py:49-56 | The card under the exact name wins, then the card under the normalised name. None means neither name is stored. |
| Registry.GetModel | src/services/agent_registry.py:58-65 | The model under the exact name wins, then the model under the normalised name. None means neither name is stored. |
| Registry.LookupsAgree | src/services/agent_registry.py:49-65 | Card and model lookups hit and miss together. A card found is stored under the name asked for or under its normalised form. |
| Registry.UnnormalizedKeyNeedsExactName | src/services/agent_registry.py:46-56 | A card stored under a name not in normalised form is found only by that exact name. |
| Registry.SoleUnnormalizedEntryMisses | src/services/agent_registry.py:46-56 | With one agent under a non-normalised name, every other name misses. |
| Registry.AccentedNameNotFoundByPlainSpelling | src/services/agent_registry.py:46-56 | An agent registered as "São Paulo" is not found as "sao paulo". |
| Registry.ClearForgets | src/services/agent_registry.py:78-83 | After `clear`, every lookup misses and `list_cards` is empty. |
| Registry.DedupeFrom | src/services/agent_registry.py:72-76 | The deduplicated list has no repeated name and holds exactly the names seen. Its names are the collected names in their old positions, followed by each new name in the order it first appears, like the keys of a dict written in that order. |
| Registry.DedupeFromLists | src/services/agent_registry.py:67-76 | The deduplicated list is the values of a dict written card by card, in the dict's key order: position i holds the latest card written under the i-th name first seen. |
| Registry.ListCards | src/services/agent_registry.py:67-76 | `list_cards` has no repeated name and holds exactly the names of the stored cards. |
| Registry.ListCardsAreStored | src/services/agent_registry.py:67-76 | Every card `list_cards` returns is the card stored under its name. |
| Registry.ListCardsCount | src/services/agent_registry.py:67-76 | `list_cards` has exactly one card per stored name. |
| Registry.RegisterAllKeys | src/services/agent_registry.py:42-47 | A sequence of registrations keeps the registry valid and adds exactly the registered names. |
| Registry.RegisterAllStores | src/services/agent_registry.py:42-47 | After registering entries with distinct names, each entry's card and model are stored under its name. |
| Registry.ListCardsCountsDistinctNames | src/services/agent_registry.py:67-83 | After a clear, `list_cards` counts the distinct names registered since. |
| Registry.FinalAnswer | src/services/agent_registry.py:113-125 | A non-empty final text is the answer. Otherwise the answer is the content of the last assistant message. The call raises, in the logging call, exactly when the final text is missing and there is no assistant message. |
| Registry.Invoke | src/services/agent_registry.py:85-125 | An unresolvable name gets "Agente '<name>' não encontrado." without any model call. A found model runs on the query alone, as one human message. Its exceptions propagate; otherwise the reply is its final answer. |
| Registry.InvokeFollowsCard | src/services/agent_registry.py:85-125 | A miss gets the not-found reply. A hit runs the model registered under the found card's name on the query; its exception propagates, and otherwise its final answer is the reply. |
| Registry.InvokeMissIsReported | src/services/agent_registry.py:99-106 | Invoking an unknown agent never raises, and the reply names the agent. |
| Initializer.KnownCards | src/utils/agent_initializer.py:55-74 | Only the two known names are kept. None are dropped exactly when every card is known. |
| Initializer.BuildModels | src/utils/agent_initializer.py:55-74 | Only known cards are registered, at most one entry per known card. The loop ends without a fault exactly when every known card was registered. |
| Initializer.BuildModelsEntries | src/utils/agent_initializer.py:55-74 | The loop registers the known cards in file order, each with the model built for it. |
| Initializer.BuildModelsFault | src/utils/agent_initializer.py:55-74 | The loop stops early exactly when some build raises. Otherwise every known card is registered. |
| Initializer.NatToString | src/utils/agent_initializer.py:80-83 | The count in the mismatch message is the decimal numeral of the number: its digits denote the number, and it starts with 0 only for zero. |
| Initializer.InitializeExternalAgents | src/utils/agent_initializer.py:22-98 | The registry always holds only known names, with cards and models under the same keys. A card-file failure, or a failure loading the car prompt, propagates and leaves the registry empty. Success means `list_cards` counts exactly the loaded cards, and at least one. |
| Initializer.InitRegistersLoadedCards | src/utils/agent_initializer.py:55-88 | A successful start-up registers exactly the loaded cards' names. Each card is stored under its name, with the model its builder made from it and the loaded prompts. |
| Initializer.InitSucceedsIff | src/utils/agent_initializer.py:41-88 | Initialisation succeeds exactly when the cards and both prompts load, every model builds, there is at least one card, every card is known, and no name repeats. |
| Initializer.RegistrationSucceedsIff | src/utils/agent_initializer.py:55-86 | The registration step passes both checks exactly when every build succeeds, there is a card, every card is known, and no name repeats. |
| Initializer.KnownNamesCount | src/utils/agent_initializer.py:55-84 | The known cards have as many distinct names as there are cards exactly when every card is known and no name repeats. |
| Initializer.AtMostTwoAgents | src/utils/agent_initializer.py:55-88 | A successful initialisation loaded one or two cards. |
| Initializer.EmptyCardsFileRejected | src/utils/agent_initializer.py:77-86 | An empty card list passes the count check, fails with "No agents were registered successfully", and leaves the registry empty. |
| Initializer.CountCheckFails | src/utils/agent_initializer.py:77-84 | When the prompts load and every build succeeds but `list_cards` has a different length from the card list, start-up fails with "Expected <cards> agents, but only <listed> were registered". |
| Initializer.DuplicateCardRejected | src/utils/agent_initializer.py:55-84 | The car agent listed twice fails the count check with "Expected 2 agents, but only 1 were registered". |
| Initializer.DuplicateRegistersOnce | src/utils/agent_initializer.py:55-77 | Two cards of the same known name build twice and register once. |
| Stream.ShouldStop | src/utils/stream.py:98-107 | The relay continues exactly for the types "chunk", "reasoning" and "end". A missing or any other type stops it. |
| Stream.Enqueue | src/utils/stream.py:109-116 | `stream` appends one event with the given type and text at the back, and the queue before it is unchanged. |
| Stream.StreamIfAvailable | src/utils/stream.py:119-128 | Only a streamer's queue grows. Anything else, including a callback whose `stream` raises, is left as it was. |
| Stream.DefaultStreamKeepsRelayGoing | src/utils/stream.py:109-128 | Text streamed with the default type never stops the relay. |
| Stream.UpToStop | src/utils/stream.py:56-67 | The relayed events are a prefix of the dequeued ones. Only the last can stop the relay, and one that does is the last. Events that never stop are all relayed. |
| Stream.Relay | src/utils/stream.py:39-79 | The loop yields exactly the reference lines: one data line per event up to the stopping one, then one error line if the graph raised. |
| Stream.RelayShape | src/utils/stream.py:56-79 | Each event is yielded before its stop test, so the stopping event is the last data line. A graph that raised adds exactly one error line at the end. |
| Stream.ContinueEventsAllRelayed | src/utils/stream.py:56-67 | Events of the continue types, "end" included, are all relayed. |
| Travel.OfKind | src/tools/travel.py:86-94 | The filter keeps only destinations of the kind, in catalogue order. |
| Travel.OfKindComplete | src/tools/travel.py:86-94 | The filter keeps every destination of the kind. |
| Travel.RecommendLocations | src/tools/travel.py:79-104 | At most three destinations are returned. The first keyword group found in the lower-cased query fixes the kind of every one. |
| Travel.CatalogueByKind | src/tools/travel.py:36-94 | Three catalogue entries are beaches, one a mountain town, one a historic city. |
| Travel.RecommendationCases | src/tools/travel.py:79-104 | The answer is the three beaches, the mountain town, the historic city, or one of each kind. |
| Travel.RecommendationIsSubsequence | src/tools/travel.py:79-104 | The answer lists catalogue entries in catalogue order. |
| PromptLoader.LoadPrompt | src/utils/prompt_loader.py:15-54 | An empty name raises ValueError and a missing file raises FileNotFoundError naming the path. Loading succeeds exactly for a readable `<dir>/<name>.md`, whose stripped text it returns. |
| PromptLoader.LoadedPromptIsStripped | src/utils/prompt_loader.py:49-52 | A loaded prompt strips to itself. |
| PromptLoader.ValidatePromptContent | src/utils/prompt_loader.py:85-103 | Content is valid exactly when its stripped text has at least 10 characters, and valid content is never blank. |
| PromptLoader.GetPrompt | src/utils/prompt_loader.py:107-125 | Load failures propagate. A loaded prompt is returned exactly when it has at least 10 characters; otherwise a ValueError names the file. |
| PromptLoader.Stem | src/utils/prompt_loader.py:79-80 | The stem plus ".md" is the file name, except for ".md" itself. |
| PromptLoader.MarkdownStems | src/utils/prompt_loader.py:78-80 | The stems are exactly those of the entries ending in ".md". |
| PromptLoader.SortNames | src/utils/prompt_loader.py:82 | The result is sorted in code-point order and is a permutation of the input. |
| PromptLoader.SortedUnique | src/utils/prompt_loader.py:82 | Two sorted lists with the same elements are equal. |
| PromptLoader.ListAvailablePrompts | src/utils/prompt_loader.py:57-82 | A missing directory lists nothing. Otherwise the result is the sorted permutation of the directory's ".md" stems. |
| PromptLoader.ListingOrderIrrelevant | src/utils/prompt_loader.py:57-82 | Two directories whose ".md" stems agree up to order list the same prompts. |
| Text.Strip | src/utils/prompt_loader.py:51 | The stripped text is the slice that follows the leading whitespace and is followed only by whitespace, and it neither starts nor ends with whitespace. |
| Text.StripEmptyIffBlank | src/utils/prompt_loader.py:95 | Stripping leaves nothing exactly when the text is all whitespace. |
| Text.Contains | src/tools/travel.py:81-94 | `sub in s` holds exactly when `sub` occurs at some index of `s`. |

## Left out

- The language models are oracles. The Gemini and ChatModel backends, the
  structured-output setup, token streaming and `bind_tools` are not part of
  this model. Their files do not match the core's calls: `invoke_with_tools`
  is not defined, and the constructor takes no `tools`.
- The tools other than `recommend_locations` are parameters: car status,
  weather, trip feasibility, and the registry delegation tools.
- The card loader, `load_agent_cards_from_file`, is not part of this model.
  The loaded cards, or the exception loading raised, are a parameter.
- The file system is a value. Paths are strings joined with "/", and the
  default directory stands for `src/prompts` next to the loader.
- Concurrency is not modelled: the registry's lock, the thread pool, the
  relay's 0.1 s polling, and LangGraph's asynchronous execution.
- The relay is a function of the events it dequeues before the graph
  finishes, and of how the graph finished. Timing is not modelled.
  `str(event)` is an abstract rendering.
- Logging is left out. The one log call with an effect, `len(None)` in
  `invoke`, is modelled in `Registry.FinalAnswer`.
- In-place mutation is not modelled. The tool-calling node appends to the
  state's own message list; here it returns the grown list. In the
  exception branch the Python list has already grown, but the update does
  not carry it.
- The LangGraph driver is reduced to following `goto`, merging updates by
  key overwrite, falling back to a static edge when a node returns no
  command, and the default recursion limit of 25. The `"append"` annotation
  on `messages` is a plain string, not a reducer, so overwrite is the
  merge. Conditional edges, checkpoints and state-schema validation are
  left out. The error handler's `user_input` key is not in the schema, and
  the model keeps it.
- The state's `stream_callback` and the output guard's optional streaming
  of generated fragments are left out. The guarded streaming call is
  modelled on its own (`Stream.StreamIfAvailable`).
- Unicode: `isspace` uses Python's full whitespace table. `lower` covers
  ASCII and Latin-1. NFKD covers all of Latin-1, and `isalnum` covers ASCII,
  Latin-1 and the Greek small mu the micro sign decomposes into. Other
  characters count as non-alphanumeric, with no case and no decomposition.
- Registry.Normalize: the fallback to the raw name when decomposition
  raises is not modelled, because decomposition under the table never
  raises.
- The card's `extra` field and URL validation are not modelled.
- `str(e)` of an exception is the `Fault`'s message, and `str(reply)` is
  an abstract text carried by the reply.
- `Node.__str__` and `__repr__` are modelled by `GraphState.Display`, which
  carries no contract beyond returning the name.
- The web application, routers, DTOs and notebooks are outside the core.

## Findings

| source | as written | input that shows it | evidently intended | confidence | as-written member | corrected member |
|---|---|---|---|---|---|---|
| src/graphs/factory.py:64-70 | `ReasoningNode(...)` is called without its required `tools` argument (src/nodes/reasoning_node.py:27-34) | any call of `create_chat_graph` in which the three prompts and models load | the reasoning node receives the tool list already given to its model | high; not executed | Graph.CreateChatGraphAsWritten | Graph.CreateChatGraph |
| src/nodes/error_handler.py:63 | the request reads `self.error_processing_prompt`, which the constructor (lines 15-30) never assigns | any state whose `error_message` is a non-empty string | the handler holds a prompt and the model's answer reaches the user | high; not executed | Nodes.ErrorHandlerAsWritten | Nodes.ErrorHandler |

For the factory, `Graph.CreateChatGraphAsWritten` is proved to raise a
TypeError once the models load, and never to return a graph.
`Graph.CreateChatGraph` is the corrected factory. It succeeds exactly when
the prompts and models load, and `Graph.ChatGraphPaths` proves its routing.

For the error handler, `Nodes.ErrorHandlerNeverAsksModel` proves that, as
written, every real error ends in the fallback. `Nodes.ErrorHandlerUsesModel`
proves that the corrected handler passes a non-empty model answer to the
user. `Graph.Call` runs the handler as written. The node raises a
TypeError on every call either way, because of its `next_node=` keyword.

=== FILE: graph.dfy ===
/** Node dispatch (src/nodes/base/_node.py), the chat graph the factory
    wires (src/graphs/factory.py), and a driver that runs it: execute the
    current node, merge its update, follow its `goto`. */
module Graph {
  import opened Wrappers
  import opened Messages
  import opened GraphState
  import opened Nodes
  import ToolLoop
  import PromptLoader

  // ---------------------------------------------------------------------------
  // Nodes
  // ---------------------------------------------------------------------------

  /** The node classes, each with the configuration and collaborators its
      `execute` uses. `BaseNode` is `Node` itself, whose `execute` body is
      `pass`; `BaseToolNode` is `NodeWithTools` from the base package, whose
      `execute` raises. The error handler runs as written, without the
      prompt its `execute` reads. */
  datatype NodeImpl =
    | InputGuardNode(info: NodeInfo, guard: GuardModel)
    | ReasoningNode(info: NodeInfo, model: Llm, tools: seq<string>)
    | AgenticNode(info: NodeInfo, model: Llm, tools: seq<string>)
    | ToolNode(info: NodeInfo, backend: ToolLoop.Backend, prompt: string, toolset: seq<ToolLoop.Tool>)
    | OutputGuardNode(info: NodeInfo, model: Llm)
    | ErrorHandlerNode(info: NodeInfo, model: Llm)
    | BaseNode(info: NodeInfo)
    | BaseToolNode(info: NodeInfo)

  const NextNodeKeywordError: string := "Command.__init__() got an unexpected keyword argument 'next_node'"

  /** Building the command a node returns: langgraph's `Command` has no
      `next_node` field, so passing one raises. */
  function Construct(c: Command): (r: Outcome<Command>)
    ensures r.Ok? <==> c.route.Goto?
    ensures r.Ok? ==> r.value == c
    ensures r.Raised? ==> r.fault == Fault(TypeError, NextNodeKeywordError)
  {
    if c.route.Goto? then Ok(c) else Raised(Fault(TypeError, NextNodeKeywordError))
  }

  /** A command returned, or the exception raised while making it. */
  function Lift(r: Outcome<Command>): Outcome<Option<Command>> {
    match r
    case Ok(c) => Ok(Some(c))
    case Raised(f) => Raised(f)
  }

  /** `node(state, config)`, which is `node.execute(state, config)`: a
      command, no command (`None`), or an exception. */
  function Call(n: NodeImpl, s: State): (r: Outcome<Option<Command>>)
    ensures r.Ok? && r.value.Some? ==> r.value.value.route.Goto?
    ensures n.BaseNode? ==> r == Ok(None)
    ensures n.BaseToolNode? ==> r == Raised(Fault(NotImplementedError, ""))
  {
    match n
    case InputGuardNode(info, guard) => Lift(InputGuard(info.routing, guard, s))
    case ReasoningNode(info, model, _) => Lift(Construct(Reasoning(info, model, s)))
    case AgenticNode(info, model, _) => Lift(Construct(Agentic(info, model, s)))
    case ToolNode(info, backend, prompt, tools) =>
      Lift(Construct(ToolLoop.ExecuteWithTools(info, backend, prompt, tools, s)))
    case OutputGuardNode(info, model) => Lift(Construct(OutputGuard(info.routing, model, s)))
    case ErrorHandlerNode(info, model) => Lift(Construct(ErrorHandlerAsWritten(info.routing, model, s)))
    case BaseNode(_) => Ok(None)
    case BaseToolNode(_) => Raised(Fault(NotImplementedError, ""))
  }

  /** The nodes that hand their successor over as `next_node=` raise on
      every call, whatever the state. */
  lemma NextNodeArgumentNodesRaise(n: NodeImpl, s: State)
    requires n.AgenticNode? || n.ErrorHandlerNode?
    ensures Call(n, s) == Raised(Fault(TypeError, NextNodeKeywordError))
  {
    if n.AgenticNode? {
      assert Agentic(n.info, n.model, s).route.NextNodeArg?;
    } else {
      assert ErrorHandlerAsWritten(n.info.routing, n.model, s).route.NextNodeArg?;
    }
  }

  /** Calling a node runs its own `execute`: the command is the one the
      node's function builds. */
  lemma CallRunsExecute(n: NodeImpl, s: State)
    ensures n.ReasoningNode? ==> Call(n, s) == Ok(Some(Reasoning(n.info, n.model, s)))
    ensures n.OutputGuardNode? ==> Call(n, s) == Ok(Some(OutputGuard(n.info.routing, n.model, s)))
    ensures n.ToolNode? ==> Call(n, s) == Ok(Some(ToolLoop.ExecuteWithTools(n.info, n.backend, n.prompt, n.toolset, s)))
    ensures n.InputGuardNode? ==>
              && (Call(n, s).Ok? <==> InputGuard(n.info.routing, n.guard, s).Ok?)
              && (Call(n, s).Ok? ==> Call(n, s).value == Some(InputGuard(n.info.routing, n.guard, s).value))
  {
  }

  // ---------------------------------------------------------------------------
  // Graphs and the driver
  // ---------------------------------------------------------------------------

  /** langgraph's `START` marker. */
  const Start: string := "__start__"

  /** langgraph's default recursion limit: at most this many steps. */
  const RecursionLimit: nat := 25

  const RecursionLimitError: string := "Recursion limit of 25 reached without hitting a stop condition."

  /** A graph: its nodes by name and its static edges (`add_edge`). */
  datatype Graph = Graph(nodes: map<string, NodeImpl>, edges: map<string, string>)

  /** A run: the names of the nodes executed, in order, and the final state
      or the exception the run ended with. */
  datatype Run = Run(path: seq<string>, result: Outcome<State>)

  function Then(at: string, rest: Run): Run {
    Run([at] + rest.path, rest.result)
  }

  /** What running a node on a state gives; `Call` is the one the nodes
      implement. */
  type Step = (NodeImpl, State) -> Outcome<Option<Command>>

  /** Runs the graph from node `at`, running each node through `call`, with
      at most `fuel` steps left: `END` stops, a node's update is merged and
      its `goto` followed; a node that returns no command follows its static
      edge, if any. */
  function Drive(call: Step, g: Graph, at: string, s: State, fuel: nat): (r: Run)
    ensures |r.path| <= fuel
    ensures forall i :: 0 <= i < |r.path| ==> r.path[i] in g.nodes
    decreases fuel
  {
    if at == End then Run([], Ok(s))
    else if fuel == 0 then Run([], Raised(Fault(OtherError, RecursionLimitError)))
    else if at !in g.nodes then Run([], Raised(Fault(KeyError, "'" + at + "'")))
    else
      match call(g.nodes[at], s)
      case Raised(f) => Run([at], Raised(f))
      case Ok(None) =>
        if at in g.edges then Then(at, Drive(call, g, g.edges[at], s, fuel - 1)) else Run([at], Ok(s))
      case Ok(Some(c)) => Then(at, Drive(call, g, c.route.target, Merge(s, c.update), fuel - 1))
  }

  /** `graph.invoke(state)`: from the node the `START` edge names. */
  function Invoke(g: Graph, s: State): (r: Run)
    ensures Start !in g.edges ==> r.path == [] && r.result.Raised? && r.result.fault.kind == ValueError
    ensures |r.path| <= RecursionLimit
    ensures forall i :: 0 <= i < |r.path| ==> r.path[i] in g.nodes
    ensures Start in g.edges && g.edges[Start] != End && g.edges[Start] in g.nodes ==> 0 < |r.path| && r.path[0] == g.edges[Start]
  {
    if Start in g.edges then Drive(Call, g, g.edges[Start], s, RecursionLimit)
    else Run([], Raised(Fault(ValueError, "Graph must have an entrypoint")))
  }

  /** One step of the driver over a node that returns a command. */
  lemma DriveStep(call: Step, g: Graph, at: string, s: State, fuel: nat, c: Command)
    requires at != End && fuel > 0 && at in g.nodes && call(g.nodes[at], s) == Ok(Some(c))
    ensures Drive(call, g, at, s, fuel) == Then(at, Drive(call, g, c.route.target, Merge(s, c.update), fuel - 1))
  {
  }

  // ---------------------------------------------------------------------------
  // The factory
  // ---------------------------------------------------------------------------

  const InputGuardName: string := "input_guard_rail"
  const ReasoningName: string := "reasoning_node"
  const OutputGuardName: string := "output_guard_rail"

  const InputGuardDescription: string := "Ensures input data meets specified criteria before processing."
  const OutputGuardDescription: string := "Processes final responses, handles errors, and ensures safety."
  /** ReasoningNode's default name and description. */
  const ReasoningDefaultName: string := "AgenticNode"
  const ReasoningDefaultDescription: string := "Default agentic node"

  const ReasoningTools: seq<string> := ["list_registered_agents", "invoke_agent", "is_trip_possible"]
  const MissingToolsError: string := "ReasoningNode.__init__() missing 1 required positional argument: 'tools'"

  const InputGuardRouting: Routing := map[NextKey := ReasoningName, EndKey := OutputGuardName]
  const ReasoningRouting: Routing := map[NextKey := OutputGuardName, EndKey := OutputGuardName]
  const OutputGuardRouting: Routing := map[EndKey := End]

  /** How chat models are made: one seen through the guard's structured
      output schema, and a plain one with a prompt and tool names. Either
      constructor may raise. */
  datatype Builders = Builders(guard: string -> Outcome<GuardModel>, chat: (string, seq<string>) -> Outcome<Llm>)

  datatype Models = Models(guard: GuardModel, reasoning: Llm, output: Llm)

  /** The prompts and models `create_chat_graph` makes before any node. */
  function LoadModels(fs: PromptLoader.FileSystem, b: Builders): (r: Outcome<Models>)
    ensures r.Ok? ==> && PromptLoader.LoadPrompt(fs, InputGuardName, None).Ok?
                      && PromptLoader.LoadPrompt(fs, ReasoningName, None).Ok?
                      && PromptLoader.LoadPrompt(fs, OutputGuardName, None).Ok?
    ensures PromptLoader.LoadPrompt(fs, InputGuardName, None).Raised? ==>
              r == Raised(PromptLoader.LoadPrompt(fs, InputGuardName, None).fault)
    ensures r.Ok? <==>
              && PromptLoader.LoadPrompt(fs, InputGuardName, None).Ok?
              && PromptLoader.LoadPrompt(fs, ReasoningName, None).Ok?
              && PromptLoader.LoadPrompt(fs, OutputGuardName, None).Ok?
              && b.guard(PromptLoader.LoadPrompt(fs, InputGuardName, None).value).Ok?
              && b.chat(PromptLoader.LoadPrompt(fs, ReasoningName, None).value, ReasoningTools).Ok?
              && b.chat(PromptLoader.LoadPrompt(fs, OutputGuardName, None).value, []).Ok?
    ensures r.Ok? ==>
              && r.value.guard == b.guard(PromptLoader.LoadPrompt(fs, InputGuardName, None).value).value
              && r.value.reasoning == b.chat(PromptLoader.LoadPrompt(fs, ReasoningName, None).value, ReasoningTools).value
              && r.value.output == b.chat(PromptLoader.LoadPrompt(fs, OutputGuardName, None).value, []).value
  {
    var guardPrompt :- PromptLoader.LoadPrompt(fs, InputGuardName, None);
    var reasoningPrompt :- PromptLoader.LoadPrompt(fs, ReasoningName, None);
    var outputPrompt :- PromptLoader.LoadPrompt(fs, OutputGuardName, None);
    var guard :- b.guard(guardPrompt);
    var reasoning :- b.chat(reasoningPrompt, ReasoningTools);
    var output :- b.chat(outputPrompt, []);
    Ok(Models(guard, reasoning, output))
  }

  /** `create_chat_graph` as written: the ReasoningNode is constructed
      without its required `tools`, so once the models exist the call
      raises. No graph is ever returned. */
  function CreateChatGraphAsWritten(fs: PromptLoader.FileSystem, b: Builders): (r: Outcome<Graph>)
    ensures r.Raised?
    ensures LoadModels(fs, b).Ok? ==> r.fault == Fault(TypeError, MissingToolsError)
    ensures LoadModels(fs, b).Raised? ==> r.fault == LoadModels(fs, b).fault
  {
    var _ :- LoadModels(fs, b);
    Raised(Fault(TypeError, MissingToolsError))
  }

  /** The three nodes of the chat graph. */
  function GuardNodeOf(m: Models): NodeImpl {
    InputGuardNode(NodeInfo("InputGuardRail", InputGuardDescription, InputGuardRouting), m.guard)
  }

  function ReasoningNodeOf(m: Models): NodeImpl {
    ReasoningNode(NodeInfo(ReasoningDefaultName, ReasoningDefaultDescription, ReasoningRouting), m.reasoning, ReasoningTools)
  }

  function OutputNodeOf(m: Models): NodeImpl {
    OutputGuardNode(NodeInfo("OutputGuardRail", OutputGuardDescription, OutputGuardRouting), m.output)
  }

  /** The graph wired from the three models. */
  function ChatGraph(m: Models): Graph {
    Graph(
      map[InputGuardName := GuardNodeOf(m), ReasoningName := ReasoningNodeOf(m), OutputGuardName := OutputNodeOf(m)],
      map[Start := InputGuardName, OutputGuardName := End])
  }

  /** `create_chat_graph` with the reasoning node given its tool list: it
      fails only when a prompt or a model does. */
  function CreateChatGraph(fs: PromptLoader.FileSystem, b: Builders): (r: Outcome<Graph>)
    ensures r.Ok? <==> LoadModels(fs, b).Ok?
    ensures r.Ok? ==> && r.value.nodes.Keys == {InputGuardName, ReasoningName, OutputGuardName}
                      && r.value.edges == map[Start := InputGuardName, OutputGuardName := End]
  {
    var m :- LoadModels(fs, b);
    Ok(ChatGraph(m))
  }

  /** The graph's names are pairwise different. */
  lemma NamesDiffer()
    ensures InputGuardName != ReasoningName && InputGuardName != OutputGuardName
    ensures ReasoningName != OutputGuardName
    ensures End != InputGuardName && End != ReasoningName && End != OutputGuardName
    ensures Start != InputGuardName && Start != OutputGuardName
  {
    assert InputGuardName[0] == 'i' && ReasoningName[0] == 'r' && OutputGuardName[0] == 'o';
    assert End[0] == '_' && Start[2] == 's' && End[2] == 'e';
  }

  /** Where each name leads in the chat graph. */
  lemma ChatGraphLookups(m: Models)
    ensures var g := ChatGraph(m);
            && g.nodes.Keys == {InputGuardName, ReasoningName, OutputGuardName}
            && g.nodes[InputGuardName] == GuardNodeOf(m)
            && g.nodes[ReasoningName] == ReasoningNodeOf(m)
            && g.nodes[OutputGuardName] == OutputNodeOf(m)
            && Start in g.edges && g.edges[Start] == InputGuardName
            && OutputGuardName in g.edges && g.edges[OutputGuardName] == End
  {
    NamesDiffer();
  }

  /** The guard node goes on to reasoning or to the output guard. */
  lemma GuardTargets(m: Models, s: State)
    ensures Call(GuardNodeOf(m), s).Ok? ==>
              && Call(GuardNodeOf(m), s) == Ok(Some(InputGuard(InputGuardRouting, m.guard, s).value))
              && Call(GuardNodeOf(m), s).value.value.route.target in {ReasoningName, OutputGuardName}
    ensures Call(GuardNodeOf(m), s).Raised? <==> InputGuard(InputGuardRouting, m.guard, s).Raised?
  {
    CallRunsExecute(GuardNodeOf(m), s);
  }

  /** The reasoning node's command, which leads to the output guard. */
  lemma ReasoningStep(m: Models, s: State)
    ensures Call(ReasoningNodeOf(m), s) == Ok(Some(Reasoning(ReasoningNodeOf(m).info, m.reasoning, s)))
    ensures Reasoning(ReasoningNodeOf(m).info, m.reasoning, s).route == Goto(OutputGuardName)
  {
    CallRunsExecute(ReasoningNodeOf(m), s);
  }

  /** The output guard's command, which ends the run. */
  lemma OutputStep(m: Models, s: State)
    ensures Call(OutputNodeOf(m), s) == Ok(Some(OutputGuard(OutputGuardRouting, m.output, s)))
    ensures OutputGuard(OutputGuardRouting, m.output, s).route == Goto(End)
  {
    CallRunsExecute(OutputNodeOf(m), s);
  }

  /** `call` behaves like the chat graph's nodes after the guard: reasoning
      always hands over to the output guard, and the output guard always
      ends the run. */
  ghost predicate ChatSteps(call: Step, m: Models) {
    && (forall x :: call(ReasoningNodeOf(m), x).Ok? && call(ReasoningNodeOf(m), x).value.Some?
                    && call(ReasoningNodeOf(m), x).value.value.route == Goto(OutputGuardName))
    && (forall x :: call(OutputNodeOf(m), x).Ok? && call(OutputNodeOf(m), x).value.Some?
                    && call(OutputNodeOf(m), x).value.value.route == Goto(End))
  }

  /** The nodes' own `execute` behaves that way. */
  lemma CallChatSteps(m: Models)
    ensures ChatSteps(Call, m)
  {
    forall x | true
      ensures Call(ReasoningNodeOf(m), x).Ok? && Call(ReasoningNodeOf(m), x).value.Some?
              && Call(ReasoningNodeOf(m), x).value.value.route == Goto(OutputGuardName)
    {
      ReasoningStep(m, x);
    }
    forall x | true
      ensures Call(OutputNodeOf(m), x).Ok? && Call(OutputNodeOf(m), x).value.Some?
              && Call(OutputNodeOf(m), x).value.value.route == Goto(End)
    {
      OutputStep(m, x);
    }
  }

  /** From the output guard, one step ends the run with its update merged. */
  lemma FromOutputGuardWith(call: Step, m: Models, s: State, fuel: nat)
    requires ChatSteps(call, m) && fuel >= 1
    ensures var r := Drive(call, ChatGraph(m), OutputGuardName, s, fuel);
            && r.path == [OutputGuardName]
            && r.result == Ok(Merge(s, call(OutputNodeOf(m), s).value.value.update))
  {
    NamesDiffer();
    ChatGraphLookups(m);
    DriveStep(call, ChatGraph(m), OutputGuardName, s, fuel, call(OutputNodeOf(m), s).value.value);
  }

  /** From the reasoning node, two steps end the run. */
  lemma FromReasoningWith(call: Step, m: Models, s: State, fuel: nat)
    requires ChatSteps(call, m) && fuel >= 2
    ensures var r := Drive(call, ChatGraph(m), ReasoningName, s, fuel);
            var s1 := Merge(s, call(ReasoningNodeOf(m), s).value.value.update);
            && r.path == [ReasoningName, OutputGuardName]
            && r.result == Ok(Merge(s1, call(OutputNodeOf(m), s1).value.value.update))
  {
    NamesDiffer();
    ChatGraphLookups(m);
    var c := call(ReasoningNodeOf(m), s).value.value;
    DriveStep(call, ChatGraph(m), ReasoningName, s, fuel, c);
    FromOutputGuardWith(call, m, Merge(s, c.update), fuel - 1);
  }

  /** The paths through the chat graph for any `call` that behaves like its
      nodes: the guard raises and the run stops there, or it goes on to
      reasoning or to the output guard and the run ends after the output
      guard. */
  lemma ChatGraphPathsWith(call: Step, m: Models, s: State)
    requires ChatSteps(call, m)
    requires call(GuardNodeOf(m), s).Ok? ==>
               && call(GuardNodeOf(m), s).value.Some?
               && call(GuardNodeOf(m), s).value.value.route.target in {ReasoningName, OutputGuardName}
    ensures var r := Drive(call, ChatGraph(m), InputGuardName, s, RecursionLimit);
            && (r.result.Ok? ==> r.path == [InputGuardName, ReasoningName, OutputGuardName]
                                 || r.path == [InputGuardName, OutputGuardName])
            && (r.result.Raised? ==> r.path == [InputGuardName] && call(GuardNodeOf(m), s).Raised?)
  {
    NamesDiffer();
    ChatGraphLookups(m);
    var g := ChatGraph(m);
    if call(GuardNodeOf(m), s).Ok? {
      var c := call(GuardNodeOf(m), s).value.value;
      DriveStep(call, g, InputGuardName, s, RecursionLimit, c);
      var s1 := Merge(s, c.update);
      if c.route.target == ReasoningName {
        FromReasoningWith(call, m, s1, RecursionLimit - 1);
      } else {
        FromOutputGuardWith(call, m, s1, RecursionLimit - 1);
      }
    }
  }

  /** Every run of the chat graph starts at the input guard. A run that
      finishes went through the output guard last, with or without the
      reasoning node in between; a run that fails stopped at the input
      guard, the only node that lets an exception through. */
  lemma ChatGraphPaths(m: Models, s: State)
    ensures var r := Invoke(ChatGraph(m), s);
            && (r.result.Ok? ==> r.path == [InputGuardName, ReasoningName, OutputGuardName]
                                 || r.path == [InputGuardName, OutputGuardName])
            && (r.result.Raised? ==> r.path == [InputGuardName]
                                     && InputGuard(InputGuardRouting, m.guard, s).Raised?)
  {
    ChatGraphLookups(m);
    GuardTargets(m, s);
    CallChatSteps(m);
    ChatGraphPathsWith(Call, m, s);
  }

  /** A run through the reasoning node ends with the output guard's answer
      to the state the reasoning node left. */
  lemma FromReasoning(m: Models, s: State, fuel: nat)
    requires fuel >= 2
    ensures var r := Drive(Call, ChatGraph(m), ReasoningName, s, fuel);
            var s1 := Merge(s, Reasoning(ReasoningNodeOf(m).info, m.reasoning, s).update);
            && r.path == [ReasoningName, OutputGuardName]
            && r.result == Ok(Merge(s1, OutputGuard(OutputGuardRouting, m.output, s1).update))
  {
    CallChatSteps(m);
    FromReasoningWith(Call, m, s, fuel);
    ReasoningStep(m, s);
    OutputStep(m, Merge(s, Reasoning(ReasoningNodeOf(m).info, m.reasoning, s).update));
  }
}

=== FILE: initializer.dfy ===
/** Start-up registration of the two specialised agents
    (src/utils/agent_initializer.py).

    Reading the cards file and building a chat model are outside the model:
    the loaded cards and the model builder are parameters. */
module Initializer {
  import opened Wrappers
  import opened Text
  import PromptLoader
  import opened Registry

  const CarAgent: string := "AgenteDiagnosticoCarro"
  const TripAgent: string := "AgentePlanejadorViagem"
  const CarPromptName: string := "car_central"
  const TripPromptName: string := "trip_planner"
  const FlashModel: string := "gemini-2.5-flash"
  const CarTools: seq<string> := ["get_car_status"]
  const TripTools: seq<string> := ["recommend_locations", "get_predicted_weather"]
  const NoAgentsError: string := "No agents were registered successfully"

  /** Builds a chat model from a model name, a prompt, the card and the names
      of the tools it binds; the constructor may raise. */
  type ModelBuilder<M> = (string, string, AgentCard, seq<string>) -> Outcome<M>

  /** The names the initialiser knows how to build a model for. */
  predicate Known(name: string) {
    name == CarAgent || name == TripAgent
  }

  /** The model for a known card: the car agent with its prompt and the
      status tool, the trip agent with its prompt and its two tools. */
  function BuildFor<M>(build: ModelBuilder<M>, card: AgentCard, carPrompt: string, tripPrompt: string)
    : Outcome<M>
  {
    if card.name == CarAgent then build(FlashModel, carPrompt, card, CarTools)
    else build(FlashModel, tripPrompt, card, TripTools)
  }

  /** The cards with a known name, in file order. */
  function KnownCards(cards: seq<AgentCard>): (ks: seq<AgentCard>)
    ensures |ks| <= |cards|
    ensures |ks| == |cards| <==> forall i :: 0 <= i < |cards| ==> Known(cards[i].name)
    ensures forall i :: 0 <= i < |ks| ==> Known(ks[i].name)
  {
    if |cards| == 0 then []
    else if Known(cards[0].name) then [cards[0]] + KnownCards(cards[1..])
    else
      assert !Known(cards[0].name);
      KnownCards(cards[1..])
  }

  /** Every build the loop performs succeeds. */
  ghost predicate AllBuild<M>(build: ModelBuilder<M>, cards: seq<AgentCard>, carPrompt: string, tripPrompt: string) {
    forall i :: 0 <= i < |cards| && Known(cards[i].name) ==> BuildFor(build, cards[i], carPrompt, tripPrompt).Ok?
  }

  /** What the registration loop produced: the registrations made, in order,
      and the exception that stopped it, if any. */
  datatype Built<M> = Built(entries: seq<(AgentCard, M)>, fault: Option<Fault>)

  /** The loop over the cards: a known card is built and registered, an
      unknown one is skipped, and a failing build stops the loop with the
      registrations made so far. */
  function BuildModels<M>(build: ModelBuilder<M>, cards: seq<AgentCard>, carPrompt: string, tripPrompt: string)
    : (b: Built<M>)
    ensures |b.entries| <= |KnownCards(cards)|
    ensures b.fault.None? <==> |b.entries| == |KnownCards(cards)|
    ensures forall i :: 0 <= i < |b.entries| ==> Known(b.entries[i].0.name)
  {
    if |cards| == 0 then Built([], None)
    else
      var rest := BuildModels(build, cards[1..], carPrompt, tripPrompt);
      if !Known(cards[0].name) then rest
      else
        match BuildFor(build, cards[0], carPrompt, tripPrompt)
        case Raised(f) => Built([], Some(f))
        case Ok(m) => Built([(cards[0], m)] + rest.entries, rest.fault)
  }

  /** The loop registers the known cards in file order, each with the model
      built for it. */
  lemma {:induction false} BuildModelsEntries<M>(
    build: ModelBuilder<M>, cards: seq<AgentCard>, carPrompt: string, tripPrompt: string)
    ensures var b := BuildModels(build, cards, carPrompt, tripPrompt);
            forall i :: 0 <= i < |b.entries| ==>
              && b.entries[i].0 == KnownCards(cards)[i]
              && Ok(b.entries[i].1) == BuildFor(build, b.entries[i].0, carPrompt, tripPrompt)
    decreases |cards|
  {
    if |cards| > 0 {
      BuildModelsEntries(build, cards[1..], carPrompt, tripPrompt);
    }
  }

  /** The loop stops early exactly when some build raises; otherwise every
      known card is registered. */
  lemma {:induction false} BuildModelsFault<M>(
    build: ModelBuilder<M>, cards: seq<AgentCard>, carPrompt: string, tripPrompt: string)
    ensures var b := BuildModels(build, cards, carPrompt, tripPrompt);
            && (b.fault.None? <==> AllBuild(build, cards, carPrompt, tripPrompt))
            && (b.fault.None? ==> |b.entries| == |KnownCards(cards)|)
    decreases |cards|
  {
    if |cards| > 0 {
      BuildModelsFault(build, cards[1..], carPrompt, tripPrompt);
      AllBuildCons(build, cards, carPrompt, tripPrompt);
    }
  }

  /** Every build succeeds exactly when the first one does, if the first
      card is known, and every later one does. */
  lemma AllBuildCons<M>(build: ModelBuilder<M>, cards: seq<AgentCard>, carPrompt: string, tripPrompt: string)
    requires |cards| > 0
    ensures AllBuild(build, cards, carPrompt, tripPrompt) <==>
              && (Known(cards[0].name) ==> BuildFor(build, cards[0], carPrompt, tripPrompt).Ok?)
              && AllBuild(build, cards[1..], carPrompt, tripPrompt)
  {
    if AllBuild(build, cards, carPrompt, tripPrompt) {
      forall i | 0 <= i < |cards[1..]| && Known(cards[1..][i].name)
        ensures BuildFor(build, cards[1..][i], carPrompt, tripPrompt).Ok?
      {
        assert cards[1..][i] == cards[i + 1];
      }
    }
    if (Known(cards[0].name) ==> BuildFor(build, cards[0], carPrompt, tripPrompt).Ok?)
       && AllBuild(build, cards[1..], carPrompt, tripPrompt) {
      forall i | 0 <= i < |cards| && Known(cards[i].name)
        ensures BuildFor(build, cards[i], carPrompt, tripPrompt).Ok?
      {
        if i > 0 { assert cards[1..][i - 1] == cards[i]; }
      }
    }
  }

  /** The number a string of decimal digits denotes, most significant
      digit first. */
  ghost function DecimalValue(s: string): nat
    requires forall i :: 0 <= i < |s| ==> '0' <= s[i] <= '9'
    decreases |s|
  {
    if |s| == 0 then 0
    else DecimalValue(s[..|s| - 1]) * 10 + (s[|s| - 1] - '0') as nat
  }

  /** Decimal digits of a natural number, as an f-string prints it: they
      denote the number, and only zero starts with the digit 0. */
  function NatToString(n: nat): (s: string)
    ensures |s| > 0 && forall i :: 0 <= i < |s| ==> '0' <= s[i] <= '9'
    ensures DecimalValue(s) == n
    ensures s[0] == '0' <==> n == 0
  {
    var d := ['0' + (n % 10) as char];
    if n < 10 then d
    else
      var r := NatToString(n / 10) + d;
      assert r[..|r| - 1] == NatToString(n / 10);
      r
  }

  function CountMismatchError(expected: nat, registered: nat): string {
    "Expected " + NatToString(expected) + " agents, but only " + NatToString(registered) + " were registered"
  }

  /** The registry after initialisation, and the exception it ended with. */
  datatype Init<M> = Init(registry: Registry<M>, fault: Option<Fault>)

  /** `initialize_external_agents`: clear the registry, load the cards and
      both prompts, register a model for each known card, then require that
      every card was registered and that there was at least one. A failure
      leaves whatever was registered before it. */
  function InitializeExternalAgents<M>(
    previous: Registry<M>, fs: PromptLoader.FileSystem, cards: Outcome<seq<AgentCard>>, build: ModelBuilder<M>)
    : (res: Init<M>)
    ensures cards.Raised? ==> res == Init(Empty(), Some(cards.fault))
    ensures cards.Ok? && PromptLoader.LoadPrompt(fs, CarPromptName, None).Raised? ==>
              res == Init(Empty(), Some(PromptLoader.LoadPrompt(fs, CarPromptName, None).fault))
    ensures Valid(res.registry)
    ensures forall k :: k in res.registry.cards ==> Known(k)
    ensures res.fault.None? ==> |ListCards(res.registry)| == |cards.value| > 0
  {
    var r0 := Clear(previous);
    match cards
    case Raised(f) => Init(r0, Some(f))
    case Ok(cs) =>
      match PromptLoader.LoadPrompt(fs, CarPromptName, None)
      case Raised(f) => Init(r0, Some(f))
      case Ok(carPrompt) =>
        match PromptLoader.LoadPrompt(fs, TripPromptName, None)
        case Raised(f) => Init(r0, Some(f))
        case Ok(tripPrompt) =>
          var b := BuildModels(build, cs, carPrompt, tripPrompt);
          BuildModelsEntries(build, cs, carPrompt, tripPrompt);
          var r := RegisterAll(r0, b.entries);
          EmptyValid<M>();
          RegisterAllKeys(r0, b.entries);
          assert forall k :: k in r.cards ==> Known(k) by {
            forall k | k in r.cards ensures Known(k) {
              var i :| 0 <= i < |b.entries| && EntryNames(b.entries)[i] == k;
            }
          }
          if b.fault.Some? then Init(r, b.fault)
          else if |ListCards(r)| != |cs| then
            Init(r, Some(Fault(ValueError, CountMismatchError(|cs|, |ListCards(r)|))))
          else if |ListCards(r)| == 0 then
            Init(r, Some(Fault(ValueError, NoAgentsError)))
          else
            Init(r, None)
  }

  // ---------------------------------------------------------------------------
  // When initialisation succeeds
  // ---------------------------------------------------------------------------

  /** A list has at most as many distinct elements as entries, and exactly
      as many when no entry repeats. */
  lemma {:induction false} SetOfSeqSize(s: seq<string>)
    ensures |set x | x in s| <= |s|
    ensures |set x | x in s| == |s| <==> Distinct(s)
  {
    if |s| > 0 {
      SetOfSeqSize(s[1..]);
      var tail := set x | x in s[1..];
      assert (set x | x in s) == tail + {s[0]};
      if s[0] in s[1..] {
        assert (set x | x in s) == tail;
        var j :| 0 <= j < |s[1..]| && s[1..][j] == s[0];
        assert s[0] == s[j + 1];
      } else {
        assert s[0] !in tail;
        if Distinct(s[1..]) {
          forall i, j | 0 <= i < j < |s| ensures s[i] != s[j] {
            if i == 0 { assert s[j] == s[1..][j - 1]; }
            else { assert s[i] == s[1..][i - 1] && s[j] == s[1..][j - 1]; }
          }
        }
        if Distinct(s) {
          forall i, j | 0 <= i < j < |s[1..]| ensures s[1..][i] != s[1..][j] {
            assert s[1..][i] == s[i + 1] && s[1..][j] == s[j + 1];
          }
        }
      }
    }
  }

  /** The names registered from the entries are the names of the known cards. */
  lemma EntryNamesAreKnownNames<M>(entries: seq<(AgentCard, M)>, cards: seq<AgentCard>)
    requires |entries| == |KnownCards(cards)|
    requires forall i :: 0 <= i < |entries| ==> entries[i].0 == KnownCards(cards)[i]
    ensures EntryNames(entries) == Names(KnownCards(cards))
  {
  }

  /** Initialisation succeeds exactly when the cards and both prompts load,
      every model builds, there is at least one card, every card names one of
      the two known agents and no name repeats. */
  lemma InitSucceedsIff<M>(
    previous: Registry<M>, fs: PromptLoader.FileSystem, cards: Outcome<seq<AgentCard>>, build: ModelBuilder<M>)
    ensures InitializeExternalAgents(previous, fs, cards, build).fault.None? <==>
              && cards.Ok?
              && PromptLoader.LoadPrompt(fs, CarPromptName, None).Ok?
              && PromptLoader.LoadPrompt(fs, TripPromptName, None).Ok?
              && AllBuild(build, cards.value, PromptLoader.LoadPrompt(fs, CarPromptName, None).value,
                          PromptLoader.LoadPrompt(fs, TripPromptName, None).value)
              && |cards.value| > 0
              && (forall i :: 0 <= i < |cards.value| ==> Known(cards.value[i].name))
              && Distinct(Names(cards.value))
  {
    if cards.Ok? && PromptLoader.LoadPrompt(fs, CarPromptName, None).Ok?
       && PromptLoader.LoadPrompt(fs, TripPromptName, None).Ok? {
      var carPrompt := PromptLoader.LoadPrompt(fs, CarPromptName, None).value;
      var tripPrompt := PromptLoader.LoadPrompt(fs, TripPromptName, None).value;
      RegistrationSucceedsIff(build, cards.value, carPrompt, tripPrompt);
    }
  }

  /** The registration step succeeds exactly when every build does, there
      is a card, every card is known and no name repeats. */
  lemma RegistrationSucceedsIff<M>(build: ModelBuilder<M>, cs: seq<AgentCard>, carPrompt: string, tripPrompt: string)
    ensures var b := BuildModels(build, cs, carPrompt, tripPrompt);
            var n := |ListCards(RegisterAll(Empty<M>(), b.entries))|;
            (b.fault.None? && n == |cs| && n > 0) <==>
              && AllBuild(build, cs, carPrompt, tripPrompt)
              && |cs| > 0
              && (forall i :: 0 <= i < |cs| ==> Known(cs[i].name))
              && Distinct(Names(cs))
  {
    var b := BuildModels(build, cs, carPrompt, tripPrompt);
    BuildModelsEntries(build, cs, carPrompt, tripPrompt);
    BuildModelsFault(build, cs, carPrompt, tripPrompt);
    if b.fault.None? {
      ListCardsCountsDistinctNames(b.entries);
      EntryNamesAreKnownNames(b.entries, cs);
      KnownNamesCount(cs);
    }
  }

  /** The known cards have as many distinct names as there are cards exactly
      when every card is known and no name repeats. */
  lemma KnownNamesCount(cs: seq<AgentCard>)
    ensures |set n | n in Names(KnownCards(cs))| == |cs| <==>
              (forall i :: 0 <= i < |cs| ==> Known(cs[i].name)) && Distinct(Names(cs))
  {
    var ks := KnownCards(cs);
    SetOfSeqSize(Names(ks));
    if forall i :: 0 <= i < |cs| ==> Known(cs[i].name) {
      KnownCardsAll(cs);
    }
  }

  /** When every card is known, the known cards are all the cards. */
  lemma {:induction false} KnownCardsAll(cards: seq<AgentCard>)
    requires forall i :: 0 <= i < |cards| ==> Known(cards[i].name)
    ensures KnownCards(cards) == cards
  {
    if |cards| > 0 {
      KnownCardsAll(cards[1..]);
    }
  }

  /** A successful initialisation holds exactly the loaded cards, each
      under its own name and with the model built for it from its prompt. */
  lemma InitRegistersLoadedCards<M>(
    previous: Registry<M>, fs: PromptLoader.FileSystem, cards: Outcome<seq<AgentCard>>, build: ModelBuilder<M>)
    requires InitializeExternalAgents(previous, fs, cards, build).fault.None?
    ensures cards.Ok? && PromptsLoad(fs)
    ensures var reg := InitializeExternalAgents(previous, fs, cards, build).registry;
            var carPrompt := PromptLoader.LoadPrompt(fs, CarPromptName, None).value;
            var tripPrompt := PromptLoader.LoadPrompt(fs, TripPromptName, None).value;
            && reg.cards.Keys == (set n | n in Names(cards.value))
            && forall i :: 0 <= i < |cards.value| ==>
                 && cards.value[i].name in reg.cards && reg.cards[cards.value[i].name] == cards.value[i]
                 && cards.value[i].name in reg.models
                 && BuildFor(build, cards.value[i], carPrompt, tripPrompt) == Ok(reg.models[cards.value[i].name])
  {
    InitSucceedsIff(previous, fs, cards, build);
    var cs := cards.value;
    var carPrompt := PromptLoader.LoadPrompt(fs, CarPromptName, None).value;
    var tripPrompt := PromptLoader.LoadPrompt(fs, TripPromptName, None).value;
    var b := BuildModels(build, cs, carPrompt, tripPrompt);
    BuildModelsEntries(build, cs, carPrompt, tripPrompt);
    BuildModelsFault(build, cs, carPrompt, tripPrompt);
    KnownCardsAll(cs);
    EntryNamesAreKnownNames(b.entries, cs);
    assert InitializeExternalAgents(previous, fs, cards, build).registry == RegisterAll(Empty<M>(), b.entries);
    RegisteredCardsStored(b.entries, cs, build, carPrompt, tripPrompt);
  }

  /** Registering one built entry per card, with distinct names, stores each
      card and its model under the card's name and nothing else. */
  lemma RegisteredCardsStored<M>(entries: seq<(AgentCard, M)>, cs: seq<AgentCard>, build: ModelBuilder<M>,
                                 carPrompt: string, tripPrompt: string)
    requires |entries| == |cs| && Distinct(EntryNames(entries))
    requires forall i :: 0 <= i < |cs| ==>
               entries[i].0 == cs[i] && Ok(entries[i].1) == BuildFor(build, cs[i], carPrompt, tripPrompt)
    ensures var reg := RegisterAll(Empty<M>(), entries);
            && reg.cards.Keys == (set n | n in Names(cs))
            && forall i :: 0 <= i < |cs| ==>
                 && cs[i].name in reg.cards && reg.cards[cs[i].name] == cs[i]
                 && cs[i].name in reg.models
                 && BuildFor(build, cs[i], carPrompt, tripPrompt) == Ok(reg.models[cs[i].name])
  {
    assert EntryNames(entries) == Names(cs);
    EmptyValid<M>();
    RegisterAllKeys(Empty<M>(), entries);
    forall i: nat | i < |cs| {
      RegisterAllStores(Empty<M>(), entries, i);
    }
  }

  /** At most two agents can ever be initialised: one per known name. */
  lemma AtMostTwoAgents<M>(
    previous: Registry<M>, fs: PromptLoader.FileSystem, cards: Outcome<seq<AgentCard>>, build: ModelBuilder<M>)
    requires InitializeExternalAgents(previous, fs, cards, build).fault.None?
    ensures 1 <= |cards.value| <= 2
  {
    InitSucceedsIff(previous, fs, cards, build);
    KnownDistinctAtMostTwo(cards.value);
  }

  /** Cards with known, pairwise different names number at most two. */
  lemma KnownDistinctAtMostTwo(cs: seq<AgentCard>)
    requires forall i :: 0 <= i < |cs| ==> Known(cs[i].name)
    requires Distinct(Names(cs))
    ensures |cs| <= 2
  {
    var ns := Names(cs);
    SetOfSeqSize(ns);
    assert (set x | x in ns) <= {CarAgent, TripAgent};
    assert |{CarAgent, TripAgent}| <= 2;
    SubsetSize(set x | x in ns, {CarAgent, TripAgent});
  }

  /** Shorthand: both prompts load. */
  ghost predicate PromptsLoad(fs: PromptLoader.FileSystem) {
    PromptLoader.LoadPrompt(fs, CarPromptName, None).Ok? && PromptLoader.LoadPrompt(fs, TripPromptName, None).Ok?
  }

  /** An empty cards file passes the count check and fails the emptiness
      check, leaving the registry empty. */
  lemma EmptyCardsFileRejected<M>(previous: Registry<M>, fs: PromptLoader.FileSystem, build: ModelBuilder<M>)
    requires PromptsLoad(fs)
    ensures InitializeExternalAgents(previous, fs, Ok([]), build) == Init(Empty(), Some(Fault(ValueError, NoAgentsError)))
  {
    assert ListCards(Empty<M>()) == [];
  }

  /** The car agent listed twice registers once, and the count check
      reports one agent registered out of two expected. */
  lemma DuplicateCardRejected<M>(previous: Registry<M>, fs: PromptLoader.FileSystem, build: ModelBuilder<M>)
    requires PromptsLoad(fs)
    requires build(FlashModel, PromptLoader.LoadPrompt(fs, CarPromptName, None).value, NamedCard(CarAgent), CarTools).Ok?
    ensures InitializeExternalAgents(previous, fs, Ok([NamedCard(CarAgent), NamedCard(CarAgent)]), build).fault
            == Some(Fault(ValueError, CountMismatchError(2, 1)))
  {
    var carPrompt := PromptLoader.LoadPrompt(fs, CarPromptName, None).value;
    var tripPrompt := PromptLoader.LoadPrompt(fs, TripPromptName, None).value;
    DuplicateRegistersOnce(build, carPrompt, tripPrompt);
    CountCheckFails(previous, fs, [NamedCard(CarAgent), NamedCard(CarAgent)], build);
  }

  /** Once the prompts load and every build succeeds, a listing whose size
      differs from the number of cards fails the count check. */
  lemma CountCheckFails<M>(previous: Registry<M>, fs: PromptLoader.FileSystem, cs: seq<AgentCard>, build: ModelBuilder<M>)
    requires PromptsLoad(fs)
    requires var b := BuildModels(build, cs, PromptLoader.LoadPrompt(fs, CarPromptName, None).value,
                                  PromptLoader.LoadPrompt(fs, TripPromptName, None).value);
             b.fault.None? && |ListCards(RegisterAll(Empty<M>(), b.entries))| != |cs|
    ensures var b := BuildModels(build, cs, PromptLoader.LoadPrompt(fs, CarPromptName, None).value,
                                 PromptLoader.LoadPrompt(fs, TripPromptName, None).value);
            InitializeExternalAgents(previous, fs, Ok(cs), build).fault
              == Some(Fault(ValueError, CountMismatchError(|cs|, |ListCards(RegisterAll(Empty<M>(), b.entries))|)))
  {
  }

  /** Two cards of the same known name build twice and register once. */
  lemma DuplicateRegistersOnce<M>(build: ModelBuilder<M>, carPrompt: string, tripPrompt: string)
    requires build(FlashModel, carPrompt, NamedCard(CarAgent), CarTools).Ok?
    ensures var b := BuildModels(build, [NamedCard(CarAgent), NamedCard(CarAgent)], carPrompt, tripPrompt);
            b.fault.None? && |ListCards(RegisterAll(Empty<M>(), b.entries))| == 1
  {
    var b := BuildModels(build, [NamedCard(CarAgent), NamedCard(CarAgent)], carPrompt, tripPrompt);
    DuplicateBuildsTwice(build, carPrompt, tripPrompt);
    ListCardsCountsDistinctNames(b.entries);
    SameNameEntries(b.entries, CarAgent);
  }

  /** Both copies of the card build, and both are registered under its name. */
  lemma DuplicateBuildsTwice<M>(build: ModelBuilder<M>, carPrompt: string, tripPrompt: string)
    requires build(FlashModel, carPrompt, NamedCard(CarAgent), CarTools).Ok?
    ensures var b := BuildModels(build, [NamedCard(CarAgent), NamedCard(CarAgent)], carPrompt, tripPrompt);
            && b.fault.None? && |b.entries| == 2
            && b.entries[0].0.name == CarAgent && b.entries[1].0.name == CarAgent
  {
    var cs := [NamedCard(CarAgent), NamedCard(CarAgent)];
    BuildModelsEntries(build, cs, carPrompt, tripPrompt);
    BuildModelsFault(build, cs, carPrompt, tripPrompt);
    assert KnownCards(cs) == cs;
    assert AllBuild(build, cs, carPrompt, tripPrompt);
  }

  /** Two entries under one name name one agent. */
  lemma SameNameEntries<M>(entries: seq<(AgentCard, M)>, name: string)
    requires |entries| == 2 && entries[0].0.name == name && entries[1].0.name == name
    ensures (set n | n in EntryNames(entries)) == {name}
  {
    assert EntryNames(entries) == [name, name];
  }

  lemma SubsetSize(a: set<string>, b: set<string>)
    requires a <= b
    ensures |a| <= |b|
  {
    assert b == a + (b - a);
  }
}

=== FILE: messages.dfy ===
/** Conversation messages and the replies a language model gives.

    The four message classes the core uses (human, assistant, system and tool
    result) become one datatype. A reply is whatever a model's `invoke`
    returns; the nodes take its text apart in one of a few fixed ways. */
module Messages {
  import opened Wrappers

  /** One tool-call request emitted by the model. A name or arguments missing
      from the request appear here as `""` and the empty map; a missing or
      `None` id is `None`. */
  datatype ToolCall = ToolCall(name: string, args: map<string, string>, id: Option<string>)

  datatype Message =
    | Human(content: string)
    | AI(content: string, toolCalls: seq<ToolCall>)
    | System(content: string)
    | ToolResult(name: string, callId: string, content: string)

  /** What a model's `invoke` hands back. */
  datatype Reply =
      /** an assistant message, possibly requesting tools */
    | AIReply(content: string, toolCalls: seq<ToolCall>)
      /** some other object with a `content` attribute */
    | ContentReply(content: string)
      /** a dict; `shown` is its `str()` */
    | DictReply(entries: map<string, string>, shown: string)
      /** anything else; `shown` is its `str()` */
    | OtherReply(shown: string)

  /** A model call: the history it is given, and its reply or the exception it raised. */
  type Llm = seq<Message> -> Outcome<Reply>

  /** The reply's text as the single-call nodes read it: the `content`
      attribute, else a dict's "content" entry, else `str(response)`. */
  function ReplyText(r: Reply): string {
    match r
    case AIReply(c, _) => c
    case ContentReply(c) => c
    case DictReply(e, shown) => if "content" in e then e["content"] else shown
    case OtherReply(shown) => shown
  }

  /** The class of a message, as `isinstance` tells them apart. */
  datatype Role = HumanRole | AIRole | SystemRole | ToolRole

  function RoleOf(m: Message): Role {
    match m
    case Human(_) => HumanRole
    case AI(_, _) => AIRole
    case System(_) => SystemRole
    case ToolResult(_, _, _) => ToolRole
  }

  /** Index of the last message of `role` among the first `n` messages,
      scanning from the back. */
  function LastOfRoleBefore(ms: seq<Message>, role: Role, n: nat): (r: Option<nat>)
    requires n <= |ms|
    ensures r.None? ==> forall i :: 0 <= i < n ==> RoleOf(ms[i]) != role
    ensures r.Some? ==> && r.value < n
                        && RoleOf(ms[r.value]) == role
                        && forall j :: r.value < j < n ==> RoleOf(ms[j]) != role
  {
    if n == 0 then None
    else if RoleOf(ms[n - 1]) == role then Some(n - 1)
    else LastOfRoleBefore(ms, role, n - 1)
  }

  /** The last message of `role` in a history, or `None` when there is none. */
  function LastOfRole(ms: seq<Message>, role: Role): (r: Option<Message>)
    ensures r.None? <==> forall i :: 0 <= i < |ms| ==> RoleOf(ms[i]) != role
    ensures r.Some? ==> RoleOf(r.value) == role
    ensures r.Some? ==> exists i :: 0 <= i < |ms| && ms[i] == r.value &&
                                    forall j :: i < j < |ms| ==> RoleOf(ms[j]) != role
  {
    match LastOfRoleBefore(ms, role, |ms|)
    case None => None
    case Some(i) => Some(ms[i])
  }

  /** The last human message of a history (`_get_last_human_message`). */
  function LastHuman(ms: seq<Message>): (r: Option<Message>)
    ensures r.None? <==> forall i :: 0 <= i < |ms| ==> !ms[i].Human?
    ensures r.Some? ==> r.value.Human?
    ensures r.Some? ==> exists i :: 0 <= i < |ms| && ms[i] == r.value &&
                                    forall j :: i < j < |ms| ==> !ms[j].Human?
  {
    LastOfRole(ms, HumanRole)
  }
}

=== FILE: nodes.dfy ===
/** The single-call workflow nodes: the input guard, the reasoning node and
    its unused twin the agentic node, the output guard, and the error
    handler (src/nodes/). Each `execute` is a function from the state to a
    command; the model each node holds is an oracle over the messages it is
    given. */
module Nodes {
  import opened Wrappers
  import opened Text
  import opened Messages
  import opened GraphState
  import ToolLoop

  // ---------------------------------------------------------------------------
  // Input guard rail (src/nodes/input_guard_rail.py)
  // ---------------------------------------------------------------------------

  /** The structured output `InputGuardRailOutput`. */
  datatype Verdict = Verdict(isValid: bool, errorMessage: Option<string>)

  /** A parsed value: a verdict, or anything else (including `None`). */
  datatype Parsed = VerdictValue(verdict: Verdict) | OtherValue

  /** What the structured-output model returns: a dict whose "parsed" entry
      is the parsed value (a missing entry reads as `OtherValue`), or the
      value itself. */
  datatype GuardReply = AsDict(parsed: Parsed) | AsObject(value: Parsed)

  /** The input guard's model: the messages it is given, and its reply or
      the exception it raised. */
  type GuardModel = seq<Message> -> Outcome<GuardReply>

  const NoUserMessageError := "No user message found."
  const InvalidOutputError := "Invalid output from validation model."
  const InputValidated := "input_validated"

  /** The value the node inspects: a dict is unwrapped through "parsed". */
  function GuardOutput(reply: GuardReply): Parsed {
    match reply
    case AsDict(p) => p
    case AsObject(v) => v
  }

  /** `InputGuardRail.execute`. Routing uses `routing_options[...]`, so a
      missing key raises KeyError, and a model exception is not caught. */
  function InputGuard(routing: Routing, model: GuardModel, s: State): (r: Outcome<Command>)
    ensures r.Ok? ==> && r.value.update.messages.Keep? && r.value.route.Goto?
                      && r.value.update.errorMessage.Put?
                      && r.value.update.analysisResult.Keep?
                      && r.value.update.recommendations.Keep?
    ensures |s.messages| == 0 ==>
              r == (match RouteAt(routing, EndKey)
                    case Ok(t) => Ok(Command(ErrorOnly(Some(NoUserMessageError)), Goto(t)))
                    case Raised(f) => Raised(f))
    ensures |s.messages| > 0 && model([s.messages[|s.messages| - 1]]).Raised? ==>
              r == Raised(model([s.messages[|s.messages| - 1]]).fault)
    ensures r.Ok? ==> || (NextKey in routing && r.value.route == Goto(routing[NextKey]))
                      || (EndKey in routing && r.value.route == Goto(routing[EndKey]))
    ensures r.Ok? && r.value.update.processingStatus.Put? ==>
              && |s.messages| > 0 && NextKey in routing && r.value.route == Goto(routing[NextKey])
              && r.value.update == NoChange.(processingStatus := Put(InputValidated), errorMessage := Put(None))
  {
    if |s.messages| == 0 then
      var t :- RouteAt(routing, EndKey);
      Ok(Command(ErrorOnly(Some(NoUserMessageError)), Goto(t)))
    else
      var reply :- model([s.messages[|s.messages| - 1]]);
      match GuardOutput(reply)
      case VerdictValue(v) =>
        if v.isValid then
          var t :- RouteAt(routing, NextKey);
          Ok(Command(NoChange.(processingStatus := Put(InputValidated), errorMessage := Put(None)),
                     Goto(t)))
        else
          var t :- RouteAt(routing, EndKey);
          Ok(Command(ErrorOnly(v.errorMessage), Goto(t)))
      case OtherValue =>
        var t :- RouteAt(routing, EndKey);
        Ok(Command(ErrorOnly(Some(InvalidOutputError)), Goto(t)))
  }

  /** The guard's decision in terms of the verdict: it succeeds exactly when
      there is a message, the model accepts it, and the routing table names
      both successors it may need; acceptance clears the error and goes to
      `next_node`, anything else goes to `end` with the verdict's message. */
  lemma InputGuardDecision(routing: Routing, model: GuardModel, s: State)
    requires EndKey in routing && NextKey in routing
    requires |s.messages| > 0 && model([s.messages[|s.messages| - 1]]).Ok?
    ensures var out := GuardOutput(model([s.messages[|s.messages| - 1]]).value);
            var r := InputGuard(routing, model, s);
            && r.Ok?
            && (out.VerdictValue? && out.verdict.isValid <==>
                  r.value == Command(NoChange.(processingStatus := Put(InputValidated),
                                               errorMessage := Put(None)),
                                     Goto(routing[NextKey])))
            && (out.VerdictValue? && !out.verdict.isValid ==>
                  r.value == Command(ErrorOnly(out.verdict.errorMessage), Goto(routing[EndKey])))
            && (out.OtherValue? ==>
                  r.value == Command(ErrorOnly(Some(InvalidOutputError)), Goto(routing[EndKey])))
  {
  }

  /** Only the last message matters, whatever its role: two histories that
      end in the same message get the same result. */
  lemma InputGuardSeesLastOnly(routing: Routing, model: GuardModel, s1: State, s2: State)
    requires |s1.messages| > 0 && |s2.messages| > 0
    requires s1.messages[|s1.messages| - 1] == s2.messages[|s2.messages| - 1]
    ensures InputGuard(routing, model, s1) == InputGuard(routing, model, s2)
  {
  }

  /** An empty history is rejected without asking the model. */
  lemma InputGuardEmptyNoCall(routing: Routing, m1: GuardModel, m2: GuardModel, s: State)
    requires |s.messages| == 0
    ensures InputGuard(routing, m1, s) == InputGuard(routing, m2, s)
  {
  }

  // ---------------------------------------------------------------------------
  // Reasoning node and agentic node
  // ---------------------------------------------------------------------------

  /** How a node hands its successor to the command: the `goto` field
      (ReasoningNode) or a `next_node` keyword (AgenticNode). */
  datatype RouteStyle = ByGoto | ByNextNodeArg

  function RouteWith(style: RouteStyle, target: string): Route {
    match style
    case ByGoto => Goto(target)
    case ByNextNodeArg => NextNodeArg(target)
  }

  /** The update both single-call nodes write on success. */
  function AnalysisUpdate(human: string, text: string, node: string): Update {
    Update(Keep, Put(ToolLoop.AnalysisCompleted), Put(Analysis(human, text, node)), Put([text]),
           Put(None), Keep)
  }

  /** `ReasoningNode.execute` and `AgenticNode.execute`: one model call with
      the last human message alone; the reply's text becomes the analysis.
      No path touches `messages`. */
  function Analyze(style: RouteStyle, info: NodeInfo, model: Llm, s: State): (c: Command)
    ensures c.update.messages.Keep? && c.update.errorMessage.Put? && c.update.userInput.Keep?
    ensures c.route == RouteWith(style, c.route.target)
    ensures c.route.target == RouteOr(info.routing, NextKey, DefaultTarget)
            || c.route.target == RouteOr(info.routing, EndKey, DefaultTarget)
    ensures |s.messages| == 0 ==>
              c == Command(ErrorOnly(Some(ToolLoop.NoMessagesError)),
                           RouteWith(style, RouteOr(info.routing, EndKey, DefaultTarget)))
    ensures |s.messages| > 0 && LastHuman(s.messages).None? ==>
              c == Command(ErrorOnly(Some(ToolLoop.NoHumanError)),
                           RouteWith(style, RouteOr(info.routing, EndKey, DefaultTarget)))
  {
    var endTarget := RouteOr(info.routing, EndKey, DefaultTarget);
    if |s.messages| == 0 then
      Command(ErrorOnly(Some(ToolLoop.NoMessagesError)), RouteWith(style, endTarget))
    else
      match LastHuman(s.messages)
      case None => Command(ErrorOnly(Some(ToolLoop.NoHumanError)), RouteWith(style, endTarget))
      case Some(human) =>
        match model([human])
        case Ok(reply) =>
          Command(AnalysisUpdate(human.content, ReplyText(reply), info.name),
                  RouteWith(style, RouteOr(info.routing, NextKey, DefaultTarget)))
        case Raised(f) =>
          Command(ErrorOnly(Some(ToolLoop.AnalysisError(f))), RouteWith(style, endTarget))
  }

  /** `ReasoningNode.execute`. */
  function Reasoning(info: NodeInfo, model: Llm, s: State): (c: Command)
    ensures c.route.Goto?
    ensures c.update.messages.Keep? && c.update.userInput.Keep?
    ensures c.update.errorMessage == Put(None) ==> c.route.target == RouteOr(info.routing, NextKey, DefaultTarget)
    ensures c.update.errorMessage != Put(None) ==> c.route.target == RouteOr(info.routing, EndKey, DefaultTarget)
    ensures |s.messages| == 0 ==> c.update == ErrorOnly(Some(ToolLoop.NoMessagesError))
    ensures |s.messages| > 0 && LastHuman(s.messages).None? ==> c.update == ErrorOnly(Some(ToolLoop.NoHumanError))
  {
    Analyze(ByGoto, info, model, s)
  }

  /** `AgenticNode.execute`. */
  function Agentic(info: NodeInfo, model: Llm, s: State): (c: Command)
    ensures c.route.NextNodeArg?
    ensures c.update.messages.Keep? && c.update.userInput.Keep?
    ensures c.update.errorMessage == Put(None) ==> c.route.target == RouteOr(info.routing, NextKey, DefaultTarget)
    ensures c.update.errorMessage != Put(None) ==> c.route.target == RouteOr(info.routing, EndKey, DefaultTarget)
    ensures |s.messages| == 0 ==> c.update == ErrorOnly(Some(ToolLoop.NoMessagesError))
    ensures |s.messages| > 0 && LastHuman(s.messages).None? ==> c.update == ErrorOnly(Some(ToolLoop.NoHumanError))
  {
    Analyze(ByNextNodeArg, info, model, s)
  }

  /** The agentic node writes exactly the reasoning node's update to the
      same successor; only the way the successor is passed differs. */
  lemma AgenticMirrorsReasoning(info: NodeInfo, model: Llm, s: State)
    ensures Agentic(info, model, s).update == Reasoning(info, model, s).update
    ensures Agentic(info, model, s).route.target == Reasoning(info, model, s).route.target
  {
  }

  /** The node reads nothing but the last human message: histories with the
      same last human message give the same command. */
  lemma ReasoningSeesLastHumanOnly(info: NodeInfo, model: Llm, s1: State, s2: State)
    requires LastHuman(s1.messages) == LastHuman(s2.messages)
    requires LastHuman(s1.messages).Some?
    ensures Reasoning(info, model, s1) == Reasoning(info, model, s2)
  {
  }

  /** Success is exactly a history with a human message and a model that
      answers; it clears the error and stores the reply's text as both the
      analysis and the only recommendation. */
  lemma ReasoningSucceedsIff(info: NodeInfo, model: Llm, s: State)
    ensures var c := Reasoning(info, model, s);
            && (c.update.errorMessage == Put(None) <==>
                  LastHuman(s.messages).Some? && model([LastHuman(s.messages).value]).Ok?)
            && (c.update.errorMessage == Put(None) ==>
                  && c.update.recommendations == Put([c.update.analysisResult.value.analysis])
                  && c.update.analysisResult.value
                       == Analysis(LastHuman(s.messages).value.content,
                                   ReplyText(model([LastHuman(s.messages).value]).value), info.name)
                  && c.update.processingStatus == Put(ToolLoop.AnalysisCompleted)
                  && c.route == Goto(RouteOr(info.routing, NextKey, DefaultTarget)))
            && (LastHuman(s.messages).Some? && model([LastHuman(s.messages).value]).Raised? ==>
                  && c.update == ErrorOnly(Some(ToolLoop.AnalysisError(model([LastHuman(s.messages).value]).fault)))
                  && c.route == Goto(RouteOr(info.routing, EndKey, DefaultTarget)))
  {
  }

  // ---------------------------------------------------------------------------
  // Output guard rail (src/nodes/output_guard_rail.py)
  // ---------------------------------------------------------------------------

  const TechnicalRetryApology: string := "Desculpe, ocorreu um problema técnico. Por favor, tente novamente."
  const TechnicalTeamApology: string :=
    "Desculpe, ocorreu um problema técnico. Nossa equipe foi notificada e estamos trabalhando para resolver."
  const NoAnalysisApology: string :=
    "Desculpe, não consegui processar sua solicitação adequadamente. Por favor, tente reformular sua pergunta sobre o problema do seu carro."
  const MechanicFallback: string :=
    "Com base na sua descrição, recomendo que procure um mecânico qualificado para uma avaliação adequada do problema."

  const ErrorProcessed := "error_processed"
  const ErrorProcessingFailed := "error_processing_failed"
  const CompletedNoAnalysis := "completed_no_analysis"
  const CompletedSuccessfully := "completed_successfully"
  const CompletedWithFallback := "completed_with_fallback"

  /** Python truthiness of an optional string. */
  predicate Truthy(e: Option<string>) {
    e.Some? && e.value != ""
  }

  const ErrorRewriteIntro: string := "Transforme este erro técnico em uma mensagem amigável para o usuário: "

  /** The request asking the model to rewrite a technical error. */
  function ErrorRewriteRequest(error: string): string {
    ErrorRewriteIntro + error
  }

  const SafetyCheckIntro: string :=
    "Analise esta recomendação sobre problemas automotivos e verifique se há alguma informação perigosa, incorreta ou que possa causar danos. Se houver problemas de segurança, reformule a resposta de forma segura. Se estiver tudo bem, formate a resposta de forma clara e amigável para o usuário.\n\n"
  const SafetyCheckOutro: string := "Responda diretamente ao usuário com a recomendação (reformulada se necessário)."

  /** The safety-check request built from the original message and the
      first recommendation. */
  function SafetyCheckRequest(original: string, recommendation: string): string {
    SafetyCheckIntro + "Pergunta original: " + original + "\n"
    + "Recomendação: " + recommendation + "\n\n" + SafetyCheckOutro
  }

  /** A model reply, or `fallback` when the reply is blank. */
  function NonBlankOr(text: string, fallback: string): (r: string)
    ensures !IsBlank(text) ==> r == text
    ensures IsBlank(text) ==> r == fallback
  {
    if IsBlank(Strip(text)) then StripEmptyIffBlank(text); fallback
    else StripEmptyIffBlank(text); text
  }

  /** `_process_error`: the history is replaced by one friendly message and
      the error is cleared. The model's rewrite is shown when it answers,
      the retry apology when that answer is blank, and the technical-team
      apology when the model raises. */
  function ProcessError(routing: Routing, model: Llm, error: string): (c: Command)
    ensures c.route == Goto(RouteOr(routing, EndKey, DefaultTarget))
    ensures c.update.errorMessage == Put(None)
    ensures c.update.messages.Put? && |c.update.messages.value| == 1
    ensures c.update.processingStatus == Put(ErrorProcessed) ||
            c.update.processingStatus == Put(ErrorProcessingFailed)
    ensures var reply := model([Human(ErrorRewriteRequest(error))]);
            && (c.update.processingStatus == Put(ErrorProcessed) <==> reply.Ok?)
            && (reply.Ok? ==> c.update.messages == Put([AI(NonBlankOr(ReplyText(reply.value), TechnicalRetryApology), [])]))
            && (reply.Raised? ==> c.update.messages == Put([AI(TechnicalTeamApology, [])]))
  {
    var endTarget := RouteOr(routing, EndKey, DefaultTarget);
    match model([Human(ErrorRewriteRequest(error))])
    case Ok(reply) =>
      Command(NoChange.(messages := Put([AI(NonBlankOr(ReplyText(reply), TechnicalRetryApology), [])]),
                        errorMessage := Put(None), processingStatus := Put(ErrorProcessed)),
              Goto(endTarget))
    case Raised(_) =>
      Command(NoChange.(messages := Put([AI(TechnicalTeamApology, [])]),
                        errorMessage := Put(None), processingStatus := Put(ErrorProcessingFailed)),
              Goto(endTarget))
  }

  /** There is something to present: an analysis and a non-empty first
      recommendation. */
  predicate HasAnalysis(s: State) {
    s.analysisResult.Some? && s.recommendations.Some?
    && |s.recommendations.value| > 0 && s.recommendations.value[0] != ""
  }

  /** The content of the last message, or "" for an empty history. */
  function LastContent(ms: seq<Message>): string {
    if |ms| == 0 then "" else ms[|ms| - 1].content
  }

  /** `_process_recommendations`: the model checks the first recommendation
      against the last message; its answer, or a fallback, is appended. */
  function ProcessRecommendations(routing: Routing, model: Llm, s: State): (c: Command)
    requires HasAnalysis(s)
    ensures c.route == Goto(RouteOr(routing, EndKey, DefaultTarget))
    ensures c.update.errorMessage.Keep?
    ensures c.update.messages.Put? && |c.update.messages.value| == |s.messages| + 1
            && c.update.messages.value[..|s.messages|] == s.messages
  {
    var request := SafetyCheckRequest(LastContent(s.messages), s.recommendations.value[0]);
    var endTarget := RouteOr(routing, EndKey, DefaultTarget);
    match model([Human(request)])
    case Ok(reply) =>
      Command(NoChange.(messages := Put(s.messages + [AI(NonBlankOr(ReplyText(reply), MechanicFallback), [])]),
                        processingStatus := Put(CompletedSuccessfully)),
              Goto(endTarget))
    case Raised(_) =>
      Command(NoChange.(messages := Put(s.messages + [AI(MechanicFallback, [])]),
                        processingStatus := Put(CompletedWithFallback)),
              Goto(endTarget))
  }

  /** `OutputGuardRail.execute`. */
  function OutputGuard(routing: Routing, model: Llm, s: State): (c: Command)
    ensures c.route == Goto(RouteOr(routing, EndKey, DefaultTarget))
    ensures c.update.messages.Put?
    ensures Truthy(s.errorMessage) ==> c == ProcessError(routing, model, s.errorMessage.value)
    ensures !Truthy(s.errorMessage) && !HasAnalysis(s) ==>
              c == Command(NoChange.(messages := Put(s.messages + [AI(NoAnalysisApology, [])]),
                                     processingStatus := Put(CompletedNoAnalysis)),
                           Goto(RouteOr(routing, EndKey, DefaultTarget)))
    ensures !Truthy(s.errorMessage) && HasAnalysis(s) ==> c == ProcessRecommendations(routing, model, s)
  {
    if Truthy(s.errorMessage) then
      ProcessError(routing, model, s.errorMessage.value)
    else if !HasAnalysis(s) then
      Command(NoChange.(messages := Put(s.messages + [AI(NoAnalysisApology, [])]),
                        processingStatus := Put(CompletedNoAnalysis)),
              Goto(RouteOr(routing, EndKey, DefaultTarget)))
    else
      ProcessRecommendations(routing, model, s)
  }

  /** Outside the error branch the guard appends exactly one assistant
      message to the history and leaves the error alone; the error branch
      replaces the history with one message and clears the error. */
  lemma OutputGuardHistory(routing: Routing, model: Llm, s: State)
    ensures var c := OutputGuard(routing, model, s);
            var h := c.update.messages.value;
            && (!Truthy(s.errorMessage) ==>
                  && |h| == |s.messages| + 1 && h[..|s.messages|] == s.messages
                  && h[|s.messages|].AI? && h[|s.messages|].toolCalls == []
                  && c.update.errorMessage.Keep?)
            && (Truthy(s.errorMessage) ==>
                  && |h| == 1 && h[0].AI?
                  && c.update.errorMessage == Put(None))
  {
  }

  /** The status tells whether the model answered, and the appended
      message is its answer unless that answer is blank or missing, when it
      is the mechanic fallback. */
  lemma OutputGuardStatus(routing: Routing, model: Llm, s: State)
    requires !Truthy(s.errorMessage) && HasAnalysis(s)
    ensures var c := OutputGuard(routing, model, s);
            var reply := model([Human(SafetyCheckRequest(LastContent(s.messages), s.recommendations.value[0]))]);
            var last := c.update.messages.value[|s.messages|];
            && (c.update.processingStatus == Put(CompletedSuccessfully) <==> reply.Ok?)
            && (c.update.processingStatus == Put(CompletedWithFallback) <==> reply.Raised?)
            && (reply.Ok? && !IsBlank(ReplyText(reply.value)) ==> last == AI(ReplyText(reply.value), []))
            && (reply.Ok? && IsBlank(ReplyText(reply.value)) ==> last == AI(MechanicFallback, []))
            && (reply.Raised? ==> last == AI(MechanicFallback, []))
  {
  }

  /** A state with nothing to present is answered without asking the model. */
  lemma OutputGuardNoAnalysisNoCall(routing: Routing, m1: Llm, m2: Llm, s: State)
    requires !Truthy(s.errorMessage) && !HasAnalysis(s)
    ensures OutputGuard(routing, m1, s) == OutputGuard(routing, m2, s)
  {
  }

  /** The request depends on the state only through the last message's
      content and the first recommendation. */
  lemma OutputGuardReadsLittle(routing: Routing, model: Llm, s1: State, s2: State)
    requires !Truthy(s1.errorMessage) && !Truthy(s2.errorMessage)
    requires HasAnalysis(s1) && HasAnalysis(s2)
    requires LastContent(s1.messages) == LastContent(s2.messages)
    requires s1.recommendations.value[0] == s2.recommendations.value[0]
    ensures var c1 := OutputGuard(routing, model, s1);
            var c2 := OutputGuard(routing, model, s2);
            && c1.update.processingStatus == c2.update.processingStatus
            && c1.update.messages.value[|s1.messages|] == c2.update.messages.value[|s2.messages|]
  {
  }

  /** The error branch always shows the user some text: the model's
      rewrite is used only when it is not blank, and both apologies are
      non-blank. */
  lemma ProcessErrorNeverBlank(routing: Routing, model: Llm, error: string)
    ensures !IsBlank(ProcessError(routing, model, error).update.messages.value[0].content)
  {
    assert TechnicalRetryApology[|TechnicalRetryApology| - 1] == '.';
    assert TechnicalTeamApology[|TechnicalTeamApology| - 1] == '.';
  }

  /** The error branch forgets the conversation: states with the same truthy
      error get the same command, whatever their history, analysis or
      status. */
  lemma OutputGuardErrorIgnoresRest(routing: Routing, model: Llm, s1: State, s2: State)
    requires Truthy(s1.errorMessage) && s1.errorMessage == s2.errorMessage
    ensures OutputGuard(routing, model, s1) == OutputGuard(routing, model, s2)
  {
  }

  // ---------------------------------------------------------------------------
  // Error handler (src/nodes/error_handler.py)
  // ---------------------------------------------------------------------------

  const UnexpectedApology: string := "Desculpe, ocorreu um problema inesperado. Por favor, tente novamente."
  const SupportApology: string :=
    "Desculpe, ocorreu um problema. Por favor, tente novamente ou entre em contato com o suporte."

  const ErrorDetailIntro: string := "Erro técnico para processar: "

  /** The request the handler would send with the technical error. */
  function ErrorDetailRequest(error: string): string {
    ErrorDetailIntro + error
  }

  /** The update of the handler's fallback path. */
  const HandlerFallback :=
    NoChange.(errorMessage := Put(None), userInput := Put(TechnicalTeamApology),
              processingStatus := Put(ErrorProcessingFailed))

  /** `ErrorHandlerNode.execute` as written: building the request reads
      `self.error_processing_prompt`, which the constructor never assigns, so
      the AttributeError lands in the handler's own fallback before the
      model is reached. */
  function ErrorHandlerAsWritten(routing: Routing, model: Llm, s: State): (c: Command)
    ensures c.route == NextNodeArg(RouteOr(routing, EndKey, DefaultTarget))
    ensures c.update.errorMessage == Put(None) && c.update.messages.Keep?
    ensures !Truthy(s.errorMessage) ==>
              c.update == NoChange.(errorMessage := Put(None), userInput := Put(UnexpectedApology))
  {
    var endTarget := RouteOr(routing, EndKey, DefaultTarget);
    if !Truthy(s.errorMessage) then
      Command(NoChange.(errorMessage := Put(None), userInput := Put(UnexpectedApology)),
              NextNodeArg(endTarget))
    else
      // the attribute lookup raises AttributeError inside the `try`
      Command(HandlerFallback, NextNodeArg(endTarget))
  }

  /** The discrepancy: for any error, no model reply, however good, ever
      reaches the user; every real error ends in the fallback. */
  lemma ErrorHandlerNeverAsksModel(routing: Routing, model: Llm, s: State)
    requires Truthy(s.errorMessage)
    ensures ErrorHandlerAsWritten(routing, model, s).update == HandlerFallback
    ensures ErrorHandlerAsWritten(routing, model, s).update.processingStatus != Put(ErrorProcessed)
  {
  }

  /** `reply.get("content", "")`: a dict answers, any other reply has no
      `get` and raises AttributeError. */
  function ReplyGet(reply: Reply): Outcome<string> {
    match reply
    case DictReply(e, _) => Ok(if "content" in e then e["content"] else "")
    case _ => Raised(Fault(AttributeError, "object has no attribute 'get'"))
  }

  /** The handler with its prompt assigned: the model sees the prompt and
      the technical error, and its "content" becomes the user-facing text. */
  function ErrorHandler(routing: Routing, prompt: string, model: Llm, s: State): (c: Command)
    ensures c.route == NextNodeArg(RouteOr(routing, EndKey, DefaultTarget))
    ensures c.update.errorMessage == Put(None) && c.update.messages.Keep?
    ensures c.update.userInput.Put? && c.update.userInput.value != ""
    ensures !Truthy(s.errorMessage) ==>
              c.update == NoChange.(errorMessage := Put(None), userInput := Put(UnexpectedApology))
  {
    var endTarget := RouteOr(routing, EndKey, DefaultTarget);
    if !Truthy(s.errorMessage) then
      Command(NoChange.(errorMessage := Put(None), userInput := Put(UnexpectedApology)),
              NextNodeArg(endTarget))
    else
      var request := [System(prompt), Human(ErrorDetailRequest(s.errorMessage.value))];
      match model(request)
      case Raised(_) => Command(HandlerFallback, NextNodeArg(endTarget))
      case Ok(reply) =>
        match ReplyGet(reply)
        case Raised(_) => Command(HandlerFallback, NextNodeArg(endTarget))
        case Ok(text) =>
          Command(NoChange.(errorMessage := Put(None),
                            userInput := Put(if text == "" then SupportApology else text),
                            processingStatus := Put(ErrorProcessed)),
                  NextNodeArg(endTarget))
  }

  /** With the prompt assigned, a model that answers with non-empty content
      gets its answer to the user, and the fallback is reserved for a
      failing or malformed reply. */
  lemma ErrorHandlerUsesModel(routing: Routing, prompt: string, model: Llm, s: State)
    requires Truthy(s.errorMessage)
    ensures var c := ErrorHandler(routing, prompt, model, s);
            var reply := model([System(prompt), Human(ErrorDetailRequest(s.errorMessage.value))]);
            && (c.update == HandlerFallback <==> reply.Raised? || !reply.value.DictReply?)
            && (reply.Ok? && reply.value.DictReply? && "content" in reply.value.entries
                && reply.value.entries["content"] != "" ==>
                  c.update.userInput == Put(reply.value.entries["content"])
                  && c.update.processingStatus == Put(ErrorProcessed))
  {
  }
}

=== FILE: prompt_loader.dfy ===
/** Loading node prompts from markdown files (src/utils/prompt_loader.py).

    The file system is a value: the readable and unreadable files by path,
    and the entry names of each existing directory. */
module PromptLoader {
  import opened Wrappers
  import opened Text

  /** A path that exists: a file and its text, or something `open` fails on
      (a directory, undecodable bytes), with the reason `str(e)` gives. */
  datatype Entry = Readable(text: string) | Unreadable(reason: string)

  datatype FileSystem = FileSystem(files: map<string, Entry>, dirs: map<string, seq<string>>)

  /** The directory used when none is given (`src/prompts`, next to the
      `utils` package). */
  const DefaultPromptsDir := "src/prompts"
  const Extension := ".md"
  const EmptyNameError := "Prompt name cannot be empty"
  const MinPromptLength := 10

  /** `prompts_dir / f"{name}.md"`. */
  function PromptPath(dir: string, name: string): string {
    dir + "/" + name + Extension
  }

  /** The directory a call uses: the one given, or the default. */
  function PromptsDir(dir: Option<string>): string {
    dir.GetOr(DefaultPromptsDir)
  }

  /** `load_prompt_from_markdown`: the stripped text of `<dir>/<name>.md`. */
  function LoadPrompt(fs: FileSystem, name: string, dir: Option<string>): (r: Outcome<string>)
    ensures name == "" ==> r == Raised(Fault(ValueError, EmptyNameError))
    ensures name != "" && PromptPath(PromptsDir(dir), name) !in fs.files ==>
              r == Raised(Fault(FileNotFoundError,
                                "Prompt file not found: " + PromptPath(PromptsDir(dir), name)))
    ensures r.Ok? ==> && PromptPath(PromptsDir(dir), name) in fs.files
                      && fs.files[PromptPath(PromptsDir(dir), name)].Readable?
                      && r.value == Strip(fs.files[PromptPath(PromptsDir(dir), name)].text)
    ensures r.Ok? <==> name != "" && PromptPath(PromptsDir(dir), name) in fs.files
                       && fs.files[PromptPath(PromptsDir(dir), name)].Readable?
  {
    if name == "" then
      Raised(Fault(ValueError, EmptyNameError))
    else
      var path := PromptPath(PromptsDir(dir), name);
      if path !in fs.files then
        Raised(Fault(FileNotFoundError, "Prompt file not found: " + path))
      else
        match fs.files[path]
        case Readable(text) => Ok(Strip(text))
        case Unreadable(reason) =>
          Raised(Fault(RuntimeError, "Error reading prompt file " + path + ": " + reason))
  }

  /** A loaded prompt has no whitespace at either end, so stripping it again
      changes nothing. */
  lemma LoadedPromptIsStripped(fs: FileSystem, name: string, dir: Option<string>)
    requires LoadPrompt(fs, name, dir).Ok?
    ensures var c := LoadPrompt(fs, name, dir).value;
            Strip(c) == c
  {
    var c := LoadPrompt(fs, name, dir).value;
    StripTrimmed(c);
  }

  /** `validate_prompt_content`. */
  function ValidatePromptContent(content: string): (valid: bool)
    ensures valid <==> |Strip(content)| >= MinPromptLength
    ensures valid ==> !IsBlank(content)
  {
    StripEmptyIffBlank(content);
    if content == "" || Strip(content) == "" then false
    else |Strip(content)| >= MinPromptLength
  }

  /** `get_prompt`: a default-directory prompt, rejected when it is shorter
      than the minimum. */
  function GetPrompt(fs: FileSystem, name: string): (r: Outcome<string>)
    ensures LoadPrompt(fs, name, None).Raised? ==> r == LoadPrompt(fs, name, None)
    ensures r.Ok? <==> LoadPrompt(fs, name, None).Ok? && |LoadPrompt(fs, name, None).value| >= MinPromptLength
    ensures r.Ok? ==> r == LoadPrompt(fs, name, None)
    ensures LoadPrompt(fs, name, None).Ok? && r.Raised? ==>
              r.fault == Fault(ValueError, "Invalid or empty prompt content in " + name + Extension)
  {
    var content :- LoadPrompt(fs, name, None);
    LoadedPromptIsStripped(fs, name, None);
    if !ValidatePromptContent(content) then
      Raised(Fault(ValueError, "Invalid or empty prompt content in " + name + Extension))
    else
      Ok(content)
  }

  // ---------------------------------------------------------------------------
  // Listing
  // ---------------------------------------------------------------------------

  /** `Path(name).stem` for a name ending in ".md": the name without its
      extension, except ".md" itself, whose leading dot is not a suffix. */
  function Stem(name: string): (r: string)
    requires EndsWith(name, Extension)
    ensures |name| > |Extension| ==> r + Extension == name
    ensures |name| == |Extension| ==> r == name
  {
    if |name| > |Extension| then name[..|name| - |Extension|] else name
  }

  /** The stems of the entries the glob `*.md` matches, in listing order. */
  function MarkdownStems(names: seq<string>): (r: seq<string>)
    ensures |r| <= |names|
    ensures forall n :: n in names && EndsWith(n, Extension) ==> Stem(n) in r
    ensures forall x :: x in r ==> exists n :: n in names && EndsWith(n, Extension) && Stem(n) == x
  {
    if |names| == 0 then []
    else if EndsWith(names[0], Extension) then [Stem(names[0])] + MarkdownStems(names[1..])
    else MarkdownStems(names[1..])
  }

  /** Code-point ascending order, as `sorted` gives for strings. */
  ghost predicate Sorted(s: seq<string>) {
    forall i, j :: 0 <= i < j < |s| ==> LexLeq(s[i], s[j])
  }

  /** Inserts `x` into a sorted list. */
  function Insert(x: string, s: seq<string>): (r: seq<string>)
    requires Sorted(s)
    ensures Sorted(r) && multiset(r) == multiset(s) + multiset{x}
  {
    if |s| == 0 then [x]
    else if LexLeq(x, s[0]) then
      BelowHead(x, s);
      [x] + s
    else
      LexLeqTotal(x, s[0]);
      SortedTail(s);
      var rest := Insert(x, s[1..]);
      HeadBelowInserted(x, s, rest);
      assert s == [s[0]] + s[1..];
      [s[0]] + rest
  }

  /** What is below the head of a sorted list is below all of it. */
  lemma BelowHead(x: string, s: seq<string>)
    requires Sorted(s) && |s| > 0 && LexLeq(x, s[0])
    ensures forall j :: 0 <= j < |s| ==> LexLeq(x, s[j])
  {
    forall j | 0 < j < |s| ensures LexLeq(x, s[j]) {
      LexLeqTransitive(x, s[0], s[j]);
    }
  }

  /** The head of a sorted list is below everything its tail holds, and
      below `x` too, so below the tail with `x` inserted. */
  lemma HeadBelowInserted(x: string, s: seq<string>, rest: seq<string>)
    requires Sorted(s) && |s| > 0 && LexLeq(s[0], x)
    requires multiset(rest) == multiset(s[1..]) + multiset{x}
    ensures forall j :: 0 <= j < |rest| ==> LexLeq(s[0], rest[j])
  {
    forall j | 0 <= j < |rest| ensures LexLeq(s[0], rest[j]) {
      assert rest[j] in multiset(rest);
      if rest[j] != x {
        assert rest[j] in multiset(s[1..]);
        var k :| 0 <= k < |s[1..]| && s[1..][k] == rest[j];
        assert s[k + 1] == rest[j];
      }
    }
  }

  /** `sorted`: insertion sort. */
  function SortNames(s: seq<string>): (r: seq<string>)
    ensures Sorted(r) && multiset(r) == multiset(s)
  {
    if |s| == 0 then []
    else
      assert s == [s[0]] + s[1..];
      Insert(s[0], SortNames(s[1..]))
  }

  /** `list_available_prompts`: the sorted stems of the directory's `*.md`
      entries; a missing directory lists nothing. */
  function ListAvailablePrompts(fs: FileSystem, dir: Option<string>): (r: seq<string>)
    ensures PromptsDir(dir) !in fs.dirs ==> r == []
    ensures PromptsDir(dir) in fs.dirs ==>
              Sorted(r) && multiset(r) == multiset(MarkdownStems(fs.dirs[PromptsDir(dir)]))
  {
    var d := PromptsDir(dir);
    if d !in fs.dirs then [] else SortNames(MarkdownStems(fs.dirs[d]))
  }

  /** A sorted list is determined by its elements. */
  lemma {:induction false} SortedUnique(a: seq<string>, b: seq<string>)
    requires Sorted(a) && Sorted(b) && multiset(a) == multiset(b)
    ensures a == b
    decreases |a|
  {
    if |a| > 0 {
      SameHead(a, b);
      SortedTail(a);
      SortedTail(b);
      SameTailElements(a, b);
      SortedUnique(a[1..], b[1..]);
      assert a == [a[0]] + a[1..] && b == [b[0]] + b[1..];
    } else {
      assert |b| == |multiset(b)|;
    }
  }

  /** Two sorted lists with the same elements start alike. */
  lemma SameHead(a: seq<string>, b: seq<string>)
    requires Sorted(a) && Sorted(b) && multiset(a) == multiset(b) && |a| > 0
    ensures |b| > 0 && a[0] == b[0]
  {
    assert a[0] in multiset(b);
    assert b[0] in multiset(a);
    var i :| 0 <= i < |b| && b[i] == a[0];
    var j :| 0 <= j < |a| && a[j] == b[0];
    if i > 0 { assert LexLeq(b[0], b[i]); }
    if j > 0 { assert LexLeq(a[0], a[j]); }
    LexLeqReflexive(a[0]);
    LexLeqAntisymmetric(a[0], b[0]);
  }

  /** The tail of a sorted list is sorted. */
  lemma SortedTail(a: seq<string>)
    requires Sorted(a) && |a| > 0
    ensures Sorted(a[1..])
  {
    forall i, j | 0 <= i < j < |a[1..]| ensures LexLeq(a[1..][i], a[1..][j]) {
      assert a[1..][i] == a[i + 1] && a[1..][j] == a[j + 1];
    }
  }

  /** Lists with the same elements and the same head have tails with the
      same elements. */
  lemma SameTailElements<T>(a: seq<T>, b: seq<T>)
    requires multiset(a) == multiset(b) && |a| > 0 && |b| > 0 && a[0] == b[0]
    ensures multiset(a[1..]) == multiset(b[1..])
  {
    assert a == [a[0]] + a[1..] && b == [b[0]] + b[1..];
    assert multiset(a[1..]) == multiset(a) - multiset{a[0]};
    assert multiset(b[1..]) == multiset(b) - multiset{b[0]};
  }

  /** The order in which the directory lists its entries does not matter:
      two listings of the same entries give the same prompt names. */
  lemma ListingOrderIrrelevant(fs1: FileSystem, fs2: FileSystem, dir: Option<string>)
    requires PromptsDir(dir) in fs1.dirs && PromptsDir(dir) in fs2.dirs
    requires multiset(MarkdownStems(fs1.dirs[PromptsDir(dir)]))
             == multiset(MarkdownStems(fs2.dirs[PromptsDir(dir)]))
    ensures ListAvailablePrompts(fs1, dir) == ListAvailablePrompts(fs2, dir)
  {
    SortedUnique(ListAvailablePrompts(fs1, dir), ListAvailablePrompts(fs2, dir));
  }
}

=== FILE: registry.dfy ===
/** The agent registry (src/services/agent_registry.py) and the agent card it
    stores (src/data_models/agent_card.py).

    The Python class keeps two class-level dicts behind a lock; here the
    registry is a value and every operation returns the new one. */
module Registry {
  import opened Wrappers
  import opened Text
  import opened Messages
  import ToolLoop

  // ---------------------------------------------------------------------------
  // Agent cards
  // ---------------------------------------------------------------------------

  datatype Skill = Skill(id: string, name: string, description: Option<string>)

  datatype Capabilities = Capabilities(streaming: bool, tools: bool)

  /** `AgentCapabilities()` with its defaults. */
  const DefaultCapabilities := Capabilities(false, true)

  /** `AgentCard`: a name and optional metadata; the URL is kept as text. */
  datatype AgentCard = AgentCard(
    name: string,
    description: Option<string>,
    version: Option<string>,
    url: Option<string>,
    capabilities: Option<Capabilities>,
    skills: Option<seq<Skill>>,
    tags: Option<seq<string>>)

  /** `AgentCard(name=...)`: every other field defaults to `None`. */
  function NamedCard(name: string): (c: AgentCard)
    ensures c.name == name && c.capabilities.None? && c.skills.None?
  {
    AgentCard(name, None, None, None, None, None, None)
  }

  // ---------------------------------------------------------------------------
  // Name normalisation
  // ---------------------------------------------------------------------------

  /** `unicodedata.normalize("NFKD", s)` under the character table. */
  function Nfkd(s: string): (r: string)
    ensures forall i :: 0 <= i < |r| ==> Decomposed(r[i])
    ensures (forall i :: 0 <= i < |s| ==> Decomposed(s[i])) ==> r == s
  {
    if |s| == 0 then []
    else
      DecomposeParts(s[0]);
      Decompose(s[0]) + Nfkd(s[1..])
  }

  /** Drops the combining marks. */
  function DropCombining(s: string): (r: string)
    ensures forall i :: 0 <= i < |r| ==> !IsCombining(r[i]) && r[i] in s
    ensures (forall i :: 0 <= i < |s| ==> !IsCombining(s[i])) ==> r == s
  {
    if |s| == 0 then []
    else if IsCombining(s[0]) then DropCombining(s[1..])
    else [s[0]] + DropCombining(s[1..])
  }

  /** Keeps the letters, digits and whitespace. */
  function KeepAlnumSpace(s: string): (r: string)
    ensures forall i :: 0 <= i < |r| ==> (IsAlnum(r[i]) || IsSpace(r[i])) && r[i] in s
    ensures (forall i :: 0 <= i < |s| ==> IsAlnum(s[i]) || IsSpace(s[i])) ==> r == s
  {
    if |s| == 0 then []
    else if IsAlnum(s[0]) || IsSpace(s[0]) then [s[0]] + KeepAlnumSpace(s[1..])
    else KeepAlnumSpace(s[1..])
  }

  /** `_normalize`: decompose, drop the marks, lower-case, keep letters,
      digits and whitespace, and strip. The Python falls back to the raw
      name when decomposition raises; under the table it never does. */
  function Normalize(name: string): (r: string)
    ensures IsNormalized(r)
  {
    PipelineNormalized(name);
    Strip(KeepAlnumSpace(Lowercase(DropCombining(Nfkd(name)))))
  }

  /** A character a normalised name can hold: fully decomposed, not a mark,
      a letter, digit or whitespace, and its own lower case. */
  predicate NormalChar(c: char) {
    Decomposed(c) && !IsCombining(c) && (IsAlnum(c) || IsSpace(c)) && Lower(c) == c
  }

  /** A normalised name: normal characters and no whitespace at either end. */
  ghost predicate IsNormalized(s: string) {
    && (forall i :: 0 <= i < |s| ==> NormalChar(s[i]))
    && (s == [] || (!IsSpace(s[0]) && !IsSpace(s[|s| - 1])))
  }

  /** Lower-casing decomposed, mark-free characters leaves characters that
      are decomposed, mark-free and their own lower case. */
  lemma LowercaseStage(a: string)
    requires forall k :: 0 <= k < |a| ==> Decomposed(a[k]) && !IsCombining(a[k])
    ensures forall k :: 0 <= k < |Lowercase(a)| ==>
              Decomposed(Lowercase(a)[k]) && !IsCombining(Lowercase(a)[k])
              && Lower(Lowercase(a)[k]) == Lowercase(a)[k]
  {
    forall k | 0 <= k < |a|
      ensures Decomposed(Lower(a[k])) && !IsCombining(Lower(a[k])) && Lower(Lower(a[k])) == Lower(a[k])
    {
      LowerKeepsDecomposed(a[k]);
    }
  }

  /** Keeping the letters, digits and whitespace of such characters leaves
      only normal characters. */
  lemma KeepStage(b: string)
    requires forall k :: 0 <= k < |b| ==> Decomposed(b[k]) && !IsCombining(b[k]) && Lower(b[k]) == b[k]
    ensures forall k :: 0 <= k < |KeepAlnumSpace(b)| ==> NormalChar(KeepAlnumSpace(b)[k])
  {
    var c := KeepAlnumSpace(b);
    forall k | 0 <= k < |c| ensures NormalChar(c[k]) {
      var j :| 0 <= j < |b| && b[j] == c[k];
    }
  }

  /** Stripping normal characters gives a normalised name. */
  lemma StripStage(c: string)
    requires forall k :: 0 <= k < |c| ==> NormalChar(c[k])
    ensures IsNormalized(Strip(c))
  {
    var r := Strip(c);
    var i := LeadingBlank(c);
    SliceKeeps(c, i, i + |r|, NormalChar);
  }

  /** Each stage of `_normalize` keeps what the earlier ones established,
      so the pipeline ends in a normalised name. */
  lemma PipelineNormalized(name: string)
    ensures IsNormalized(Strip(KeepAlnumSpace(Lowercase(DropCombining(Nfkd(name))))))
  {
    var a := DropCombining(Nfkd(name));
    forall k | 0 <= k < |a| ensures Decomposed(a[k]) && !IsCombining(a[k]) {
      var j :| 0 <= j < |Nfkd(name)| && Nfkd(name)[j] == a[k];
    }
    LowercaseStage(a);
    KeepStage(Lowercase(a));
    StripStage(KeepAlnumSpace(Lowercase(a)));
  }

  /** What `_normalize` produces: only lower-case letters, digits and
      whitespace, with no whitespace at either end. */
  lemma NormalizeShape(name: string)
    ensures IsNormalized(Normalize(name))
    ensures forall i :: 0 <= i < |Normalize(name)| ==>
              !IsUpper(Normalize(name)[i])
              && (IsAlnum(Normalize(name)[i]) || IsSpace(Normalize(name)[i]))
  {
    var r := Normalize(name);
    forall i | 0 <= i < |r| ensures !IsUpper(r[i]) {
      assert NormalChar(r[i]);
    }
  }

  /** A normalised name normalises to itself. */
  lemma NormalizedFixed(s: string)
    requires IsNormalized(s)
    ensures Normalize(s) == s
  {
    assert Nfkd(s) == s;
    assert DropCombining(s) == s;
    assert Lowercase(s) == s;
    assert KeepAlnumSpace(s) == s;
    StripTrimmed(s);
  }

  /** Compatibility characters normalise like their decompositions: a
      vulgar fraction keeps its two digits and a spacing accent becomes a
      space. */
  lemma CompatibilityExamples()
    ensures Normalize("\U{BC}") == "14"
    ensures Normalize("a\U{B4}b") == "a b"
  {
    FractionExample();
    AccentExample();
  }

  lemma FractionExample()
    ensures Normalize("\U{BC}") == "14"
  {
    FractionDecomposes();
    FractionDigitsKept();
  }

  lemma FractionDecomposes()
    ensures Nfkd("\U{BC}") == ['1', FractionSlash, '4']
  {
    assert Decompose('\U{BC}') == ['1', FractionSlash, '4'];
  }

  lemma FractionDigitsKept()
    ensures var d := ['1', FractionSlash, '4'];
            Strip(KeepAlnumSpace(Lowercase(DropCombining(d)))) == "14"
  {
    var d := ['1', FractionSlash, '4'];
    assert DropCombining(d) == d;
    assert Lowercase(d) == d;
    FractionSlashDropped();
    StripDigitPair();
  }

  lemma FractionSlashDropped()
    ensures KeepAlnumSpace(['1', FractionSlash, '4']) == "14"
  {
    assert !IsAlnum(FractionSlash) && !IsSpace(FractionSlash);
    assert KeepAlnumSpace(['4']) == "4";
  }

  lemma StripDigitPair()
    ensures Strip("14") == "14"
  {
  }

  lemma AccentExample()
    ensures Normalize("a\U{B4}b") == "a b"
  {
    AccentDecomposes();
    AccentBecomesSpace();
  }

  lemma AccentDecomposes()
    ensures Nfkd("a\U{B4}b") == ['a', ' ', '\U{301}', 'b']
  {
    assert Nfkd("b") == "b";
    assert Decompose('\U{B4}') == [' ', '\U{301}'];
    assert Nfkd("\U{B4}b") == [' ', '\U{301}', 'b'];
    assert Decompose('a') == ['a'];
  }

  lemma AccentBecomesSpace()
    ensures Strip(KeepAlnumSpace(Lowercase(DropCombining(['a', ' ', '\U{301}', 'b'])))) == "a b"
  {
    AccentMarkDropped();
    SpacedPairKept();
  }

  lemma AccentMarkDropped()
    ensures DropCombining(['a', ' ', '\U{301}', 'b']) == "a b"
  {
    assert DropCombining(['\U{301}', 'b']) == "b";
  }

  lemma SpacedPairKept()
    ensures Strip(KeepAlnumSpace(Lowercase("a b"))) == "a b"
  {
    assert Lowercase("a b") == "a b";
    assert KeepAlnumSpace("a b") == "a b";
    StripSpacedPair();
  }

  lemma StripSpacedPair()
    ensures Strip("a b") == "a b"
  {
  }

  /** Normalising twice is normalising once. */
  lemma NormalizeIdempotent(name: string)
    ensures Normalize(Normalize(name)) == Normalize(name)
  {
    NormalizeShape(name);
    NormalizedFixed(Normalize(name));
  }

  // ---------------------------------------------------------------------------
  // The registry
  // ---------------------------------------------------------------------------

  /** The two maps, keyed by agent name, and the order in which the names
      were first inserted (the order `dict.values()` yields). */
  datatype Registry<M> = Registry(order: seq<string>, cards: map<string, AgentCard>, models: map<string, M>)

  /** The empty registry, as after `clear`. */
  function Empty<M>(): Registry<M> {
    Registry([], map[], map[])
  }

  /** `clear`: both maps emptied. */
  function Clear<M>(r: Registry<M>): (e: Registry<M>)
    ensures e.cards == map[] && e.models == map[] && e.order == []
  {
    Empty()
  }

  /** No name occurs twice. */
  ghost predicate Distinct(s: seq<string>) {
    forall i, j :: 0 <= i < j < |s| ==> s[i] != s[j]
  }

  /** The registry's invariant: the two maps share their key set, each card
      is stored under its own name, and the order lists every key once. */
  ghost predicate Valid<M>(r: Registry<M>) {
    && r.cards.Keys == r.models.Keys
    && (forall k :: k in r.cards ==> r.cards[k].name == k)
    && Distinct(r.order)
    && (forall k :: k in r.order <==> k in r.cards)
  }

  /** `register`: card and model written under exactly `card.name`. */
  function Register<M>(r: Registry<M>, card: AgentCard, model: M): (r': Registry<M>)
    ensures r'.cards == r.cards[card.name := card]
    ensures r'.models == r.models[card.name := model]
  {
    Registry(if card.name in r.cards then r.order else r.order + [card.name],
             r.cards[card.name := card], r.models[card.name := model])
  }

  /** Registration keeps the invariant, writes the entry under the card's
      own name, and leaves every other name untouched. */
  lemma RegisterKeepsValid<M>(r: Registry<M>, card: AgentCard, model: M)
    requires Valid(r)
    ensures var r' := Register(r, card, model);
            && Valid(r')
            && r'.cards[card.name] == card && r'.models[card.name] == model
            && r'.cards.Keys == r.cards.Keys + {card.name}
            && (forall k :: k != card.name && k in r.cards ==>
                  r'.cards[k] == r.cards[k] && r'.models[k] == r.models[k])
  {
  }

  /** The empty registry is valid. */
  lemma EmptyValid<M>()
    ensures Valid(Empty<M>())
  {
  }

  /** Lookup shared by `get_card` and `get_model`: the exact key, else the
      normalised name. Stored keys are never normalised. */
  function Lookup<V>(m: map<string, V>, name: string): (r: Option<V>)
    ensures name in m ==> r == Some(m[name])
    ensures name !in m && Normalize(name) in m ==> r == Some(m[Normalize(name)])
    ensures r.None? <==> name !in m && Normalize(name) !in m
  {
    if name in m then Some(m[name])
    else if Normalize(name) in m then Some(m[Normalize(name)])
    else None
  }

  /** `get_card`. */
  function GetCard<M>(r: Registry<M>, name: string): (c: Option<AgentCard>)
    ensures name in r.cards ==> c == Some(r.cards[name])
    ensures name !in r.cards && Normalize(name) in r.cards ==> c == Some(r.cards[Normalize(name)])
    ensures c.None? <==> name !in r.cards && Normalize(name) !in r.cards
  {
    Lookup(r.cards, name)
  }

  /** `get_model`. */
  function GetModel<M>(r: Registry<M>, name: string): (m: Option<M>)
    ensures name in r.models ==> m == Some(r.models[name])
    ensures name !in r.models && Normalize(name) in r.models ==> m == Some(r.models[Normalize(name)])
    ensures m.None? <==> name !in r.models && Normalize(name) !in r.models
  {
    Lookup(r.models, name)
  }

  /** Card and model lookups hit and miss together, and a card found is
      stored under its own name: the exact one, or the normalised one. */
  lemma LookupsAgree<M>(r: Registry<M>, name: string)
    requires Valid(r)
    ensures GetCard(r, name).Some? <==> GetModel(r, name).Some?
    ensures GetCard(r, name).Some? ==>
              GetCard(r, name).value.name == name || GetCard(r, name).value.name == Normalize(name)
  {
  }

  /** A card stored under a name that is not in normalised form (upper
      case, accents, punctuation, edge whitespace) is reachable only by that
      exact name: the normalised fallback can never produce it. */
  lemma UnnormalizedKeyNeedsExactName<M>(r: Registry<M>, q: string, key: string)
    requires Valid(r) && key in r.cards && !IsNormalized(key)
    ensures GetCard(r, q).Some? && GetCard(r, q).value.name == key ==> q == key
  {
    NormalizeShape(q);
  }

  const AccentedCity: string := "São Paulo"
  const PlainCity: string := "sao paulo"

  /** With one agent registered under a non-normalised name, every other
      name misses. */
  lemma SoleUnnormalizedEntryMisses<M>(key: string, q: string, m: M)
    requires !IsNormalized(key) && q != key
    ensures GetCard(Register(Empty<M>(), NamedCard(key), m), q).None?
  {
    var r := Register(Empty<M>(), NamedCard(key), m);
    EmptyValid<M>();
    RegisterKeepsValid(Empty<M>(), NamedCard(key), m);
    UnnormalizedKeyNeedsExactName(r, q, key);
  }

  /** An agent registered as "São Paulo" is not found as "sao paulo". */
  lemma AccentedNameNotFoundByPlainSpelling<M>(m: M)
    ensures GetCard(Register(Empty<M>(), NamedCard(AccentedCity), m), PlainCity).None?
  {
    assert AccentedCity[0] == 'S' && PlainCity[0] == 's';
    assert !NormalChar(AccentedCity[0]);
    SoleUnnormalizedEntryMisses(AccentedCity, PlainCity, m);
  }

  /** After `clear`, every lookup misses. */
  lemma ClearForgets<M>(r: Registry<M>, name: string)
    ensures GetCard(Clear(r), name).None? && GetModel(Clear(r), name).None?
    ensures ListCards(Clear(r)) == []
  {
  }

  // ---------------------------------------------------------------------------
  // Listing
  // ---------------------------------------------------------------------------

  /** The stored cards in insertion order (`_name_to_card.values()`). */
  function ValuesInOrder<M>(r: Registry<M>, order: seq<string>): (cs: seq<AgentCard>)
    ensures |cs| <= |order|
    ensures (forall k :: k in order ==> k in r.cards) ==> |cs| == |order|
  {
    if |order| == 0 then []
    else if order[0] in r.cards then [r.cards[order[0]]] + ValuesInOrder(r, order[1..])
    else ValuesInOrder(r, order[1..])
  }

  /** Position of the card named `name` in `acc`, if any. */
  function IndexOfName(acc: seq<AgentCard>, name: string): (r: Option<nat>)
    ensures r.None? ==> forall i :: 0 <= i < |acc| ==> acc[i].name != name
    ensures r.Some? ==> r.value < |acc| && acc[r.value].name == name
  {
    if |acc| == 0 then None
    else if acc[|acc| - 1].name == name then Some(|acc| - 1)
    else IndexOfName(acc[..|acc| - 1], name)
  }

  /** The names of a list of cards. */
  function Names(cs: seq<AgentCard>): (ns: seq<string>)
    ensures |ns| == |cs| && forall i :: 0 <= i < |cs| ==> ns[i] == cs[i].name
  {
    seq(|cs|, i requires 0 <= i < |cs| => cs[i].name)
  }

  /** The keys of a dict in insertion order: `seen`, then each name of
      `ns` not already present, in the order it first appears. */
  function FirstSeen(seen: seq<string>, ns: seq<string>): (r: seq<string>)
    ensures |r| >= |seen| && r[..|seen|] == seen
    decreases |ns|
  {
    if |ns| == 0 then seen
    else FirstSeen(if ns[0] in seen then seen else seen + [ns[0]], ns[1..])
  }

  /** One step of the dedupe: overwrite the card of the same name in place,
      or append. */
  function DedupeStep(acc: seq<AgentCard>, c: AgentCard): (r: seq<AgentCard>)
    requires Distinct(Names(acc))
    ensures Distinct(Names(r))
    ensures forall n :: n in Names(r) <==> n in Names(acc) || n == c.name
    ensures Names(r) == if c.name in Names(acc) then Names(acc) else Names(acc) + [c.name]
  {
    match IndexOfName(acc, c.name)
    case Some(i) =>
      var r := acc[i := c];
      assert Names(r) == Names(acc);
      r
    case None =>
      var r := acc + [c];
      assert Names(r) == Names(acc) + [c.name];
      r
  }

  /** The names of a non-empty list of cards: the first and the rest. */
  lemma NamesCons(cs: seq<AgentCard>)
    requires |cs| > 0
    ensures Names(cs) == [cs[0].name] + Names(cs[1..])
  {
  }

  /** `unique[card.name] = card` for each card in turn: a repeated name
      keeps its first position and takes the latest card. */
  function DedupeFrom(acc: seq<AgentCard>, cs: seq<AgentCard>): (r: seq<AgentCard>)
    requires Distinct(Names(acc))
    ensures Distinct(Names(r))
    ensures forall n :: n in Names(r) <==> n in Names(acc) || n in Names(cs)
    ensures Names(r) == FirstSeen(Names(acc), Names(cs))
    ensures |r| >= |acc| && forall i :: 0 <= i < |acc| ==> r[i].name == acc[i].name
    decreases |cs|
  {
    if |cs| == 0 then acc
    else
      NamesCons(cs);
      DedupeFrom(DedupeStep(acc, cs[0]), cs[1..])
  }

  /** The dict the Python loop builds: `unique[card.name] = card` for each
      card in turn, so every name maps to its latest card. */
  function Unique(m: map<string, AgentCard>, cs: seq<AgentCard>): map<string, AgentCard>
    decreases |cs|
  {
    if |cs| == 0 then m else Unique(m[cs[0].name := cs[0]], cs[1..])
  }

  /** `acc` lists the values of the dict `m`, one per key. */
  ghost predicate Lists(acc: seq<AgentCard>, m: map<string, AgentCard>) {
    && Distinct(Names(acc))
    && (forall i :: 0 <= i < |acc| ==> acc[i].name in m && m[acc[i].name] == acc[i])
    && (forall n :: n in m ==> n in Names(acc))
  }

  /** One dedupe step lists the dict after one assignment. */
  lemma DedupeStepLists(acc: seq<AgentCard>, m: map<string, AgentCard>, c: AgentCard)
    requires Lists(acc, m)
    ensures Lists(DedupeStep(acc, c), m[c.name := c])
  {
    var r := DedupeStep(acc, c);
    var m' := m[c.name := c];
    match IndexOfName(acc, c.name)
    case Some(i) =>
      assert r == acc[i := c];
      forall j | 0 <= j < |r| ensures r[j].name in m' && m'[r[j].name] == r[j] {
        if j != i {
          assert Names(acc)[j] != Names(acc)[i];
        }
      }
      assert Names(r) == Names(acc);
    case None =>
      assert r == acc + [c];
      assert Names(r) == Names(acc) + [c.name];
  }

  /** The dedupe lists the dict the Python loop builds: each kept name holds
      the latest card with that name. */
  lemma {:induction false} DedupeFromLists(acc: seq<AgentCard>, m: map<string, AgentCard>, cs: seq<AgentCard>)
    requires Lists(acc, m)
    ensures Lists(DedupeFrom(acc, cs), Unique(m, cs))
    ensures forall i :: 0 <= i < |DedupeFrom(acc, cs)| ==>
              && FirstSeen(Names(acc), Names(cs))[i] in Unique(m, cs)
              && DedupeFrom(acc, cs)[i] == Unique(m, cs)[FirstSeen(Names(acc), Names(cs))[i]]
    decreases |cs|
  {
    if |cs| > 0 {
      DedupeStepLists(acc, m, cs[0]);
      DedupeFromLists(DedupeStep(acc, cs[0]), m[cs[0].name := cs[0]], cs[1..]);
    }
  }

  /** `list_cards`: the stored cards, one per distinct name. */
  function ListCards<M>(r: Registry<M>): (cs: seq<AgentCard>)
    ensures Distinct(Names(cs))
    ensures forall n :: n in Names(cs) <==> n in Names(ValuesInOrder(r, r.order))
  {
    DedupeFrom([], ValuesInOrder(r, r.order))
  }

  /** The names of the cards `ValuesInOrder` yields for a valid registry are
      exactly its order. */
  lemma {:induction false} ValuesNames<M>(r: Registry<M>, order: seq<string>)
    requires forall k :: k in r.cards ==> r.cards[k].name == k
    requires forall k :: k in order ==> k in r.cards
    ensures Names(ValuesInOrder(r, order)) == order
  {
    if |order| > 0 {
      ValuesNames(r, order[1..]);
      assert Names(ValuesInOrder(r, order)) == [order[0]] + Names(ValuesInOrder(r, order[1..]));
      assert order == [order[0]] + order[1..];
    }
  }

  /** Every card `ValuesInOrder` yields is the card stored under its name. */
  lemma {:induction false} ValuesStored<M>(r: Registry<M>, order: seq<string>)
    requires forall k :: k in r.cards ==> r.cards[k].name == k
    ensures forall i :: 0 <= i < |ValuesInOrder(r, order)| ==>
              && ValuesInOrder(r, order)[i].name in r.cards
              && r.cards[ValuesInOrder(r, order)[i].name] == ValuesInOrder(r, order)[i]
    decreases |order|
  {
    if |order| > 0 {
      ValuesStored(r, order[1..]);
      if order[0] in r.cards {
        var vs := ValuesInOrder(r, order);
        assert vs == [r.cards[order[0]]] + ValuesInOrder(r, order[1..]);
      }
    }
  }

  /** Folding stored cards into a dict of stored cards keeps it one. */
  lemma {:induction false} UniqueStored<M>(r: Registry<M>, m: map<string, AgentCard>, vs: seq<AgentCard>)
    requires forall k :: k in m ==> k in r.cards && m[k] == r.cards[k]
    requires forall i :: 0 <= i < |vs| ==> vs[i].name in r.cards && r.cards[vs[i].name] == vs[i]
    ensures forall k :: k in Unique(m, vs) ==> k in r.cards && Unique(m, vs)[k] == r.cards[k]
    decreases |vs|
  {
    if |vs| > 0 {
      UniqueStored(r, m[vs[0].name := vs[0]], vs[1..]);
    }
  }

  /** `list_cards` returns the stored cards themselves: each listed card is
      the one stored under its name. */
  lemma ListCardsAreStored<M>(r: Registry<M>)
    requires Valid(r)
    ensures forall i :: 0 <= i < |ListCards(r)| ==>
              ListCards(r)[i].name in r.cards && ListCards(r)[i] == r.cards[ListCards(r)[i].name]
  {
    var vs := ValuesInOrder(r, r.order);
    DedupeFromLists([], map[], vs);
    ValuesStored(r, r.order);
    UniqueStored(r, map[], vs);
  }

  /** A list of distinct elements is as long as its set. */
  lemma {:induction false} DistinctCardinality(s: seq<string>)
    requires Distinct(s)
    ensures |set x | x in s| == |s|
  {
    if |s| > 0 {
      DistinctCardinality(s[1..]);
      assert (set x | x in s) == (set x | x in s[1..]) + {s[0]};
      assert s[0] !in (set x | x in s[1..]);
    }
  }

  /** The set of a list's elements is a given set when membership agrees. */
  lemma SetOfSeq(s: seq<string>, keys: set<string>)
    requires forall n :: n in s <==> n in keys
    ensures (set x | x in s) == keys
  {
  }

  /** `list_cards` has one entry per stored name: its length is the number
      of keys. */
  lemma ListCardsCount<M>(r: Registry<M>)
    requires Valid(r)
    ensures |ListCards(r)| == |r.cards.Keys|
    ensures forall n :: n in Names(ListCards(r)) <==> n in r.cards
  {
    ValuesNames(r, r.order);
    var ns := Names(ListCards(r));
    assert forall n :: n in ns <==> n in r.cards;
    DistinctCardinality(ns);
    SetOfSeq(ns, r.cards.Keys);
  }

  // ---------------------------------------------------------------------------
  // Invoking an agent
  // ---------------------------------------------------------------------------

  /** A registered model's `invoke_with_tools(messages)` with its default
      cap: the grown history, the final text and an error. */
  type AgentModel = seq<Message> -> Outcome<ToolLoop.LoopReturn>

  function NotFoundReply(name: string): string {
    "Agente '" + name + "' não encontrado."
  }

  /** `len(None)` in the log line after the fallback scan. */
  const NoneLengthFault := Fault(TypeError, "object of type 'NoneType' has no len()")

  /** The answer taken from what the loop returned: the final text when it
      is non-empty, else the content of the last assistant message. With
      neither, an empty text is returned as it is and a missing one makes
      the logging call raise. */
  function FinalAnswer(ret: ToolLoop.LoopReturn): (r: Outcome<string>)
    ensures ret.finalText.Some? && ret.finalText.value != "" ==> r == Ok(ret.finalText.value)
    ensures (ret.finalText.None? || ret.finalText.value == "") && LastOfRole(ret.messages, AIRole).Some? ==>
              r == Ok(LastOfRole(ret.messages, AIRole).value.content)
    ensures r.Raised? <==> ret.finalText.None? && LastOfRole(ret.messages, AIRole).None?
  {
    if ret.finalText.Some? && ret.finalText.value != "" then Ok(ret.finalText.value)
    else
      match LastOfRole(ret.messages, AIRole)
      case Some(m) => Ok(m.content)
      case None => if ret.finalText.None? then Raised(NoneLengthFault) else Ok("")
  }

  /** `invoke`: a name that resolves to no model is answered with a message,
      without calling anything; a found model runs on the query alone and
      its exceptions propagate. */
  function Invoke(r: Registry<AgentModel>, name: string, query: string): (out: Outcome<string>)
    ensures GetModel(r, name).None? ==> out == Ok(NotFoundReply(name))
    ensures GetModel(r, name).Some? ==>
              out == match GetModel(r, name).value([Human(query)])
                     case Ok(ret) => FinalAnswer(ret)
                     case Raised(f) => Raised(f)
  {
    match GetModel(r, name)
    case None => Ok(NotFoundReply(name))
    case Some(model) =>
      var ret :- model([Human(query)]);
      FinalAnswer(ret)
  }

  /** `invoke` follows `get_card`: a name whose card is missing is answered
      with the not-found message and nothing runs; a name whose card is
      found runs the model stored under that card's name. */
  lemma InvokeFollowsCard(r: Registry<AgentModel>, name: string, query: string)
    requires Valid(r)
    ensures GetCard(r, name).None? ==> Invoke(r, name, query) == Ok(NotFoundReply(name))
    ensures GetCard(r, name).Some? ==>
              && GetCard(r, name).value.name in r.models
              && Invoke(r, name, query) ==
                   match r.models[GetCard(r, name).value.name]([Human(query)])
                   case Ok(ret) => FinalAnswer(ret)
                   case Raised(f) => Raised(f)
  {
    LookupsAgree(r, name);
  }

  /** An unknown agent never raises and the reply names it. */
  lemma InvokeMissIsReported(r: Registry<AgentModel>, name: string, query: string)
    requires name !in r.models && Normalize(name) !in r.models
    ensures Invoke(r, name, query) == Ok("Agente '" + name + "' não encontrado.")
  {
  }

  // ---------------------------------------------------------------------------
  // Registration sequences
  // ---------------------------------------------------------------------------

  /** Registers each (card, model) pair in turn. */
  function RegisterAll<M>(r: Registry<M>, entries: seq<(AgentCard, M)>): Registry<M>
    decreases |entries|
  {
    if |entries| == 0 then r
    else RegisterAll(Register(r, entries[0].0, entries[0].1), entries[1..])
  }

  /** The names of a list of entries. */
  function EntryNames<M>(entries: seq<(AgentCard, M)>): (ns: seq<string>)
    ensures |ns| == |entries| && forall i :: 0 <= i < |entries| ==> ns[i] == entries[i].0.name
  {
    seq(|entries|, i requires 0 <= i < |entries| => entries[i].0.name)
  }

  /** The set of names of a non-empty list of entries: the first and the rest. */
  lemma EntryNamesCons<M>(entries: seq<(AgentCard, M)>)
    requires |entries| > 0
    ensures (set n | n in EntryNames(entries))
            == {entries[0].0.name} + (set n | n in EntryNames(entries[1..]))
  {
    assert EntryNames(entries) == [entries[0].0.name] + EntryNames(entries[1..]);
  }

  /** After a clear and a sequence of registrations, the registry is valid
      and holds exactly the registered names. */
  lemma {:induction false} RegisterAllKeys<M>(r: Registry<M>, entries: seq<(AgentCard, M)>)
    requires Valid(r)
    ensures Valid(RegisterAll(r, entries))
    ensures RegisterAll(r, entries).cards.Keys == r.cards.Keys + (set n | n in EntryNames(entries))
    decreases |entries|
  {
    if |entries| > 0 {
      var r1 := Register(r, entries[0].0, entries[0].1);
      RegisterKeepsValid(r, entries[0].0, entries[0].1);
      RegisterAllKeys(r1, entries[1..]);
      EntryNamesCons(entries);
    }
  }

  /** Registrations under other names leave an entry as it was. */
  lemma {:induction false} RegisterAllOutside<M>(r: Registry<M>, entries: seq<(AgentCard, M)>, k: string)
    requires k !in EntryNames(entries)
    ensures (k in RegisterAll(r, entries).cards <==> k in r.cards)
    ensures (k in RegisterAll(r, entries).models <==> k in r.models)
    ensures k in r.cards ==> RegisterAll(r, entries).cards[k] == r.cards[k]
    ensures k in r.models ==> RegisterAll(r, entries).models[k] == r.models[k]
    decreases |entries|
  {
    if |entries| > 0 {
      assert EntryNames(entries)[0] == entries[0].0.name;
      assert EntryNames(entries[1..]) == EntryNames(entries)[1..];
      RegisterAllOutside(Register(r, entries[0].0, entries[0].1), entries[1..], k);
    }
  }

  /** With no name registered twice, each entry ends up stored under its
      card's name, card and model together. */
  lemma {:induction false} RegisterAllStores<M>(r: Registry<M>, entries: seq<(AgentCard, M)>, i: nat)
    requires Distinct(EntryNames(entries)) && i < |entries|
    ensures entries[i].0.name in RegisterAll(r, entries).cards
    ensures entries[i].0.name in RegisterAll(r, entries).models
    ensures RegisterAll(r, entries).cards[entries[i].0.name] == entries[i].0
    ensures RegisterAll(r, entries).models[entries[i].0.name] == entries[i].1
    decreases |entries|
  {
    var ns := EntryNames(entries);
    var rest := entries[1..];
    assert EntryNames(rest) == ns[1..];
    var r1 := Register(r, entries[0].0, entries[0].1);
    if i == 0 {
      assert entries[0].0.name !in EntryNames(rest) by {
        forall j | 0 <= j < |rest| ensures EntryNames(rest)[j] != entries[0].0.name {
          assert ns[j + 1] != ns[0];
        }
      }
      RegisterAllOutside(r1, rest, entries[0].0.name);
    } else {
      assert Distinct(EntryNames(rest)) by {
        forall a, b | 0 <= a < b < |rest| ensures EntryNames(rest)[a] != EntryNames(rest)[b] {
          assert ns[a + 1] != ns[b + 1];
        }
      }
      RegisterAllStores(r1, rest, i - 1);
    }
  }

  /** `list_cards` after a clear counts the distinct names registered since. */
  lemma ListCardsCountsDistinctNames<M>(entries: seq<(AgentCard, M)>)
    ensures |ListCards(RegisterAll(Empty<M>(), entries))| == |set n | n in EntryNames(entries)|
  {
    EmptyValid<M>();
    RegisterAllKeys(Empty<M>(), entries);
    ListCardsCount(RegisterAll(Empty<M>(), entries));
  }
}

=== FILE: state.dfy ===
/** The shared workflow state, the partial updates nodes return, and the
    node configuration every node carries (src/data_models/graph_state.py,
    src/nodes/base/_node.py). */
module GraphState {
  import opened Wrappers
  import opened Messages

  /** The `analysis_result` dict the reasoning nodes store. */
  datatype Analysis = Analysis(input: string, analysis: string, node: string)

  /** The workflow state. A key that is absent and a key holding `None` read
      the same through `state.get`, so both are `None` here; an absent
      `messages` key reads as the empty list. */
  datatype State = State(
    messages: seq<Message>,
    processingStatus: Option<string>,
    analysisResult: Option<Analysis>,
    recommendations: Option<seq<string>>,
    errorMessage: Option<string>,
    userInput: Option<string>)

  /** The state a request starts from: its messages and nothing else. */
  function Initial(ms: seq<Message>): State {
    State(ms, None, None, None, None, None)
  }

  /** One key of a partial update: left alone, or overwritten with a value. */
  datatype Slot<T> = Keep | Put(value: T) {
    function Over(current: T): T {
      if Put? then value else current
    }
  }

  /** A node's partial state update. `errorMessage := Put(None)` is the
      update `{"error_message": None}`, which differs from leaving the key out. */
  datatype Update = Update(
    messages: Slot<seq<Message>>,
    processingStatus: Slot<string>,
    analysisResult: Slot<Analysis>,
    recommendations: Slot<seq<string>>,
    errorMessage: Slot<Option<string>>,
    userInput: Slot<string>)

  /** The empty update. */
  const NoChange := Update(Keep, Keep, Keep, Keep, Keep, Keep)

  /** An update carrying only an error message. */
  function ErrorOnly(e: Option<string>): Update {
    NoChange.(errorMessage := Put(e))
  }

  /** Applies an update by key overwrite: a written key takes the new value
      whole, an unwritten key keeps the old one. */
  function Merge(s: State, u: Update): (r: State)
    ensures u.messages.Keep? ==> r.messages == s.messages
    ensures u.messages.Put? ==> r.messages == u.messages.value
    ensures u.errorMessage.Keep? ==> r.errorMessage == s.errorMessage
    ensures u.errorMessage.Put? ==> r.errorMessage == u.errorMessage.value
    ensures u.processingStatus.Keep? ==> r.processingStatus == s.processingStatus
    ensures u.processingStatus.Put? ==> r.processingStatus == Some(u.processingStatus.value)
    ensures u.analysisResult.Keep? ==> r.analysisResult == s.analysisResult
    ensures u.analysisResult.Put? ==> r.analysisResult == Some(u.analysisResult.value)
    ensures u.recommendations.Keep? ==> r.recommendations == s.recommendations
    ensures u.recommendations.Put? ==> r.recommendations == Some(u.recommendations.value)
    ensures u.userInput.Keep? ==> r.userInput == s.userInput
    ensures u.userInput.Put? ==> r.userInput == Some(u.userInput.value)
  {
    State(
      u.messages.Over(s.messages),
      if u.processingStatus.Put? then Some(u.processingStatus.value) else s.processingStatus,
      if u.analysisResult.Put? then Some(u.analysisResult.value) else s.analysisResult,
      if u.recommendations.Put? then Some(u.recommendations.value) else s.recommendations,
      u.errorMessage.Over(s.errorMessage),
      if u.userInput.Put? then Some(u.userInput.value) else s.userInput)
  }

  /** `later` applied on top of `earlier`, key by key. */
  function Then(earlier: Update, later: Update): Update {
    Update(
      if later.messages.Put? then later.messages else earlier.messages,
      if later.processingStatus.Put? then later.processingStatus else earlier.processingStatus,
      if later.analysisResult.Put? then later.analysisResult else earlier.analysisResult,
      if later.recommendations.Put? then later.recommendations else earlier.recommendations,
      if later.errorMessage.Put? then later.errorMessage else earlier.errorMessage,
      if later.userInput.Put? then later.userInput else earlier.userInput)
  }

  /** Merging is last-write-wins: two merges in a row equal one merge of the
      combined update, the empty update changes nothing, and repeating an
      update changes nothing more. */
  lemma MergeLastWriteWins(s: State, u1: Update, u2: Update)
    ensures Merge(Merge(s, u1), u2) == Merge(s, Then(u1, u2))
    ensures Merge(s, NoChange) == s
    ensures Merge(Merge(s, u1), u1) == Merge(s, u1)
  {
  }

  // ---------------------------------------------------------------------------
  // Nodes and commands
  // ---------------------------------------------------------------------------

  /** The langgraph terminal marker `END`. */
  const End := "__end__"
  /** The fallback target the nodes use when a routing key is missing. */
  const DefaultTarget := "END"
  const EndKey := "end"
  const NextKey := "next_node"

  /** A routing table: symbolic outcome to successor node name. */
  type Routing = map<string, string>

  /** `routing_options.get(key, default)`. */
  function RouteOr(routing: Routing, key: string, default: string): string {
    if key in routing then routing[key] else default
  }

  /** `routing_options[key]`, which raises KeyError when the key is missing. */
  function RouteAt(routing: Routing, key: string): (r: Outcome<string>)
    ensures r.Ok? <==> key in routing
    ensures r.Ok? ==> r.value == routing[key]
  {
    if key in routing then Ok(routing[key]) else Raised(Fault(KeyError, "'" + key + "'"))
  }

  /** The configuration every node holds: the constructor stores its three
      arguments unchanged. */
  datatype NodeInfo = NodeInfo(name: string, description: string, routing: Routing)

  /** `str(node)` and `repr(node)`: both give the node's name. */
  function Display(n: NodeInfo): string {
    n.name
  }

  /** How a command names its successor: the `goto` field, or a `next_node`
      keyword argument (which langgraph's Command does not define). */
  datatype Route = Goto(target: string) | NextNodeArg(target: string)

  /** A node's result: a partial update and the successor. */
  datatype Command = Command(update: Update, route: Route)
}

=== FILE: stream.dfy ===
/** Progress streaming (src/utils/stream.py): the stop rule, the enqueue
    operation, the guarded callback helper, and the relay loop of `run_task`.

    The relay runs concurrently with the graph and polls the queue; here it
    is a sequential function of the events it dequeues before the graph
    finishes and of how the graph finished. */
module Stream {
  import opened Wrappers

  /** A queued progress message: its "type" and "data" entries, either of
      which may be missing from the dict. */
  datatype Event = Event(kind: Option<string>, data: Option<string>)

  /** `CONTINUE_STREAM_TYPES`. */
  const ContinueTypes: seq<string> := ["chunk", "reasoning", "end"]
  const DefaultType: string := "chunk"

  /** `should_stop_streaming`: only the three continue types keep the relay
      going; a missing or any other type stops it. */
  function ShouldStop(e: Event): (stop: bool)
    ensures !stop <==> e.kind == Some("chunk") || e.kind == Some("reasoning") || e.kind == Some("end")
  {
    e.kind.None? || e.kind.value !in ContinueTypes
  }

  /** `Streamer.stream`: one event at the back of the queue. */
  function Enqueue(queue: seq<Event>, text: string, kind: string): (q: seq<Event>)
    ensures |q| == |queue| + 1 && q[..|queue|] == queue
    ensures q[|queue|].kind == Some(kind) && q[|queue|].data == Some(text)
  {
    queue + [Event(Some(kind), Some(text))]
  }

  /** What a node may hold as `stream_callback`: nothing, an object without
      a `stream` method, a streamer with its queue, or an object whose
      `stream` raises. */
  datatype Sink = NoSink | NoStreamMethod | Streamer(queue: seq<Event>) | FailingStream

  /** `stream_if_available`: enqueue on a streamer; do nothing otherwise,
      swallowing the failure of a raising callback. */
  function StreamIfAvailable(sink: Sink, text: string, kind: string): (s: Sink)
    ensures sink.Streamer? ==> s == Streamer(Enqueue(sink.queue, text, kind))
    ensures !sink.Streamer? ==> s == sink
  {
    match sink
    case Streamer(q) => Streamer(Enqueue(q, text, kind))
    case _ => sink
  }

  /** A text streamed with the default type never stops the relay. */
  lemma DefaultStreamKeepsRelayGoing(sink: Sink, text: string)
    requires sink.Streamer?
    ensures var q := StreamIfAvailable(sink, text, DefaultType).queue;
            !ShouldStop(q[|q| - 1])
  {
  }

  // ---------------------------------------------------------------------------
  // The relay
  // ---------------------------------------------------------------------------

  /** `str(stream_json)`, the rendering of a queued dict. */
  type Render = Event -> string

  function DataLine(show: Render, e: Event): string {
    "data: " + show(e) + "\n\n"
  }

  /** The line yielded when the graph raised. */
  function ErrorLine(message: string): string {
    "data: {'type': 'error', 'message': '" + message + "'}\n\n"
  }

  /** The events up to and including the first that stops the relay. */
  function UpToStop(events: seq<Event>): (r: seq<Event>)
    ensures |r| <= |events| && r == events[..|r|]
    ensures forall i :: 0 <= i < |r| - 1 ==> !ShouldStop(r[i])
    ensures |r| < |events| ==> |r| > 0 && ShouldStop(r[|r| - 1])
    ensures (forall i :: 0 <= i < |events| ==> !ShouldStop(events[i])) ==> r == events
  {
    if |events| == 0 then []
    else if ShouldStop(events[0]) then [events[0]]
    else [events[0]] + UpToStop(events[1..])
  }

  /** The lines the relay yields, as a reference definition: one data line
      per event up to the stopping one, then the error line if the graph
      raised. */
  function RelayLines(show: Render, events: seq<Event>, graph: Outcome<()>): seq<string> {
    var shown := UpToStop(events);
    seq(|shown|, i requires 0 <= i < |shown| => DataLine(show, shown[i]))
      + (if graph.Raised? then [ErrorLine(graph.fault.message)] else [])
  }

  /** `run_task`: yields each dequeued event before testing it, leaves the
      loop at the first stopping event, waits for the graph, and yields one
      error line if the graph raised. */
  method Relay(show: Render, events: seq<Event>, graph: Outcome<()>) returns (lines: seq<string>)
    ensures lines == RelayLines(show, events, graph)
  {
    lines := [];
    var i := 0;
    var stopped := false;
    while i < |events| && !stopped
      invariant 0 <= i <= |events|
      invariant stopped ==> i > 0 && ShouldStop(events[i - 1])
      invariant forall k :: 0 <= k < i - (if stopped then 1 else 0) ==> !ShouldStop(events[k])
      invariant |lines| == i && forall k :: 0 <= k < i ==> lines[k] == DataLine(show, events[k])
      decreases |events| - i
    {
      lines := lines + [DataLine(show, events[i])];
      stopped := ShouldStop(events[i]);
      i := i + 1;
    }
    UpToStopPrefix(events, i, stopped);
    if graph.Raised? {
      lines := lines + [ErrorLine(graph.fault.message)];
    }
  }

  /** The relay's stopping point is the end of `UpToStop`. */
  lemma {:induction false} UpToStopPrefix(events: seq<Event>, i: nat, stopped: bool)
    requires i <= |events|
    requires stopped ==> i > 0 && ShouldStop(events[i - 1])
    requires !stopped ==> i == |events|
    requires forall k :: 0 <= k < i - (if stopped then 1 else 0) ==> !ShouldStop(events[k])
    ensures UpToStop(events) == events[..i]
    decreases i
  {
    if |events| > 0 && !ShouldStop(events[0]) {
      UpToStopPrefix(events[1..], i - 1, stopped);
      assert events[..i] == [events[0]] + events[1..][..i - 1];
    }
  }

  /** What the relay yields: the events in dequeue order, each before its
      stop test, so the stopping event is the last data line and nothing but
      the error line follows it; a graph that raised adds exactly one error
      line, at the end. */
  lemma RelayShape(show: Render, events: seq<Event>, graph: Outcome<()>)
    ensures var lines := RelayLines(show, events, graph);
            var n := |UpToStop(events)|;
            && |lines| == n + (if graph.Raised? then 1 else 0)
            && (forall i :: 0 <= i < n ==> lines[i] == DataLine(show, events[i]))
            && (graph.Raised? ==> lines[n] == ErrorLine(graph.fault.message))
            && (n < |events| ==> ShouldStop(events[n - 1]))
            && (forall i :: 0 <= i < n - 1 ==> !ShouldStop(events[i]))
  {
  }

  /** Events of the continue types are all relayed. */
  lemma ContinueEventsAllRelayed(show: Render, events: seq<Event>)
    requires forall i :: 0 <= i < |events| ==> events[i].kind.Some? && events[i].kind.value in ContinueTypes
    ensures |RelayLines(show, events, Ok(()))| == |events|
  {
  }
}

=== FILE: text.dfy ===
/** Character classes and string helpers that Python's `str` methods provide.

    Python consults the full Unicode database for `isspace`, `isalnum`,
    `lower` and NFKD decomposition. The model uses explicit tables: the
    whitespace table is Python's complete one, while letters, digits, case
    mapping and decomposition cover ASCII and Latin-1 (U+0000..U+00FF). Every
    character outside those tables is treated as a non-alphanumeric character
    with no case and no decomposition. */
module Text {

  // ---------------------------------------------------------------------------
  // Character tables
  // ---------------------------------------------------------------------------

  /** `str.isspace` for one character (Python's whitespace set). */
  predicate IsSpace(c: char) {
    || ('\t' <= c <= '\r')
    || ('\U{1C}' <= c <= '\U{1F}')
    || c == ' ' || c == '\U{85}' || c == '\U{A0}' || c == '\U{1680}'
    || ('\U{2000}' <= c <= '\U{200A}')
    || c == '\U{2028}' || c == '\U{2029}' || c == '\U{202F}'
    || c == '\U{205F}' || c == '\U{3000}'
  }

  /** `str.isalnum` for one character, restricted to ASCII, Latin-1 and the
      Greek small mu that the micro sign decomposes into. */
  predicate IsAlnum(c: char) {
    || ('0' <= c <= '9') || ('A' <= c <= 'Z') || ('a' <= c <= 'z')
    || c == '\U{AA}' || c == '\U{B5}' || c == '\U{BA}' || c == '\U{3BC}'
    || c == '\U{B2}' || c == '\U{B3}' || c == '\U{B9}'
    || ('\U{BC}' <= c <= '\U{BE}')
    || ('\U{C0}' <= c <= '\U{D6}') || ('\U{D8}' <= c <= '\U{F6}')
    || ('\U{F8}' <= c <= '\U{FF}')
  }

  /** Upper-case letters of ASCII and Latin-1 that have a one-letter lower case. */
  predicate IsUpper(c: char) {
    ('A' <= c <= 'Z') || ('\U{C0}' <= c <= '\U{D6}') || ('\U{D8}' <= c <= '\U{DE}')
  }

  /** `str.lower` for one character. */
  function Lower(c: char): (r: char)
    ensures !IsUpper(r)
    ensures IsAlnum(r) <==> IsAlnum(c)
    ensures IsSpace(r) <==> IsSpace(c)
  {
    if IsUpper(c) then (c as int + 32) as char else c
  }

  /** Unicode combining marks (canonical combining class non-zero) within the
      table: the Combining Diacritical Marks block. */
  predicate IsCombining(c: char) {
    '\U{300}' <= c <= '\U{36F}'
  }

  /** Position of a Latin-1 accented letter inside its 32-letter row, or -1. */
  function LatinRowIndex(c: char): int {
    if '\U{C0}' <= c <= '\U{DF}' then c as int - 0xC0
    else if '\U{E0}' <= c <= '\U{FF}' then c as int - 0xE0
    else -1
  }

  /** Row positions whose letter decomposes into a base letter and one mark. */
  predicate Accented(i: int) {
    || (0 <= i <= 5) || i == 7 || (8 <= i <= 15) || i == 17
    || (18 <= i <= 22) || (25 <= i <= 29) || i == 31
  }

  /** Upper-case base letter of an accented row position. */
  function BaseLetter(i: int): (r: char)
    ensures 'A' <= r <= 'Z'
  {
    if i <= 5 then 'A'
    else if i == 7 then 'C'
    else if i <= 11 then 'E'
    else if i <= 15 then 'I'
    else if i == 17 then 'N'
    else if i <= 22 then 'O'
    else if i <= 28 then 'U'
    else 'Y'
  }

  /** Combining mark of an accented row position. */
  function Mark(i: int): (r: char)
    ensures IsCombining(r)
  {
    if i in {0, 8, 12, 18, 25} then '\U{300}'
    else if i in {1, 9, 13, 19, 26, 29} then '\U{301}'
    else if i in {2, 10, 14, 20, 27} then '\U{302}'
    else if i in {3, 17, 21} then '\U{303}'
    else if i == 5 then '\U{30A}'
    else if i == 7 then '\U{327}'
    else '\U{308}'
  }

  /** The fraction slash that the vulgar fractions decompose around. */
  const FractionSlash: char := '\U{2044}'

  /** NFKD decomposition of one character (Unicode Standard Annex #15),
      restricted to Latin-1. */
  function Decompose(c: char): (r: seq<char>)
    ensures 1 <= |r| <= 3
  {
    var i := LatinRowIndex(c);
    if c == '\U{A0}' then [' ']
    else if c == '\U{A8}' then [' ', '\U{308}']
    else if c == '\U{AF}' then [' ', '\U{304}']
    else if c == '\U{B4}' then [' ', '\U{301}']
    else if c == '\U{B8}' then [' ', '\U{327}']
    else if c == '\U{B5}' then ['\U{3BC}']
    else if c == '\U{BC}' then ['1', FractionSlash, '4']
    else if c == '\U{BD}' then ['1', FractionSlash, '2']
    else if c == '\U{BE}' then ['3', FractionSlash, '4']
    else if c == '\U{AA}' then ['a']
    else if c == '\U{BA}' then ['o']
    else if c == '\U{B2}' then ['2']
    else if c == '\U{B3}' then ['3']
    else if c == '\U{B9}' then ['1']
    else if c == '\U{FF}' then ['y', '\U{308}']
    else if c == '\U{DF}' then [c]
    else if Accented(i) && c <= '\U{DF}' then [BaseLetter(i), Mark(i)]
    else if Accented(i) then [(BaseLetter(i) as int + 32) as char, Mark(i)]
    else [c]
  }

  /** A character NFKD leaves as it is. */
  predicate Decomposed(c: char) {
    Decompose(c) == [c]
  }

  /** Every character that decomposition produces is itself fully decomposed. */
  lemma DecomposeParts(c: char)
    ensures forall i :: 0 <= i < |Decompose(c)| ==> Decomposed(Decompose(c)[i])
  {
  }

  /** Lower-casing a fully decomposed character keeps it fully decomposed. */
  lemma LowerKeepsDecomposed(c: char)
    requires Decomposed(c)
    ensures Decomposed(Lower(c))
    ensures Lower(Lower(c)) == Lower(c)
    ensures IsCombining(Lower(c)) <==> IsCombining(c)
  {
  }

  // ---------------------------------------------------------------------------
  // Strings
  // ---------------------------------------------------------------------------

  /** `s.lower()` under the table. */
  function Lowercase(s: string): (r: string)
    ensures |r| == |s|
    ensures forall i :: 0 <= i < |s| ==> r[i] == Lower(s[i])
  {
    seq(|s|, i requires 0 <= i < |s| => Lower(s[i]))
  }

  /** Every character is whitespace: `not s.strip()` in Python. */
  predicate IsBlank(s: string) {
    forall i :: 0 <= i < |s| ==> IsSpace(s[i])
  }

  /** The index of the first character at or after `i` that is not
      whitespace, or `|s|` when there is none. */
  function SkipBlank(s: string, i: nat): (n: nat)
    requires i <= |s|
    ensures i <= n <= |s|
    ensures forall k :: i <= k < n ==> IsSpace(s[k])
    ensures n == |s| || !IsSpace(s[n])
    decreases |s| - i
  {
    if i < |s| && IsSpace(s[i]) then SkipBlank(s, i + 1) else i
  }

  /** The end of `s[lo..j]` once its trailing whitespace is dropped. */
  function SkipBlankBack(s: string, lo: nat, j: nat): (n: nat)
    requires lo <= j <= |s|
    ensures lo <= n <= j
    ensures forall k :: n <= k < j ==> IsSpace(s[k])
    ensures n == lo || !IsSpace(s[n - 1])
    decreases j
  {
    if lo < j && IsSpace(s[j - 1]) then SkipBlankBack(s, lo, j - 1) else j
  }

  /** How many whitespace characters `s` starts with. */
  function LeadingBlank(s: string): (n: nat)
    ensures n <= |s|
  {
    SkipBlank(s, 0)
  }

  /** `s.strip()`: the slice of `s` that starts after its leading whitespace
      and is followed only by whitespace. */
  function Strip(s: string): (r: string)
    ensures LeadingBlank(s) + |r| <= |s|
    ensures r == s[LeadingBlank(s)..LeadingBlank(s) + |r|]
    ensures forall k :: 0 <= k < LeadingBlank(s) ==> IsSpace(s[k])
    ensures forall k :: LeadingBlank(s) + |r| <= k < |s| ==> IsSpace(s[k])
    ensures r == [] || (!IsSpace(r[0]) && !IsSpace(r[|r| - 1]))
  {
    var i := SkipBlank(s, 0);
    s[i..SkipBlankBack(s, i, |s|)]
  }

  /** A property every element of `s` has, every element of a slice has. */
  lemma SliceKeeps<T>(s: seq<T>, a: nat, b: nat, p: T -> bool)
    requires a <= b <= |s|
    requires forall k :: 0 <= k < |s| ==> p(s[k])
    ensures forall k :: 0 <= k < b - a ==> p(s[a..b][k])
  {
    forall k | 0 <= k < b - a ensures p(s[a..b][k]) {
      assert s[a..b][k] == s[a + k];
    }
  }

  /** Stripping leaves nothing exactly when the string is all whitespace. */
  lemma StripEmptyIffBlank(s: string)
    ensures Strip(s) == [] <==> IsBlank(s)
  {
  }

  /** A string without whitespace at either end strips to itself. */
  lemma StripTrimmed(s: string)
    requires s == [] || (!IsSpace(s[0]) && !IsSpace(s[|s| - 1]))
    ensures Strip(s) == s
  {
  }

  /** `prefix` is an initial segment of `s`. */
  predicate StartsWith(s: string, prefix: string) {
    |prefix| <= |s| && s[..|prefix|] == prefix
  }

  /** `suffix` is a final segment of `s`. */
  predicate EndsWith(s: string, suffix: string) {
    |suffix| <= |s| && s[|s| - |suffix|..] == suffix
  }

  /** Python's `sub in s` for strings. */
  function Contains(s: string, sub: string): (r: bool)
    ensures r <==> OccursIn(s, sub)
  {
    if StartsWith(s, sub) then
      assert OccursAt(s, sub, 0);
      true
    else if |s| <= |sub| then
      false
    else
      OccursShift(s, sub);
      Contains(s[1..], sub)
  }

  /** `sub` occurs in `s` starting at index `i`. */
  predicate OccursAt(s: string, sub: string, i: int) {
    0 <= i <= |s| - |sub| && s[i..i + |sub|] == sub
  }

  /** `sub` occurs at some index of `s`. */
  ghost predicate OccursIn(s: string, sub: string) {
    exists i :: OccursAt(s, sub, i)
  }

  /** When `sub` does not start `s`, it occurs in `s` iff it occurs in `s[1..]`. */
  lemma OccursShift(s: string, sub: string)
    requires |s| > 0 && !StartsWith(s, sub)
    ensures OccursIn(s, sub) <==> OccursIn(s[1..], sub)
  {
    if OccursIn(s[1..], sub) {
      var i :| OccursAt(s[1..], sub, i);
      assert s[i + 1..i + 1 + |sub|] == s[1..][i..i + |sub|];
      assert OccursAt(s, sub, i + 1);
    }
    if OccursIn(s, sub) {
      var i :| OccursAt(s, sub, i);
      assert i > 0;
      assert s[1..][i - 1..i - 1 + |sub|] == s[i..i + |sub|];
      assert OccursAt(s[1..], sub, i - 1);
    }
  }

  // ---------------------------------------------------------------------------
  // Code-point order, the order `sorted` uses for Python strings
  // ---------------------------------------------------------------------------

  /** `a <= b` for Python strings: lexicographic by code point, a prefix first. */
  predicate LexLeq(a: string, b: string) {
    if |a| == 0 then true
    else if |b| == 0 then false
    else if a[0] != b[0] then a[0] < b[0]
    else LexLeq(a[1..], b[1..])
  }

  lemma {:induction false} LexLeqReflexive(a: string)
    ensures LexLeq(a, a)
  {
    if |a| > 0 {
      LexLeqReflexive(a[1..]);
    }
  }

  lemma {:induction false} LexLeqTotal(a: string, b: string)
    ensures LexLeq(a, b) || LexLeq(b, a)
  {
    if |a| > 0 && |b| > 0 && a[0] == b[0] {
      LexLeqTotal(a[1..], b[1..]);
    }
  }

  lemma {:induction false} LexLeqTransitive(a: string, b: string, c: string)
    requires LexLeq(a, b) && LexLeq(b, c)
    ensures LexLeq(a, c)
  {
    if |a| > 0 && |b| > 0 && |c| > 0 && a[0] == b[0] && b[0] == c[0] {
      LexLeqTransitive(a[1..], b[1..], c[1..]);
    }
  }

  lemma {:induction false} LexLeqAntisymmetric(a: string, b: string)
    requires LexLeq(a, b) && LexLeq(b, a)
    ensures a == b
  {
    if |a| > 0 && |b| > 0 {
      LexLeqAntisymmetric(a[1..], b[1..]);
      assert a == [a[0]] + a[1..];
      assert b == [b[0]] + b[1..];
    }
  }
}

=== FILE: tool_loop.dfy ===
/** The tool-calling reasoning node (src/nodes/node_with_tools.py) and the
    delegating helper of its base class (src/nodes/base/_node_with_tools.py).

    The node drives a language model through at most five rounds. Each round
    invokes the model on the history, appends the reply, and, when the reply
    requests tools, runs each requested tool in order and appends one tool
    result carrying the request's id. The first reply without tool requests
    ends the loop. The Python appends to the state's own list; here every step
    returns the grown history instead. */
module ToolLoop {
  import opened Wrappers
  import opened Messages
  import opened GraphState

  /** A tool bound to the node: its name, and what invoking it with the
      request's arguments gives (`str(result)`, or the exception it raised). */
  datatype Tool = Tool(name: string, run: map<string, string> -> Outcome<string>)

  /** The round cap `max_tool_iters`. */
  const MaxToolIterations: nat := 5

  const NoMessagesError := "No messages found in state."
  const NoHumanError := "No human message found in conversation."
  const NoBackendError := "Model backend not available."
  const ExhaustedError := "Max tool iterations reached without final answer."
  const AnalysisCompleted := "analysis_completed"

  function AnalysisError(f: Fault): string {
    "Error in agentic analysis: " + f.message
  }

  function NotFoundText(name: string): string {
    "Tool '" + name + "' not found."
  }

  function ExecutionErrorText(name: string, f: Fault): string {
    "Tool '" + name + "' execution error: " + f.message
  }

  // ---------------------------------------------------------------------------
  // Running one tool
  // ---------------------------------------------------------------------------

  /** Index of the first tool at or after `from` whose name is `name`. */
  function FindToolFrom(tools: seq<Tool>, name: string, from: nat): (r: Option<nat>)
    requires from <= |tools|
    decreases |tools| - from
    ensures r.None? ==> forall i :: from <= i < |tools| ==> tools[i].name != name
    ensures r.Some? ==> && from <= r.value < |tools|
                        && tools[r.value].name == name
                        && forall j :: from <= j < r.value ==> tools[j].name != name
  {
    if from == |tools| then None
    else if tools[from].name == name then Some(from)
    else FindToolFrom(tools, name, from + 1)
  }

  /** The first bound tool with the requested name: `next(t for t in tools if t.name == name)`. */
  function FindTool(tools: seq<Tool>, name: string): Option<nat> {
    FindToolFrom(tools, name, 0)
  }

  /** The id a tool result carries: the request's id, or "" when it has none. */
  function EchoId(call: ToolCall): string {
    call.id.GetOr("")
  }

  /** `_run_tool`: never raises; an unknown tool and a failing tool both become
      a tool result describing the problem. */
  function RunTool(tools: seq<Tool>, call: ToolCall): (m: Message)
    ensures m.ToolResult?
    ensures m.callId == EchoId(call) && m.name == call.name
    ensures FindTool(tools, call.name).None? ==> m.content == NotFoundText(call.name)
    ensures FindTool(tools, call.name).Some? ==>
              var tool := tools[FindTool(tools, call.name).value];
              m.content == match tool.run(call.args)
                           case Ok(text) => text
                           case Raised(f) => ExecutionErrorText(call.name, f)
  {
    match FindTool(tools, call.name)
    case None => ToolResult(call.name, EchoId(call), NotFoundText(call.name))
    case Some(i) =>
      match tools[i].run(call.args)
      case Ok(text) => ToolResult(call.name, EchoId(call), text)
      case Raised(f) => ToolResult(call.name, EchoId(call), ExecutionErrorText(call.name, f))
  }

  /** Runs every requested tool in order: one result per request, carrying
      the request's id. */
  function RunTools(tools: seq<Tool>, calls: seq<ToolCall>): (ms: seq<Message>)
    ensures |ms| == |calls|
    ensures forall i :: 0 <= i < |ms| ==>
              ms[i].ToolResult? && ms[i].callId == EchoId(calls[i]) && ms[i].name == calls[i].name
  {
    if |calls| == 0 then []
    else [RunTool(tools, calls[0])] + RunTools(tools, calls[1..])
  }

  /** The i-th result is the i-th request run on its own: requests do not
      affect one another. */
  lemma {:induction false} RunToolsPointwise(tools: seq<Tool>, calls: seq<ToolCall>, i: nat)
    requires i < |calls|
    ensures RunTools(tools, calls)[i] == RunTool(tools, calls[i])
  {
    if i > 0 {
      RunToolsPointwise(tools, calls[1..], i - 1);
    }
  }

  // ---------------------------------------------------------------------------
  // Invoking the model
  // ---------------------------------------------------------------------------

  /** What `getattr(self.model, "model", None)` finds: no backend, or a raw
      model together with the outcome of binding the node's tools to it. */
  datatype Backend = NoBackend | Backend(raw: Llm, bound: Outcome<Llm>)

  /** `_bind_llm_with_tools`: the model to call, or `None` without a backend.
      With no tools, or when binding fails, the raw model is used. */
  function BindLlm(backend: Backend, tools: seq<Tool>): (r: Option<Llm>)
    ensures r.None? <==> backend.NoBackend?
  {
    match backend
    case NoBackend => None
    case Backend(raw, bound) =>
      if |tools| == 0 then Some(raw)
      else match bound
        case Ok(b) => Some(b)
        case Raised(_) => Some(raw)
  }

  /** The messages the model sees: the system prompt first when it is set. */
  function ModelInput(prompt: string, history: seq<Message>): (input: seq<Message>)
    ensures prompt != "" ==> |input| == |history| + 1 && input[0] == System(prompt) && input[1..] == history
    ensures prompt == "" ==> input == history
  {
    if prompt != "" then [System(prompt)] + history else history
  }

  /** `_invoke_llm`: the reply as an assistant message. A reply that is not an
      assistant message is wrapped in one, without tool requests. */
  function InvokeLlm(llm: Llm, prompt: string, history: seq<Message>): (r: Outcome<Message>)
    ensures r.Raised? <==> llm(ModelInput(prompt, history)).Raised?
    ensures r.Ok? ==> r.value.AI?
    ensures r.Ok? && !llm(ModelInput(prompt, history)).value.AIReply? ==> r.value.toolCalls == []
  {
    match llm(ModelInput(prompt, history))
    case Raised(f) => Raised(f)
    case Ok(reply) =>
      match reply
      case AIReply(c, calls) => Ok(AI(c, calls))
      case ContentReply(c) => Ok(AI(c, []))
      case DictReply(_, shown) => Ok(AI(shown, []))
      case OtherReply(shown) => Ok(AI(shown, []))
  }

  // ---------------------------------------------------------------------------
  // The loop
  // ---------------------------------------------------------------------------

  /** One completed tool round: a reply that requested tools, and the results
      of running them. */
  datatype Round = Round(reply: Message, results: seq<Message>)

  /** What the loop does with a reply that requests tools: every request is
      run, in order, and nothing else is appended. */
  predicate ToolRound(tools: seq<Tool>, r: Round) {
    r.reply.AI? && |r.reply.toolCalls| > 0 && r.results == RunTools(tools, r.reply.toolCalls)
  }

  /** The messages a sequence of rounds appends, in order. */
  function Flatten(rs: seq<Round>): seq<Message> {
    if |rs| == 0 then [] else [rs[0].reply] + rs[0].results + Flatten(rs[1..])
  }

  datatype LoopEnd = Answered(text: string) | OutOfRounds | Crashed(fault: Fault)

  /** Where the loop stopped: the tool rounds it completed and why it stopped. */
  datatype LoopRun = LoopRun(rounds: seq<Round>, end: LoopEnd) {
    /** The messages appended to the history: the rounds, then the final
        reply when there is one. A raising model appends nothing more. */
    function Added(): seq<Message> {
      Flatten(rounds) + (if end.Answered? then [AI(end.text, [])] else [])
    }

    /** How many times the model was invoked. */
    function Calls(): nat {
      |rounds| + (if end.OutOfRounds? then 0 else 1)
    }
  }

  /** The loop of `execute` over `history`, with `rounds` rounds left. */
  function Loop(llm: Llm, prompt: string, tools: seq<Tool>, history: seq<Message>, rounds: nat)
    : (r: LoopRun)
    decreases rounds
    ensures forall i :: 0 <= i < |r.rounds| ==> ToolRound(tools, r.rounds[i])
    ensures r.Calls() <= rounds
    ensures r.end.OutOfRounds? <==> |r.rounds| == rounds
  {
    if rounds == 0 then LoopRun([], OutOfRounds)
    else
      match InvokeLlm(llm, prompt, history)
      case Raised(f) => LoopRun([], Crashed(f))
      case Ok(ai) =>
        if |ai.toolCalls| == 0 then
          LoopRun([], Answered(ai.content))
        else
          var results := RunTools(tools, ai.toolCalls);
          var rest := Loop(llm, prompt, tools, history + [ai] + results, rounds - 1);
          LoopRun([Round(ai, results)] + rest.rounds, rest.end)
  }

  /** What the model saw and answered at each invocation: the first call
      sees `history` and gives the first round's reply, each later call sees
      the history grown by the rounds before it, and the call after the last
      round gives the final answer or raises. */
  ghost predicate RepliesFrom(llm: Llm, prompt: string, history: seq<Message>, rounds: seq<Round>, end: LoopEnd)
    decreases |rounds|
  {
    if |rounds| == 0 then
      && (end.Answered? ==> InvokeLlm(llm, prompt, history) == Ok(AI(end.text, [])))
      && (end.Crashed? ==> InvokeLlm(llm, prompt, history) == Raised(end.fault))
    else
      && InvokeLlm(llm, prompt, history) == Ok(rounds[0].reply)
      && RepliesFrom(llm, prompt, history + [rounds[0].reply] + rounds[0].results, rounds[1..], end)
  }

  /** Every loop run matches the model's replies. */
  lemma {:induction false} LoopReplies(llm: Llm, prompt: string, tools: seq<Tool>,
                                       history: seq<Message>, rounds: nat)
    ensures var r := Loop(llm, prompt, tools, history, rounds);
            RepliesFrom(llm, prompt, history, r.rounds, r.end)
    decreases rounds
  {
    if rounds > 0 && InvokeLlm(llm, prompt, history).Ok? {
      var ai := InvokeLlm(llm, prompt, history).value;
      if |ai.toolCalls| > 0 {
        var results := RunTools(tools, ai.toolCalls);
        var rest := Loop(llm, prompt, tools, history + [ai] + results, rounds - 1);
        LoopReplies(llm, prompt, tools, history + [ai] + results, rounds - 1);
        assert ([Round(ai, results)] + rest.rounds)[1..] == rest.rounds;
      }
    }
  }

  // ---------------------------------------------------------------------------
  // Counting what the rounds add
  // ---------------------------------------------------------------------------

  /** Number of assistant messages. */
  function CountAI(ms: seq<Message>): nat {
    if |ms| == 0 then 0 else (if ms[0].AI? then 1 else 0) + CountAI(ms[1..])
  }

  /** Total number of tool requests across the assistant messages. */
  function Requested(ms: seq<Message>): nat {
    if |ms| == 0 then 0
    else (if ms[0].AI? then |ms[0].toolCalls| else 0) + Requested(ms[1..])
  }

  lemma {:induction false} CountsAppend(a: seq<Message>, b: seq<Message>)
    ensures CountAI(a + b) == CountAI(a) + CountAI(b)
    ensures Requested(a + b) == Requested(a) + Requested(b)
  {
    if |a| > 0 {
      assert (a + b)[0] == a[0];
      assert (a + b)[1..] == a[1..] + b;
      CountsAppend(a[1..], b);
    } else {
      assert a + b == b;
    }
  }

  lemma {:induction false} ResultsCountNothing(rs: seq<Message>)
    requires forall i :: 0 <= i < |rs| ==> rs[i].ToolResult?
    ensures CountAI(rs) == 0 && Requested(rs) == 0
  {
    if |rs| > 0 {
      ResultsCountNothing(rs[1..]);
    }
  }

  /** History growth: `n` tool rounds hold exactly `n` assistant messages and
      one tool result per request, so they add `n` plus the number of
      requests; nothing else (no system prompt) is stored. */
  lemma {:induction false} RoundsGrowth(tools: seq<Tool>, rs: seq<Round>)
    requires forall i :: 0 <= i < |rs| ==> ToolRound(tools, rs[i])
    ensures CountAI(Flatten(rs)) == |rs|
    ensures |Flatten(rs)| == |rs| + Requested(Flatten(rs))
    ensures forall i :: 0 <= i < |Flatten(rs)| ==> Flatten(rs)[i].AI? || Flatten(rs)[i].ToolResult?
  {
    if |rs| > 0 {
      var head := [rs[0].reply] + rs[0].results;
      var rest := Flatten(rs[1..]);
      assert ToolRound(tools, rs[0]);
      RoundsGrowth(tools, rs[1..]);
      ResultsCountNothing(rs[0].results);
      CountsAppend([rs[0].reply], rs[0].results);
      CountsAppend(head, rest);
      assert CountAI([rs[0].reply]) == 1 && Requested([rs[0].reply]) == |rs[0].reply.toolCalls|;
      assert Flatten(rs) == head + rest;
      forall i | 0 <= i < |Flatten(rs)| ensures Flatten(rs)[i].AI? || Flatten(rs)[i].ToolResult? {
        if i >= |head| {
          assert Flatten(rs)[i] == rest[i - |head|];
        } else if i > 0 {
          assert Flatten(rs)[i] == rs[0].results[i - 1];
        }
      }
    }
  }

  // ---------------------------------------------------------------------------
  // The node
  // ---------------------------------------------------------------------------

  /** `NodeWithTools.execute`. Every path writes `error_message`; every
      failure routes to the `end` target and leaves the analysis keys alone. */
  function ExecuteWithTools(info: NodeInfo, backend: Backend, prompt: string,
                            tools: seq<Tool>, s: State): (c: Command)
    ensures c.route.Goto? && c.update.errorMessage.Put?
    ensures c.update.errorMessage != Put(None) ==>
              && c.route.target == RouteOr(info.routing, EndKey, DefaultTarget)
              && c.update.analysisResult.Keep? && c.update.recommendations.Keep?
              && c.update.processingStatus.Keep?
    ensures |s.messages| == 0 ==> c.update == ErrorOnly(Some(NoMessagesError))
    ensures |s.messages| > 0 && LastHuman(s.messages).None? ==>
              c.update == ErrorOnly(Some(NoHumanError))
    ensures LastHuman(s.messages).Some? && backend.NoBackend? ==>
              c.update == ErrorOnly(Some(NoBackendError))
    ensures LastHuman(s.messages).Some? && BindLlm(backend, tools).Some?
            && Loop(BindLlm(backend, tools).value, prompt, tools, s.messages, MaxToolIterations).end.Crashed? ==>
              c.update == ErrorOnly(Some(AnalysisError(
                Loop(BindLlm(backend, tools).value, prompt, tools, s.messages, MaxToolIterations).end.fault)))
  {
    var endTarget := RouteOr(info.routing, EndKey, DefaultTarget);
    if |s.messages| == 0 then
      Command(ErrorOnly(Some(NoMessagesError)), Goto(endTarget))
    else
      match LastHuman(s.messages)
      case None => Command(ErrorOnly(Some(NoHumanError)), Goto(endTarget))
      case Some(human) =>
        match BindLlm(backend, tools)
        case None => Command(ErrorOnly(Some(NoBackendError)), Goto(endTarget))
        case Some(llm) =>
          var run := Loop(llm, prompt, tools, s.messages, MaxToolIterations);
          match run.end
          case Answered(text) =>
            Command(
              Update(Put(s.messages + run.Added()), Put(AnalysisCompleted),
                     Put(Analysis(human.content, text, info.name)), Put([text]),
                     Put(None), Keep),
              Goto(RouteOr(info.routing, NextKey, DefaultTarget)))
          case OutOfRounds =>
            Command(NoChange.(messages := Put(s.messages + run.Added()),
                              errorMessage := Put(Some(ExhaustedError))),
                    Goto(endTarget))
          case Crashed(f) =>
            Command(ErrorOnly(Some(AnalysisError(f))), Goto(endTarget))
  }

  /** A successful run: the first reply without tool requests becomes the
      analysis and the only recommendation, and the stored history is the old
      one, fewer than five tool rounds, then that reply. */
  lemma ToolNodeAnswer(info: NodeInfo, backend: Backend, prompt: string,
                       tools: seq<Tool>, s: State)
    requires ExecuteWithTools(info, backend, prompt, tools, s).update.errorMessage == Put(None)
    ensures var c := ExecuteWithTools(info, backend, prompt, tools, s);
            && c.route.target == RouteOr(info.routing, NextKey, DefaultTarget)
            && LastHuman(s.messages).Some? && BindLlm(backend, tools).Some?
            && c.update.processingStatus == Put(AnalysisCompleted)
            && c.update.analysisResult.Put?
            && c.update.analysisResult.value.input == LastHuman(s.messages).value.content
            && c.update.analysisResult.value.node == info.name
            && c.update.recommendations == Put([c.update.analysisResult.value.analysis])
            && var run := Loop(BindLlm(backend, tools).value, prompt, tools, s.messages, MaxToolIterations);
               && |run.rounds| < MaxToolIterations
               && run.end == Answered(c.update.analysisResult.value.analysis)
               && c.update.messages == Put(s.messages + Flatten(run.rounds)
                                           + [AI(c.update.analysisResult.value.analysis, [])])
  {
    var llm := BindLlm(backend, tools).value;
    var run := Loop(llm, prompt, tools, s.messages, MaxToolIterations);
    assert s.messages + run.Added() == s.messages + Flatten(run.rounds) + [AI(run.end.text, [])];
  }

  /** Exhaustion is the only failure that stores history: five replies all
      requested tools, and the stored history is the old one followed by
      exactly five tool rounds (whose size `RoundsGrowth` gives). */
  lemma ToolNodeExhausted(info: NodeInfo, backend: Backend, prompt: string,
                          tools: seq<Tool>, s: State)
    requires var c := ExecuteWithTools(info, backend, prompt, tools, s);
             c.update.errorMessage != Put(None) && c.update.messages.Put?
    ensures var c := ExecuteWithTools(info, backend, prompt, tools, s);
            && c.update.errorMessage == Put(Some(ExhaustedError))
            && LastHuman(s.messages).Some? && BindLlm(backend, tools).Some?
            && var run := Loop(BindLlm(backend, tools).value, prompt, tools, s.messages, MaxToolIterations);
               && |run.rounds| == MaxToolIterations
               && c.update.messages == Put(s.messages + Flatten(run.rounds))
  {
    var llm := BindLlm(backend, tools).value;
    var run := Loop(llm, prompt, tools, s.messages, MaxToolIterations);
    assert s.messages + run.Added() == s.messages + Flatten(run.rounds);
  }

  /** From the loop's end to the node's result: a tool-free reply finishes
      the node with that reply as the analysis, running out of rounds gives
      the exhaustion error with the five rounds stored, and an exception
      gives the analysis error. */
  lemma ToolNodeFollowsLoop(info: NodeInfo, backend: Backend, prompt: string,
                            tools: seq<Tool>, s: State)
    requires LastHuman(s.messages).Some? && BindLlm(backend, tools).Some?
    ensures var c := ExecuteWithTools(info, backend, prompt, tools, s);
            var run := Loop(BindLlm(backend, tools).value, prompt, tools, s.messages, MaxToolIterations);
            && (run.end.Answered? ==>
                  && c.update.errorMessage == Put(None)
                  && c.update.analysisResult.Put?
                  && c.update.analysisResult.value.analysis == run.end.text
                  && c.update.messages == Put(s.messages + Flatten(run.rounds) + [AI(run.end.text, [])]))
            && (run.end.OutOfRounds? ==>
                  && c.update.errorMessage == Put(Some(ExhaustedError))
                  && c.update.messages == Put(s.messages + Flatten(run.rounds)))
            && (run.end.Crashed? ==> c.update == ErrorOnly(Some(AnalysisError(run.end.fault))))
  {
    var run := Loop(BindLlm(backend, tools).value, prompt, tools, s.messages, MaxToolIterations);
    if run.end.Answered? {
      assert s.messages + run.Added() == s.messages + Flatten(run.rounds) + [AI(run.end.text, [])];
    } else if run.end.OutOfRounds? {
      assert s.messages + run.Added() == s.messages + Flatten(run.rounds);
    }
  }

  /** A model whose replies never request a tool is invoked exactly once, and
      its reply is the only message the loop adds. */
  lemma NoToolsSingleCall(llm: Llm, prompt: string, tools: seq<Tool>,
                          history: seq<Message>, rounds: nat)
    requires rounds >= 1
    requires forall h :: llm(h).Ok? && llm(h).value.AIReply? && llm(h).value.toolCalls == []
    ensures var r := Loop(llm, prompt, tools, history, rounds);
            r.Calls() == 1 && r.end.Answered? && r.Added() == [AI(r.end.text, [])]
  {
    assert llm(ModelInput(prompt, history)).Ok?;
  }

  /** A model whose every reply requests a tool is invoked once per round and
      the loop stops because it ran out of rounds. */
  lemma {:induction false} AlwaysToolsExhausts(llm: Llm, prompt: string, tools: seq<Tool>,
                                               history: seq<Message>, rounds: nat)
    requires forall h :: llm(h).Ok? && llm(h).value.AIReply? && llm(h).value.toolCalls != []
    ensures var r := Loop(llm, prompt, tools, history, rounds);
            r.Calls() == rounds && r.end.OutOfRounds?
    decreases rounds
  {
    if rounds > 0 {
      assert llm(ModelInput(prompt, history)).Ok?;
      var ai := InvokeLlm(llm, prompt, history).value;
      AlwaysToolsExhausts(llm, prompt, tools, history + [ai] + RunTools(tools, ai.toolCalls), rounds - 1);
    }
  }

  /** A node whose model always requests tools fails with the exhaustion
      error after five rounds, routed to the `end` target. */
  lemma AlwaysToolsNodeExhausted(info: NodeInfo, backend: Backend, prompt: string,
                                 tools: seq<Tool>, s: State)
    requires LastHuman(s.messages).Some? && backend.Backend?
    requires var llm := BindLlm(backend, tools).value;
             forall h :: llm(h).Ok? && llm(h).value.AIReply? && llm(h).value.toolCalls != []
    ensures var c := ExecuteWithTools(info, backend, prompt, tools, s);
            && c.update.errorMessage == Put(Some(ExhaustedError))
            && c.route == Goto(RouteOr(info.routing, EndKey, DefaultTarget))
  {
    var llm := BindLlm(backend, tools).value;
    AlwaysToolsExhausts(llm, prompt, tools, s.messages, MaxToolIterations);
    ToolNodeFollowsLoop(info, backend, prompt, tools, s);
  }

  // ---------------------------------------------------------------------------
  // The base-class helper
  // ---------------------------------------------------------------------------

  /** What `invoke_with_tools` returns: the grown history, the final text and
      an error, each possibly absent. */
  datatype LoopReturn = LoopReturn(messages: seq<Message>, finalText: Option<string>, error: Option<string>)

  /** A model's `invoke_with_tools(messages, max_tool_iters)`. */
  type ToolLoopOracle = (seq<Message>, nat) -> Outcome<LoopReturn>

  /** The cap the base class always passes. */
  const HelperCap: nat := 5

  /** `run_model_with_optional_tools`: delegates with a cap of 5, keeps the
      history and the error and drops the final text; an exception gives the
      input history back with a description of the failure. */
  function RunModelWithOptionalTools(invokeWithTools: ToolLoopOracle, ms: seq<Message>)
    : (r: (seq<Message>, Option<string>))
    ensures invokeWithTools(ms, HelperCap).Raised? ==>
              r.0 == ms &&
              r.1 == Some("Error during model execution: " + invokeWithTools(ms, HelperCap).fault.message)
    ensures invokeWithTools(ms, HelperCap).Ok? ==>
              r.0 == invokeWithTools(ms, HelperCap).value.messages &&
              r.1 == invokeWithTools(ms, HelperCap).value.error
  {
    match invokeWithTools(ms, HelperCap)
    case Ok(ret) => (ret.messages, ret.error)
    case Raised(f) => (ms, Some("Error during model execution: " + f.message))
  }

  /** The helper's result never depends on the final text the loop returns,
      nor on what the loop would do under any cap other than 5. */
  lemma HelperIgnoresFinalText(o1: ToolLoopOracle, o2: ToolLoopOracle, ms: seq<Message>)
    requires o1(ms, HelperCap).Raised? <==> o2(ms, HelperCap).Raised?
    requires o1(ms, HelperCap).Raised? ==> o1(ms, HelperCap).fault.message == o2(ms, HelperCap).fault.message
    requires o1(ms, HelperCap).Ok? ==>
               o1(ms, HelperCap).value.messages == o2(ms, HelperCap).value.messages &&
               o1(ms, HelperCap).value.error == o2(ms, HelperCap).value.error
    ensures RunModelWithOptionalTools(o1, ms) == RunModelWithOptionalTools(o2, ms)
  {
  }
}

=== FILE: travel.dfy ===
/** The `recommend_locations` tool (src/tools/travel.py): a keyword filter
    over a fixed catalogue of five destinations. */
module Travel {
  import opened Text

  /** One catalogue entry; `kind` is the entry's "type". */
  datatype Destination = Destination(
    name: string, distanceKm: nat, weather: string, description: string, travelTime: string, kind: string)

  const Beach: string := "praia"
  const Mountain: string := "montanha"
  const Historic: string := "histórica"

  const Florianopolis := Destination("Florianópolis", 300, "Ensolarado",
    "Bela ilha com praias e cultura açoriana", "3h30min", Beach)
  const CamposDoJordao := Destination("Campos do Jordão", 180, "Parcialmente nublado",
    "Cidade serrana com clima europeu e arquitetura", "2h15min", Mountain)
  const Santos := Destination("Santos", 80, "Ensolarado",
    "Cidade litorânea com o maior porto da América", "1h20min", Beach)
  const OuroPreto := Destination("Ouro Preto", 450, "Nublado",
    "Cidade histórica colonial com arquitetura barroca", "5h30min", Historic)
  const Ubatuba := Destination("Ubatuba", 250, "Ensolarado",
    "Paraíso ecológico com 100+ praias e Mata Atlântica", "3h00min", Beach)

  /** The demonstration catalogue, in the order the tool lists it. */
  const Catalogue: seq<Destination> := [Florianopolis, CamposDoJordao, Santos, OuroPreto, Ubatuba]

  const MaxResults: nat := 3

  /** `a` is `b` with some entries removed, order kept. */
  predicate IsSubsequence(a: seq<Destination>, b: seq<Destination>) {
    if |a| == 0 then true
    else if |b| == 0 then false
    else if a[0] == b[0] then IsSubsequence(a[1..], b[1..])
    else IsSubsequence(a, b[1..])
  }

  /** `[r for r in recs if r["type"] == kind]`. */
  function OfKind(recs: seq<Destination>, kind: string): (r: seq<Destination>)
    ensures forall i :: 0 <= i < |r| ==> r[i].kind == kind
    ensures IsSubsequence(r, recs)
  {
    if |recs| == 0 then []
    else if recs[0].kind == kind then [recs[0]] + OfKind(recs[1..], kind)
    else
      var rest := OfKind(recs[1..], kind);
      SubsequenceOfTail(rest, recs);
      rest
  }

  /** The filter drops no destination of the kind. */
  lemma {:induction false} OfKindComplete(recs: seq<Destination>, kind: string)
    ensures forall d :: d in recs && d.kind == kind ==> d in OfKind(recs, kind)
  {
    if |recs| > 0 {
      OfKindComplete(recs[1..], kind);
      forall d | d in recs && d.kind == kind ensures d in OfKind(recs, kind) {
        if d != recs[0] {
          assert d in recs[1..];
        }
      }
    }
  }

  /** Dropping a head keeps a subsequence one. */
  lemma {:induction false} SubsequenceOfTail(a: seq<Destination>, b: seq<Destination>)
    requires |b| > 0 && IsSubsequence(a, b[1..])
    ensures IsSubsequence(a, b)
    decreases |a| + |b|
  {
    if |a| > 0 && a[0] == b[0] {
      if |b[1..]| > 0 && a[0] == b[1..][0] {
        SubsequenceOfTail(a[1..], b[1..]);
      } else {
        SubsequenceDropHead(a, b[1..]);
      }
    }
  }

  /** A subsequence with its head removed is still a subsequence. */
  lemma {:induction false} SubsequenceDropHead(a: seq<Destination>, b: seq<Destination>)
    requires |a| > 0 && IsSubsequence(a, b)
    ensures IsSubsequence(a[1..], b)
    decreases |a| + |b|
  {
    if |b| > 0 {
      if a[0] == b[0] {
        SubsequenceOfTail(a[1..], b);
      } else {
        SubsequenceDropHead(a, b[1..]);
        SubsequenceOfTail(a[1..], b);
      }
    }
  }

  /** A prefix of a subsequence is a subsequence. */
  lemma {:induction false} PrefixSubsequence(a: seq<Destination>, b: seq<Destination>, n: nat)
    requires n <= |a| && IsSubsequence(a, b)
    ensures IsSubsequence(a[..n], b)
    decreases |b|
  {
    if n > 0 && |b| > 0 {
      if a[0] == b[0] {
        PrefixSubsequence(a[1..], b[1..], n - 1);
        assert a[..n][1..] == a[1..][..n - 1];
      } else {
        PrefixSubsequence(a, b[1..], n);
      }
    }
  }

  /** `recs[:n]`. */
  function Take(recs: seq<Destination>, n: nat): seq<Destination> {
    if |recs| <= n then recs else recs[..n]
  }

  predicate MentionsBeach(q: string) {
    Contains(q, "praia") || Contains(q, "mar") || Contains(q, "litoral")
  }

  predicate MentionsMountain(q: string) {
    Contains(q, "montanha") || Contains(q, "serra") || Contains(q, "frio")
  }

  predicate MentionsHistory(q: string) {
    Contains(q, "históric") || Contains(q, "cultur")
  }

  /** One destination of each kind, in the order beach, mountain, historic. */
  function Variety(recs: seq<Destination>): seq<Destination> {
    Take(OfKind(recs, Beach), 1) + Take(OfKind(recs, Mountain), 1) + Take(OfKind(recs, Historic), 1)
  }

  /** `recommend_locations`: the first keyword group found in the lower-cased
      query picks a kind; no keyword gives one destination of each kind; the
      result is cut to three. */
  function RecommendLocations(query: string): (recs: seq<Destination>)
    ensures |recs| <= MaxResults
    ensures MentionsBeach(Lowercase(query)) ==> forall i :: 0 <= i < |recs| ==> recs[i].kind == Beach
    ensures !MentionsBeach(Lowercase(query)) && MentionsMountain(Lowercase(query)) ==>
              forall i :: 0 <= i < |recs| ==> recs[i].kind == Mountain
    ensures !MentionsBeach(Lowercase(query)) && !MentionsMountain(Lowercase(query)) && MentionsHistory(Lowercase(query)) ==>
              forall i :: 0 <= i < |recs| ==> recs[i].kind == Historic
  {
    var q := Lowercase(query);
    var filtered :=
      if MentionsBeach(q) then OfKind(Catalogue, Beach)
      else if MentionsMountain(q) then OfKind(Catalogue, Mountain)
      else if MentionsHistory(q) then OfKind(Catalogue, Historic)
      else Variety(Catalogue);
    Take(filtered, MaxResults)
  }

  /** The three kinds are different strings. */
  lemma KindsDiffer()
    ensures Beach != Mountain && Beach != Historic && Mountain != Historic
  {
    assert Beach[0] == 'p' && Mountain[0] == 'm' && Historic[0] == 'h';
  }

  /** The kind filters over the catalogue. */
  lemma CatalogueByKind()
    ensures OfKind(Catalogue, Beach) == [Florianopolis, Santos, Ubatuba]
    ensures OfKind(Catalogue, Mountain) == [CamposDoJordao]
    ensures OfKind(Catalogue, Historic) == [OuroPreto]
  {
    KindsDiffer();
    CatalogueSuffixes();
    CatalogueBeaches();
    CatalogueMountains();
    CatalogueHistoric();
  }

  /** The catalogue's suffixes, entry by entry. */
  lemma CatalogueSuffixes()
    ensures Catalogue[4..] == [Ubatuba] && Catalogue[3..] == [OuroPreto, Ubatuba]
    ensures Catalogue[2..] == [Santos] + Catalogue[3..] && Catalogue[1..] == [CamposDoJordao] + Catalogue[2..]
  {
  }

  lemma CatalogueBeaches()
    requires Beach != Mountain && Beach != Historic
    requires Catalogue[4..] == [Ubatuba] && Catalogue[3..] == [OuroPreto, Ubatuba]
    requires Catalogue[2..] == [Santos] + Catalogue[3..] && Catalogue[1..] == [CamposDoJordao] + Catalogue[2..]
    ensures OfKind(Catalogue, Beach) == [Florianopolis, Santos, Ubatuba]
  {
    var c := Catalogue;
    assert OfKind(c[4..][1..], Beach) == [];
    assert OfKind(c[4..], Beach) == [Ubatuba];
    assert OfKind(c[3..], Beach) == [Ubatuba];
    assert OfKind(c[2..], Beach) == [Santos, Ubatuba];
    assert OfKind(c[1..], Beach) == [Santos, Ubatuba];
  }

  lemma CatalogueMountains()
    requires Beach != Mountain && Mountain != Historic
    requires Catalogue[4..] == [Ubatuba] && Catalogue[3..] == [OuroPreto, Ubatuba]
    requires Catalogue[2..] == [Santos] + Catalogue[3..] && Catalogue[1..] == [CamposDoJordao] + Catalogue[2..]
    ensures OfKind(Catalogue, Mountain) == [CamposDoJordao]
  {
    var c := Catalogue;
    assert OfKind(c[4..][1..], Mountain) == [];
    assert OfKind(c[4..], Mountain) == [];
    assert OfKind(c[3..], Mountain) == [];
    assert OfKind(c[2..], Mountain) == [];
    assert OfKind(c[1..], Mountain) == [CamposDoJordao];
  }

  lemma CatalogueHistoric()
    requires Beach != Historic && Mountain != Historic
    requires Catalogue[4..] == [Ubatuba] && Catalogue[3..] == [OuroPreto, Ubatuba]
    requires Catalogue[2..] == [Santos] + Catalogue[3..] && Catalogue[1..] == [CamposDoJordao] + Catalogue[2..]
    ensures OfKind(Catalogue, Historic) == [OuroPreto]
  {
    var c := Catalogue;
    assert OfKind(c[4..][1..], Historic) == [];
    assert OfKind(c[4..], Historic) == [];
    assert OfKind(c[3..], Historic) == [OuroPreto];
    assert OfKind(c[2..], Historic) == [OuroPreto];
    assert OfKind(c[1..], Historic) == [OuroPreto];
  }

  /** The four possible answers: every beach destination, the one mountain,
      the one historic city, or one of each kind. */
  lemma RecommendationCases(query: string)
    ensures var q := Lowercase(query);
            && (MentionsBeach(q) ==> RecommendLocations(query) == [Florianopolis, Santos, Ubatuba])
            && (!MentionsBeach(q) && MentionsMountain(q) ==> RecommendLocations(query) == [CamposDoJordao])
            && (!MentionsBeach(q) && !MentionsMountain(q) && MentionsHistory(q) ==>
                  RecommendLocations(query) == [OuroPreto])
            && (!MentionsBeach(q) && !MentionsMountain(q) && !MentionsHistory(q) ==>
                  RecommendLocations(query) == [Florianopolis, CamposDoJordao, OuroPreto])
  {
    CatalogueByKind();
  }

  /** The answer always lists catalogue entries in catalogue order. */
  lemma RecommendationIsSubsequence(query: string)
    ensures IsSubsequence(RecommendLocations(query), Catalogue)
  {
    RecommendationCases(query);
    CatalogueByKind();
    var q := Lowercase(query);
    var filtered :=
      if MentionsBeach(q) then OfKind(Catalogue, Beach)
      else if MentionsMountain(q) then OfKind(Catalogue, Mountain)
      else if MentionsHistory(q) then OfKind(Catalogue, Historic)
      else Variety(Catalogue);
    if MentionsBeach(q) || MentionsMountain(q) || MentionsHistory(q) {
      if |filtered| > MaxResults {
        PrefixSubsequence(filtered, Catalogue, MaxResults);
      }
    } else {
      assert RecommendLocations(query) == [Florianopolis, CamposDoJordao, OuroPreto];
      assert IsSubsequence([Ubatuba], [Ubatuba]);
      assert IsSubsequence([OuroPreto], [OuroPreto, Ubatuba]);
      assert IsSubsequence([CamposDoJordao, OuroPreto], [CamposDoJordao, Santos, OuroPreto, Ubatuba]) by {
        SubsequenceOfTail([OuroPreto], [Santos, OuroPreto, Ubatuba]);
      }
    }
  }
}

=== FILE: wrappers.dfy ===
/** Failure-carrying values shared by every module of the model.

    Python code raises exceptions; the model returns them as values. A `Fault`
    names the exception class and carries the text that `str(e)` would give. */
module Wrappers {

  /** Python's `None` versus a present value. */
  datatype Option<+T> = None | Some(value: T) {
    function GetOr(default: T): T {
      match this
      case Some(v) => v
      case None => default
    }
  }

  /** The exception classes the core raises or catches. */
  datatype FaultKind =
    | ValueError
    | FileNotFoundError
    | RuntimeError
    | KeyError
    | TypeError
    | AttributeError
    | NotImplementedError
    | OtherError

  /** A raised exception: its class and its message (`str(e)`). */
  datatype Fault = Fault(kind: FaultKind, message: string)

  /** Either a returned value or a raised exception. */
  datatype Outcome<+T> = Ok(value: T) | Raised(fault: Fault) {
    predicate IsFailure() {
      Raised?
    }

    function PropagateFailure<U>(): Outcome<U>
      requires Raised?
    {
      Raised(fault)
    }

    function Extract(): T
      requires Ok?
    {
      value
    }
  }
}
